=== FILE: README.md ===
# Pressure hysteresis monitor and PyContract, modelled in Dafny

This project models the runtime-verification demo `rv_demo`. It has two parts.

The first is the pressure monitor of `demo.py`. For each entity it keeps four streak counters and the previous reading. A reading of the kind "Pressione a valle" runs six ordered checks. The first check whose counter goes past the tolerance raises a violation, and the checks after it are skipped.

The second is the PyContract framework the monitor is written in:

- the state vector: `State`, `NextState` and `AlwaysState` evaluation, and `eval_states`;
- the monitor: keyed slices in `Monitor.eval`, hot states at `end`, all states and the message count;
- the `MatchObligations` bookkeeping behind `exhaustive` states;
- the string helpers of the core and of the PlantUML visualiser, the transition finder over an abstract statement tree, and the CSV file-name derivation.

Four demo monitors written in the framework are modelled as well:

- three versions of the dispatch/complete command protocol (data classes, dictionaries, dictionaries with a header line);
- the EVR protocol with `exhaustive` states.

Modules:

- `Wrappers`: `Option`.
- `Text`: split, join, decimal numbers and `int()`.
- `Pressure`: `demo.py`.
- `CsvName`: `get_csv_filename`.
- `PlantUml`: the helpers of `pycontract_plantuml.py`.
- `CoreText`: `quote` and `mk_string` of the core.
- `StateVector`: state evaluation and `eval_states`.
- `Monitoring`: `Monitor.eval`, `end`, `verify` and message counting.
- `Obligations`: `MatchObligations` and `exhaustive`.
- `Records`: dictionary events.
- `CommandProtocol`: what the three command demos share.
- `DemoDataclasses`, `DemoDictionaries`, `DemoHeader` and `DemoExhaustive`: the four demos.

A user monitor is a `Monitoring.Spec`. It holds a `StateVector.Machine`, which gives the kind of each state and its `transition`. The initial states are found by reflection in the source, so they are an argument of `Monitoring.Init`. In every demo they are the always state made from the monitor's own `transition`, as `Monitor.__init__` does.

Messages are a set. Each message carries a tag: the event number, the slice, the source state and its position in the source's results. Two reports with the same text from different sources or events therefore stay distinct, and the set's size is the number of reports.

## Model

| member | source | states |
|---|---|---|
| Pressure.Transition | demo.py:24-77 | Another kind of reading changes nothing. A monitored reading records its value as the entity's previous value and touches no other entity. A violation names the entity, reports count * 15 minutes and carries a count above the tolerance. |
| Pressure.DependsOnlyOnOwnState | demo.py:24-77 | The outcome for an entity depends only on that entity's counters and previous value. |
| Pressure.ZeroPrevActsAbsent | demo.py:52-70 | A previous value of 0.0 behaves exactly like no previous value, because the source tests `prev` for truthiness. |
| Pressure.FalsyPrevsAgree | demo.py:50-72 | The rate checks see no difference between two falsy previous values. |
| Pressure.NoPrevNoRateChange | demo.py:50-72 | Without a truthy previous value, the rising and falling counters are unchanged. |
| Pressure.HighCheck | demo.py:29-38 | Above HIGH the high count rises by exactly one. A violation is returned iff the new count exceeds MAX_UNSAFE, and then nothing else changes. Otherwise the low count is reset. |
| Pressure.LowCheck | demo.py:39-49 | When LOW <= HIGH: below LOW the low count rises by one. There is an error iff it exceeds MAX_UNSAFE; otherwise the high count is reset. |
| Pressure.RisingCheck | demo.py:50-58 | When LOW < HIGH and MAX_DELTA >= 0: with a truthy previous value, a rise above MAX_DELTA and no level alert first, the up count rises by one. There is an error iff it exceeds MAX_UNSAFE; otherwise the down count is zeroed. |
| Pressure.FallingCheck | demo.py:59-67 | When LOW < HIGH and MAX_DELTA >= 0, the falling check mirrors the rising one. |
| Pressure.StableResetsRates | demo.py:68-72 | A change within MAX_DELTA from a truthy previous value zeroes both rate counters. |
| Pressure.BandResetsLevels | demo.py:73-77 | A value strictly between LOW and HIGH zeroes both level counters. |
| Pressure.BoundaryLeavesLevels | demo.py:29-77 | A value equal to LOW or HIGH neither raises nor resets a level counter. |
| Pressure.RateAlertSkipsBandReset | demo.py:50-77 | An alert from a rate check skips the band reset that would follow. |
| Pressure.AlertCharacterization | demo.py:24-77 | When LOW < HIGH and MAX_DELTA >= 0, the returned violation is exactly the first of the six checks whose incremented counter exceeds MAX_UNSAFE. This is an independent reference definition. |
| Pressure.CountersWithoutAlert | demo.py:24-77 | When LOW < HIGH and MAX_DELTA >= 0 and there is no alert, each of the five stored values is given in closed form. |
| Pressure.InvertedBandForgetsLowStreak | demo.py:29-49 | With LOW above HIGH, a reading between them clears the low count in check 1 and restarts it in check 2: a low streak of 5 with MAX_UNSAFE 3 gives no alert, where the first-of-four reference expects one. |
| Pressure.AlertKeepsCounter | demo.py:34-66 | Emitting an error leaves the triggering counter at the reported count; it is never reset. |
| Pressure.HighAlertRepeats | demo.py:31-36 | After a high alert, the next high reading alerts again with the count one larger. |
| Pressure.RunIndependent | demo.py:24-77 | Readings of other entities never change an entity's state. |
| Pressure.IgnoredKindsChangeNothing | demo.py:25-26 | Dropping every reading of another kind from a sequence changes neither the final store nor the alerts. |
| Pressure.ScenarioTooHigh | demo.py:29-38 | With the command-line defaults, four readings above HIGH give the alert "too high for 60 minutes" on the fourth. |
| Pressure.ScenarioBackInBand | demo.py:73-106 | A reading back in the band resets the high count. |
| Pressure.ScenarioRising | demo.py:50-106 | Four rises of more than MAX_DELTA alert on the fourth. |
| Text.ParseInt | pycontract/demo/demo_using_dataclasses.py:67-69 | `int()` on an optionally signed run of ASCII digits gives its value. It fails exactly when the text is empty or what follows the optional sign is not a non-empty run of digits, so "-", "-x", "x5" and " 5" all fail. |
| Text.ParseIntToString | pycontract/demo/demo_using_dataclasses.py:67-69 | Parsing a number's decimal rendering gives the number back. |
| Text.SplitJoins | pycontract/pycontract_csv.py:64-66 | The pieces of `split(c)` contain no `c`, and joining them with `c` gives the text back. |
| Text.SplitUnique | pycontract/pycontract_csv.py:64-66 | Any `c`-free pieces that join to the text are its split. |
| CsvName.CsvFileName | pycontract/pycontract_csv.py:48-75 | A name whose suffix does not start with `xls` is returned unchanged. Otherwise the result starts with `__` and ends with `__.csv`. |
| CsvName.LastComponentIsAfterFinalSlash | pycontract/pycontract_csv.py:64-65 | The component kept is the text after the final `/`. |
| CsvName.SuffixIsAfterFinalDot | pycontract/pycontract_csv.py:66-68 | The suffix is the text after the last `.`; a name without a dot is its own suffix. |
| CsvName.SpreadsheetName | pycontract/pycontract_csv.py:69-71 | In the spreadsheet case the result is `__` + body + `__.csv`. The body, a dot and the suffix rebuild the last component, and no `/` survives. |
| CsvName.SpreadsheetInDirectory | pycontract/pycontract_csv.py:63-71 | For any dot-free body and any suffix starting with `xls`, the name `dir/body.suffix` becomes `__body__.csv`, without its directory. |
| CsvName.ExampleXlsxKeepsInnerDots | pycontract/pycontract_csv.py:66-71 | `a.b.xlsx` qualifies by the prefix test and keeps its inner dot. |
| CsvName.ExampleNoDot | pycontract/pycontract_csv.py:66-71 | `xls` alone is its own suffix and gives `____.csv`. |
| CsvName.ExampleSpreadsheet | pycontract/pycontract_csv.py:63-71 | The directory prefix is dropped. |
| CsvName.ExampleCsvUnchanged | pycontract/pycontract_csv.py:75 | A `.csv` name comes back as it is. |
| PlantUml.Intersects | pycontract/pycontract_plantuml.py:60-70 | True iff some element of the first list occurs in the second. |
| PlantUml.MkString | pycontract/pycontract_plantuml.py:115-127 | The loop computes the join of the strings with the separator. |
| PlantUml.JoinSeparatesOnlyBetween | pycontract/pycontract_plantuml.py:115-127 | An empty list gives `''`, one element gives itself, and the separator goes only between elements. |
| PlantUml.NextForkState | pycontract/pycontract_plantuml.py:24-41 | The counter rises by one, and the name produced satisfies `is_fork_state`. |
| PlantUml.ForkStatesDistinct | pycontract/pycontract_plantuml.py:24-31 | Different counter values give different fork-state names. |
| PlantUml.ExtendsState | pycontract/pycontract_plantuml.py:89-96 | True iff some base is one of the five state class names. |
| PlantUml.GetKind | pycontract/pycontract_plantuml.py:99-112 | The first base maps to FINAL, HOT, NEXT, HOTNEXT or ALWAYS, each iff that is its name. Anything else is the source's exception. |
| PlantUml.KindNeedsStateFirst | pycontract/pycontract_plantuml.py:89-112 | A known kind implies `extends_state`, but not the converse. |
| PlantUml.ForkTargets | pycontract/pycontract_plantuml.py:160-178 | Transitions out of a fork state carry no event, no conditions and no number. |
| PlantUml.FindTransitionsFromSource | pycontract/pycontract_plantuml.py:130-216 | Every transition found either starts at the source and extends the given conditions, or leaves a fork state. |
| PlantUml.LastStatementOnly | pycontract/pycontract_plantuml.py:142-144 | Only the last statement of a block is inspected. |
| PlantUml.IfBranches | pycontract/pycontract_plantuml.py:188-194 | An `if` gives the body's transitions under conditions + [test], followed by the else branch's under conditions + [`__not__(test)`]. |
| PlantUml.NoMatchKeepsEventAndNumber | pycontract/pycontract_plantuml.py:145-194 | Without a nested `match`, the event and case number are passed on unchanged. |
| PlantUml.MatchNumbering | pycontract/pycontract_plantuml.py:195-211 | In a `match`, each transition comes from some case k, and its conditions start with the outer conditions followed by the case's guard, if any. When case k's body holds no nested `match`, the transition has case k's pattern as event and is numbered k+1 if there is more than one case, None otherwise. For a case whose body does end in a nested `match`, only the conditions prefix is stated. |
| PlantUml.NestedMatchTakesOver | pycontract/pycontract_plantuml.py:195-211 | A `match` nested in the single case of an outer `match` gives its own patterns as events and numbers its own cases 1 and 2; the outer pattern appears nowhere. |
| PlantUml.RenderShape | pycontract/pycontract_plantuml.py:353-379 | The red error-state line comes first exactly for an `error` target. The arrow follows, and `ok` is shown as `[*]`. |
| CoreText.Quote | pycontract/pycontract_core.py:184-194 | A string is wrapped in single quotes; any other value is shown as it is. |
| CoreText.QuoteInjective | pycontract/pycontract_core.py:184-194 | Distinct strings quote differently. |
| CoreText.MkString | pycontract/pycontract_core.py:129-145 | The loop gives `begin`, then the quoted values separated by separator + space, then `end`. |
| CoreText.MkStringExamples | pycontract/pycontract_core.py:129-145 | No values give nothing between the delimiters; a string is quoted and a number is not. |
| StateVector.MkStateVector | pycontract/pycontract_core.py:605-616 | A list is returned unchanged; a single state becomes a singleton. |
| StateVector.EvalState | pycontract/pycontract_core.py:296-379 | With no transition, a plain or hot state stays and a next state gives exactly one error. When the transition returns something, a state of any other kind gives exactly the transition's list, and an always state gives that list followed by itself. An always state's result therefore always ends with itself. |
| StateVector.EvalStatesMeaning | pycontract/pycontract_core.py:774-806 | None iff the set is empty. Otherwise every source is removed, and a state is in the new set iff some source leads to it. `ok`, error and info results never add a state, and each error or info result becomes exactly one message. |
| StateVector.AlwaysPersists | pycontract/pycontract_core.py:368-379 | An always state survives every event. |
| StateVector.UnmatchedStays | pycontract/pycontract_core.py:308-312 | A plain or hot state without a matching case stays. |
| StateVector.UnmatchedNextFails | pycontract/pycontract_core.py:334-347 | A next state without a matching case leads nowhere and reports one error. |
| StateVector.EvalStatesLoop | pycontract/pycontract_core.py:774-806 | The loop over the states, in any order, computes the set definition of `eval_states`. |
| StateVector.CollectResults | pycontract/pycontract_core.py:791-799 | The inner loop adds exactly the user states among the results and reports exactly the errors and infos. |
| Monitoring.Init | pycontract/pycontract_core.py:638-687 | A new monitor has its initial states, no slices, no messages and count 0. |
| Monitoring.Eval | pycontract/pycontract_core.py:736-772 | The event count rises by exactly one, messages are never withdrawn, and slices are never dropped. |
| Monitoring.IrrelevantIgnored | pycontract/pycontract_core.py:744-752 | An irrelevant event is only counted. |
| Monitoring.UnkeyedSliceMembers | pycontract/pycontract_core.py:753-761 | After an unkeyed event, a non-empty slice k is still there, and a state is in it iff some state of the old slice k leads to it. |
| Monitoring.KeyedEvaluatesOneSlice | pycontract/pycontract_core.py:762-770 | With key k, slice k is evaluated, or the main states when there is no slice k. The result is stored in slice k only, and everything else is untouched. |
| Monitoring.AlwaysStaysInMain | pycontract/pycontract_core.py:753-756 | An always state in the main set is still there after an unkeyed event. |
| Monitoring.UnkeyedStateMembers | pycontract/pycontract_core.py:753-756 | After an unkeyed event, a state is a main state iff some old main state leads to it. |
| Monitoring.UnkeyedReports | pycontract/pycontract_core.py:753-798 | Every error or info result of a main state is reported, stamped with the event's number. |
| Monitoring.EvalAddsFreshMessages | pycontract/pycontract_core.py:736-806 | The messages after an event are the old ones plus exactly the event's reports (those of the main states and every slice without a key, those of the one slice with a key, none for an irrelevant event). The reports are disjoint from the old messages, so the count grows by exactly their number. |
| Monitoring.AllStatesMembers | pycontract/pycontract_core.py:944-953 | All states are the main states together with those of every slice. |
| Monitoring.End | pycontract/pycontract_core.py:808-826 | `end` changes no state and withdraws no message. |
| Monitoring.EndReportsHotStates | pycontract/pycontract_core.py:821-823 | There is an end error for a state iff it is still active, in the main set or in a slice, and hot. With no hot state, no message is added. |
| Monitoring.RunCounts | pycontract/pycontract_core.py:828-837 | Over a trace the count rises by its length, and slices and messages are only added. |
| Monitoring.RunAppend | pycontract/pycontract_core.py:828-837 | Running two traces one after the other is running their concatenation. |
| Monitoring.CountIsAllMessages | pycontract/pycontract_core.py:955-984 | The recursive message count equals the number of all messages of the monitor and its sub-monitors. |
| Obligations.NoObligations | pycontract/pycontract_core.py:484-496 | A new object has nothing pending, nothing removed and `remove_called` false. |
| Obligations.Add | pycontract/pycontract_core.py:498-505 | Adding a line makes it pending with its case; other lines and flags are kept. |
| Obligations.Remove | pycontract/pycontract_core.py:507-518 | A pending line is deleted and recorded as removed. A line removed before is accepted. Any other line fails the assertion, which is modelled as None. |
| Obligations.EmptyMeansNonePending | pycontract/pycontract_core.py:520-525 | `empty()` holds iff no line is pending. |
| Obligations.Exhaustive | pycontract/pycontract_core.py:567-578 | An int result removes its line and gives `ok` iff the obligations are then empty, `self` otherwise. Any other result passes through. |
| Obligations.RemoveAllPending | pycontract/pycontract_core.py:507-518 | Any sequence of pending or already removed lines never fails. Afterwards exactly the lines not executed are pending. |
| Obligations.EmptyIffAllDone | pycontract/pycontract_core.py:507-525 | After a sequence of `done()` lines the object is empty iff every obligation's line was among them, in any order. |
| Obligations.SharedObligationsDischargeEarly | pycontract/pycontract_core.py:556-578 | With one shared object, a second instance is answered `ok` on its first `done()`. Per instance, it is not. |
| Obligations.SharedExample | pycontract/pycontract_core.py:556-578 | The shared object answers [false, false, true, true] to instance a's three lines followed by instance b's first. |
| Obligations.PerInstanceExample | pycontract/pycontract_core.py:567-578 | Per-instance objects answer [false, false, true, false] to the same calls. |
| Obligations.PerInstanceStep | pycontract/pycontract_core.py:567-578 | Per instance, a call never fails and answers `ok` iff its own instance has now executed every line. |
| Obligations.PerInstanceDischarge | pycontract/pycontract_core.py:567-578 | Per instance, over any sequence of calls, call j answers `ok` iff its instance has executed all lines by then; other instances play no part. |
| DemoDataclasses.Convert | pycontract/demo/demo_using_dataclasses.py:64-69 | DISPATCH and COMPLETE lines become the events with the parsed time and the same cmd and nr. A time that is not a number fails, and any other operation gives no event. |
| DemoDataclasses.ConvertWritten | pycontract/demo/demo_using_dataclasses.py:64-69 | A line written from an event converts back to it. |
| DemoDataclasses.DispatchAwaitsCompletion | pycontract/demo/demo_using_dataclasses.py:24-27 | Every `Dispatch` creates `DoComplete` with its time, cmd and nr. |
| DemoDataclasses.WaitingSources | pycontract/demo/demo_using_dataclasses.py:24-43 | A waiting state comes only from a dispatch or from itself on an event about another command. |
| DemoDataclasses.CompletionInTime | pycontract/demo/demo_using_dataclasses.py:37-39 | A matching `Complete` within 3000 ends the wait and gives `Completed(cmd, nr)`. |
| DemoDataclasses.CompletionTooLate | pycontract/demo/demo_using_dataclasses.py:37-41 | A later `Complete` reports "completion takes too long" and ends the wait. |
| DemoDataclasses.DispatchedTwice | pycontract/demo/demo_using_dataclasses.py:42-43 | A second matching `Dispatch` while waiting is reported, and a new wait starts from the always state. |
| DemoDataclasses.CompletedTwice | pycontract/demo/demo_using_dataclasses.py:50-53 | A matching `Complete` in `Completed` is reported. |
| DemoDataclasses.OtherEventsKeepWaiting | pycontract/demo/demo_using_dataclasses.py:33-43 | Events about other commands leave a wait as it is. |
| DemoDataclasses.PendingAtEnd | pycontract/demo/demo_using_dataclasses.py:30 | At the end a state is reported iff it is a pending `DoComplete`, which is a hot state. |
| DemoDataclasses.TimelyTraceIsClean | pycontract/demo/demo_using_dataclasses.py:23-53 | Dispatch followed by a completion in time gives no message at all. |
| DemoDataclasses.UncompletedTraceReported | pycontract/demo/demo_using_dataclasses.py:29-30 | A dispatch never completed is reported at the end. |
| DemoDictionaries.Step | pycontract/demo/demo_using_dictionaries.py:19-23 | Each step counts one event and keeps all messages. Only a waiting state given a completion can stop the run. |
| DemoDictionaries.DispatchAwaitsCompletion | pycontract/demo/demo_using_dictionaries.py:8-11 | A DISPATCH record creates `DoComplete` with its time kept as text, its cmd and its nr. |
| DemoDictionaries.WaitingSources | pycontract/demo/demo_using_dictionaries.py:8-27 | A waiting state comes only from a dispatch with those fields, or from itself when the event does not settle it. |
| DemoDictionaries.CompletionInTime | pycontract/demo/demo_using_dictionaries.py:21-23 | A matching COMPLETE goes to `Completed` when int(time) - int(self.time) <= 3000. |
| DemoDictionaries.CompletionTooLate | pycontract/demo/demo_using_dictionaries.py:21-25 | Otherwise it reports "completion takes too long" and ends the wait. |
| DemoDictionaries.DispatchedTwice | pycontract/demo/demo_using_dictionaries.py:26-27 | A re-DISPATCH of the same cmd and nr while waiting is reported, whatever its time. |
| DemoDictionaries.CompletedTwice | pycontract/demo/demo_using_dictionaries.py:36-37 | A second COMPLETE after `Completed` is reported. |
| DemoDictionaries.PendingAtEnd | pycontract/demo/demo_using_dictionaries.py:14 | A pending `DoComplete` is reported at the end. |
| DemoDictionaries.BadTimeStops | pycontract/demo/demo_using_dictionaries.py:22 | A completion whose time or stored dispatch time is not a number stops the run with `ValueError`. |
| DemoDictionaries.TimesStayParsable | pycontract/demo/demo_using_dictionaries.py:8-22 | An event with a numeric time keeps every waiting time numeric. |
| DemoDictionaries.WellTimedFileRuns | pycontract/demo/demo_using_dictionaries.py:48-54 | A file whose time column always holds a number is monitored to its end. |
| DemoDictionaries.WellTimedFileFromStart | pycontract/demo/demo_using_dictionaries.py:48-54 | The same holds from construction. |
| DemoHeader.Step | pycontract/demo/demo_using_dictionaries_and_header.py:8-20 | Each step counts one event and keeps all messages. Only a record with a non-numeric time can stop the run. |
| DemoHeader.DispatchAwaitsCompletion | pycontract/demo/demo_using_dictionaries_and_header.py:8-9 | DISPATCH converts the time with `int()` when creating `DoComplete`. |
| DemoHeader.BadDispatchStops | pycontract/demo/demo_using_dictionaries_and_header.py:9 | A DISPATCH with a non-numeric time stops the run. |
| DemoHeader.WaitingSources | pycontract/demo/demo_using_dictionaries_and_header.py:6-25 | A waiting state comes only from a dispatch with that time, or from itself when the event does not settle it. |
| DemoHeader.CompletionInTime | pycontract/demo/demo_using_dictionaries_and_header.py:19-21 | A matching COMPLETE within 3000 goes to `Completed`. |
| DemoHeader.CompletionTooLate | pycontract/demo/demo_using_dictionaries_and_header.py:19-23 | Otherwise it reports and ends the wait. |
| DemoHeader.DispatchedTwice | pycontract/demo/demo_using_dictionaries_and_header.py:24-25 | A duplicate DISPATCH while waiting is reported. |
| DemoHeader.CompletedTwice | pycontract/demo/demo_using_dictionaries_and_header.py:34-35 | A repeated COMPLETE after completion is reported. |
| DemoHeader.PendingAtEnd | pycontract/demo/demo_using_dictionaries_and_header.py:12 | A pending `DoComplete` is reported at the end. |
| DemoHeader.WellTimedFileRuns | pycontract/demo/demo_using_dictionaries_and_header.py:38-44 | A file whose time column always holds a number is monitored to its end. |
| DemoHeader.WellTimedFileFromStart | pycontract/demo/demo_using_dictionaries_and_header.py:38-44 | The same holds from construction. |
| DemoExhaustive.ThrustObligations | pycontract/demo/demo_using_exhaustive.py:49-54 | The THRUST obligations are the `done()` lines 50, 52 and 54, none removed. |
| DemoExhaustive.DispatchStartsWait | pycontract/demo/demo_using_exhaustive.py:19-24 | DISPATCH TURN nr creates `DoCompleteTurn(nr)` with all three lines pending; DISPATCH THRUST creates `DoCompleteThrust(nr)`. |
| DemoExhaustive.TurnAnyOrder | pycontract/demo/demo_using_exhaustive.py:30-38 | After any earlier EVRs in any order, an EVR leaves the TURN wait with `ok` iff EVR1, EVR2 and EVR3 have all been seen. Otherwise the wait goes on with that line discharged. |
| DemoExhaustive.ThrustAnyOrder | pycontract/demo/demo_using_exhaustive.py:46-54 | The same holds for THRUST with EVR4, EVR5 and EVR6. |
| DemoExhaustive.CompletedTooEarly | pycontract/demo/demo_using_exhaustive.py:39-40 | A COMPLETE TURN for a waiting number reports "TURN Completes too early". |
| DemoExhaustive.WarningCancels | pycontract/demo/demo_using_exhaustive.py:55-56 | A WARNING THRUST gives `ok` and leaves no THRUST wait for that number. |
| DemoExhaustive.PendingAtEnd | pycontract/demo/demo_using_exhaustive.py:27-43 | Both waits are hot, so pending obligations at the end are reported. |
| DemoExhaustive.DoneNeverFails | pycontract/pycontract_core.py:507-518 | In a state whose lines are each pending or discharged, `remove` never fails its assertion, and the state it keeps has the same property. |
| DemoExhaustive.DoneNeverFailsAfterAnyTrace | pycontract/pycontract_core.py:507-518 | In a monitor run from construction over any events, no waiting state's `done()` ever fails the assertion in `remove`. |
| DemoExhaustive.SettledAlong | pycontract/demo/demo_using_exhaustive.py:18-56 | Over any trace, the always state stays and every waiting state's lines stay each pending or discharged. |
| DemoExhaustive.WrittenFirst | pycontract/pycontract_core.py:556-578 | As written, with the TURN waits sharing one object that starts with lines 34, 36 and 38 pending: on EVR1, EVR2, EVR3 for wait a and then EVR1 for wait b, wait a goes on twice and then gives `ok`, and wait b gives `ok` on its first EVR. |
| DemoExhaustive.OwnFirst | pycontract/demo/demo_using_exhaustive.py:30-38 | With its own obligations, a fresh TURN wait goes on after EVR1 with EVR2 and EVR3 pending. |
| DemoExhaustive.WrittenSecondWaitEndsEarly | pycontract/pycontract_core.py:556-578 | On the demo's own TURN obligations, the shared object ends the second wait on its first EVR1. With per-instance obligations, the same wait goes on with lines 36 and 38 pending. |
| DemoExhaustive.ThrustSources | pycontract/demo/demo_using_exhaustive.py:23-56 | A THRUST wait comes only from a THRUST dispatch, or from a THRUST wait for the same number that no WARNING cancelled. |
| Obligations.TurnObligationsLines | pycontract/demo/demo_using_exhaustive.py:30-38 | The TURN obligations are the `done()` lines 34, 36 and 38, none removed. |
| Pressure.Run | demo.py:24-77 | A sequence of readings gives one outcome per reading. |
| Pressure.OfMonitoredKind | demo.py:25-26 | The filtered sequence keeps exactly the monitored readings. |
| CsvName.BodyRebuildsComponent | pycontract/pycontract_csv.py:64-70 | The body joined to the suffix by a dot is the last path component. |
| CsvName.NoSlashInBody | pycontract/pycontract_csv.py:64-70 | The body contains no `/`. |
| CsvName.TextAfterLastUnique | pycontract/pycontract_csv.py:64-68 | The text after the last occurrence of a character is unique. |
| Text.NatToStringInjective | pycontract/demo/demo_using_dataclasses.py:67-69 | Distinct numbers have distinct decimal renderings. |
| Monitoring.EventReportsStamped | pycontract/pycontract_core.py:744-798 | Every report of an event, in whichever slice, carries that event's number. |
| Monitoring.ReportsStamped | pycontract/pycontract_core.py:744-798 | Every message an event adds carries that event's number. |
| Monitoring.SubCountsAreSubMessages | pycontract/pycontract_core.py:955-984 | Summed over a list of sub-monitors, the counts equal the number of their messages. |

## Left out

- Printing, `set_debug`, the debug tracing of `eval`, and the text of `Monitor.__str__`: output only. Messages are modelled as structured values.
- Reflection: the discovery of the monitor's own `transition` as the initial always state, `inspect`, and the scanning of source text by `exhaustive` to find the `done()` lines. The models write the resulting states and line sets down directly.
- Sub-monitors: only their message counting is modelled (`Monitoring.CountIsAllMessages`). Their evaluation and `end` are not, because no demo uses them.
- `number_of_states`, `Monitor.__init__`'s bookkeeping beyond the initial states, and the iteration order of Python sets, which does not affect the resulting sets.
- `CSVSource` and pandas: reading files, headers and `column_names`. A file is a sequence of records, so the header demo's column names from the file are not modelled.
- `Analyzer` and the writing of PlantUML files. The transition finder works on an abstract statement tree, not on the Python `ast`. A call whose callee is neither a name nor an attribute is not represented.
- `demo.py`'s `main`, `input()`, argparse and psutil. The command-line defaults appear only as constants in the scenarios.
- Pressure.Transition: readings are exact reals, not IEEE floats, so rounding at the thresholds is not modelled.
- Pressure.Transition: the per-entity dictionaries are class attributes in the source and shared by every instance; here they belong to one monitor's store.
- Pressure.LowCheck: stated only when LOW <= HIGH. The command line accepts any thresholds; with an inverted band check 1 clears the low count that check 2 then raises from zero (`Pressure.InvertedBandForgetsLowStreak`).
- Pressure.RisingCheck: stated only when LOW < HIGH and MAX_DELTA >= 0, which the command line does not enforce.
- Pressure.FallingCheck: stated only when LOW < HIGH and MAX_DELTA >= 0, which the command line does not enforce.
- Pressure.AlertCharacterization: stated only when LOW < HIGH and MAX_DELTA >= 0; with an inverted band the first-of-four reference and the code disagree (`Pressure.InvertedBandForgetsLowStreak`). `Pressure.Transition` itself models every configuration.
- Pressure.CountersWithoutAlert: stated only when LOW < HIGH and MAX_DELTA >= 0, which the command line does not enforce.
- Text.ParseInt: `int()` also accepts surrounding whitespace, `_` between digits, and non-ASCII Unicode decimal digits such as "٣". These are not modelled and are treated as failures.
- PlantUml.MatchNumbering: for a case whose body ends in a nested `match`, the event and number of its transitions are not stated for all inputs, only their conditions. `PlantUml.NestedMatchTakesOver` shows on one tree that the inner pattern and number take over.
- Records.Record: `csv.DictReader` gives a row shorter than the header the value None for each missing column, and puts extra cells under the key None. A record here maps only present columns to text, so a missing column is an absent key. On the row "DISPATCH,100" the dispatch pattern of the dictionary demos matches in Python, with cmd and nr None, and starts a wait; here `CommandProtocol.IsDispatch` is false and no wait starts.
- DemoExhaustive.DispatchStartsWait: the demo's waits are modelled with per-instance obligations, the corrected `exhaustive` (see "## Findings"). As written, a new TURN or THRUST wait takes the class's one shared object in whatever state earlier waits left it, not all three lines pending (`DemoExhaustive.WrittenSecondWaitEndsEarly`).
- DemoExhaustive.TurnAnyOrder: per-instance obligations, as for `DispatchStartsWait`. As written, once an earlier TURN wait has seen EVR1, EVR2 and EVR3, a later TURN wait gives `ok` on its first EVR (`DemoExhaustive.WrittenFirst`), not only after all three of its own.
- DemoExhaustive.ThrustAnyOrder: per-instance obligations, as for `TurnAnyOrder`. As written, THRUST waits share one object in the same way.
- DemoExhaustive.TurnAnyOrder: states of `@data` classes compare equal by their fields and ignore the obligations object. Here a waiting state carries its obligations, so two waits for the same number with different progress are distinct states.
- DemoExhaustive: the `AssertionError` branch of `exhaustive` for a missing line is proved unreachable (`DemoExhaustive.DoneNeverFailsAfterAnyTrace`), so the wrapper gives no result there.
- DemoDictionaries.Step and DemoHeader.Step: an uncaught `ValueError` ends the program. It is modelled as None with no further events processed; the traceback is not modelled.

## Findings

A natural reading of the pressure monitor's design is that a violation fires only when a counter goes from MAX_UNSAFE to MAX_UNSAFE + 1. The code keeps the counter after an alert and alerts again on every further reading (`Pressure.HighAlertRepeats`). The model follows the code.

| source | as written | input that shows it | evidently intended | confidence | as-written member | corrected member |
|---|---|---|---|---|---|---|
| pycontract/pycontract_core.py:556-578 | `exhaustive` creates one `MatchObligations` per decorated `transition` and every instance of the state class uses it, so obligations discharged by one instance count for all | DISPATCH TURN 1, then EVR1, EVR2, EVR3 for TURN 1, then DISPATCH TURN 2 and EVR1 for TURN 2: the second wait answers `ok` at once | each waiting instance discharges its own copy of the obligations | not executed | Obligations.SharedObligationsDischargeEarly | Obligations.PerInstanceDischarge |

=== FILE: command_protocol.dfy ===
/** What the three command monitors (demo_using_dataclasses.py,
    demo_using_dictionaries.py, demo_using_dictionaries_and_header.py)
    have in common: the time limit, the error texts, and the mapping
    patterns of the two dictionary versions. */
module CommandProtocol {
  import opened Wrappers
  import opened Text
  import opened Records

  /** The longest time allowed between dispatch and completion. */
  const Limit: int := 3000

  function TooLongText(cmd: string, nr: string): string {
    cmd + " " + nr + " completion takes too long"
  }

  function TwiceText(cmd: string, nr: string): string {
    cmd + " " + nr + " dispatched more than once"
  }

  function AgainText(cmd: string): string {
    cmd + " already completed"
  }

  /** `{'op': 'DISPATCH', 'time': time, 'cmd': cmd, 'nr': nr}` */
  predicate IsDispatch(r: Record) {
    Has(r, "op", "DISPATCH") && "time" in r && "cmd" in r && "nr" in r
  }

  /** `{'op': 'COMPLETE', 'time': time, 'cmd': self.cmd, 'nr': self.nr}` */
  predicate IsCompletion(r: Record, cmd: string, nr: string) {
    Has(r, "op", "COMPLETE") && "time" in r && Has(r, "cmd", cmd) && Has(r, "nr", nr)
  }

  /** `{'op': 'DISPATCH', 'cmd': self.cmd, 'nr': self.nr}`: no time needed. */
  predicate IsRedispatch(r: Record, cmd: string, nr: string) {
    Has(r, "op", "DISPATCH") && Has(r, "cmd", cmd) && Has(r, "nr", nr)
  }

  /** `{'op': 'COMPLETE', 'cmd': self.cmd, 'nr': self.nr}`: no time needed. */
  predicate IsRecompletion(r: Record, cmd: string, nr: string) {
    Has(r, "op", "COMPLETE") && Has(r, "cmd", cmd) && Has(r, "nr", nr)
  }

  /** The time column, where present, holds a decimal integer, so that
      `int(time)` does not raise `ValueError`. */
  predicate WellTimed(r: Record) {
    "time" in r ==> ParseInt(r["time"]).Some?
  }
}

=== FILE: core_text.dfy ===
/** The string helpers of the monitor framework (pycontract_core.py):
    `quote`, which puts single quotes around strings only, and `mk_string`,
    which lists values between delimiters. Python's `str()` of a non-string
    value is taken as given (`Shown`). */
module CoreText {
  import opened Text

  /** A value to be shown: a string, or any other object with its `str()`. */
  datatype Value = Str(s: string) | Shown(text: string)

  /** `f'{quote(arg)}'` (pycontract_core.py:184-194) */
  function Quote(v: Value): (r: string)
    ensures v.Str? ==> |r| == |v.s| + 2 && r[0] == '\'' && r[|r| - 1] == '\'' && r[1..|r| - 1] == v.s
    ensures v.Shown? ==> r == v.text
  {
    match v
    case Str(s) => "'" + s + "'"
    case Shown(text) => text
  }

  /** Quoting keeps strings apart: distinct strings quote differently. */
  lemma QuoteInjective(a: string, b: string)
    requires Quote(Str(a)) == Quote(Str(b))
    ensures a == b
  {
    var q := Quote(Str(a));
    assert a == q[1..|q| - 1];
  }

  function QuoteAll(args: seq<Value>): (r: seq<string>)
    ensures |r| == |args|
    ensures forall i :: 0 <= i < |args| ==> r[i] == Quote(args[i])
  {
    if |args| == 0 then [] else [Quote(args[0])] + QuoteAll(args[1..])
  }

  /** One more element of a list, joined. */
  lemma JoinStep(xs: seq<string>, i: nat, sep: string)
    requires i < |xs|
    ensures Join(xs[..i + 1], sep) == if i == 0 then xs[0] else Join(xs[..i], sep) + sep + xs[i]
  {
    if i == 0 {
      assert xs[..1] == [xs[0]];
    } else {
      assert xs[..i + 1] == xs[..i] + [xs[i]];
      JoinSnoc(xs[..i], xs[i], sep);
    }
  }

  /** One turn of `mk_string`'s loop keeps the text built so far equal to
      the delimiter followed by the values joined so far. */
  lemma MkStringStep(begin: string, sep: string, quoted: seq<string>, i: nat, result: string, current: string)
    requires i < |quoted|
    requires result == begin + Join(quoted[..i], sep)
    requires current == if i == 0 then "" else sep
    ensures result + current + quoted[i] == begin + Join(quoted[..i + 1], sep)
  {
    JoinStep(quoted, i, sep);
  }

  /** `mk_string(begin, separator, end, args)` (pycontract_core.py:129-145),
      the loop as written: the quoted values, separated by the separator
      followed by one space, between `begin` and `end`. */
  method MkString(begin: string, separator: string, end: string, args: seq<Value>) returns (result: string)
    ensures result == begin + Join(QuoteAll(args), separator + " ") + end
  {
    result := begin;
    var sep := "";
    ghost var quoted := QuoteAll(args);
    for i := 0 to |args|
      invariant result == begin + Join(quoted[..i], separator + " ")
      invariant sep == if i == 0 then "" else separator + " "
    {
      MkStringStep(begin, separator + " ", quoted, i, result, sep);
      result := result + sep + Quote(args[i]);
      sep := separator + " ";
    }
    assert quoted[..|args|] == quoted;
    result := result + end;
  }

  /** No values give just the delimiters; a string is quoted, another
      value is not. */
  lemma MkStringExamples()
    ensures Join(QuoteAll([]), ", ") == ""
    ensures Join(QuoteAll([Str("a"), Shown("1")]), ", ") == "'a', 1"
  {
    var q := QuoteAll([Str("a"), Shown("1")]);
    assert q[0] == "'a'" && q[1] == "1";
    assert q[1..] == ["1"];
  }
}

=== FILE: csv_name.dfy ===
/** The file-name computation of `get_csv_filename` (pycontract_csv.py):
    a spreadsheet name (last suffix starting with `xls`) becomes
    `__<body>__.csv` in the current directory; any other name is kept. The
    spreadsheet conversion itself is file I/O and not part of this model. */
module CsvName {
  import opened Text

  /** `name.split('/')[-1]` */
  function LastComponent(name: string): string {
    Last(Split(name, '/'))
  }

  /** `last_dash_part.split('.')` */
  function DotParts(name: string): (parts: seq<string>)
    ensures |parts| >= 1
  {
    Split(LastComponent(name), '.')
  }

  /** `dot_parts[-1]` */
  function Suffix(name: string): string {
    Last(DotParts(name))
  }

  predicate IsSpreadsheet(name: string) {
    StartsWith(Suffix(name), "xls")
  }

  /** `get_csv_filename(name)` without the conversion side effect. */
  function CsvFileName(name: string): (r: string)
    ensures !IsSpreadsheet(name) ==> r == name
    ensures IsSpreadsheet(name) ==> StartsWith(r, "__") && |r| >= 8 && r[|r| - 6..] == "__.csv"
  {
    var parts := DotParts(name);
    if IsSpreadsheet(name) then
      "__" + Join(parts[..|parts| - 1], ".") + "__.csv"
    else name
  }

  /** The body between `__` and `__.csv` */
  function Body(name: string): string {
    var parts := DotParts(name);
    Join(parts[..|parts| - 1], ".")
  }

  // -----------------------------------------------------------------------
  // What the split pieces are, independently of how they are computed

  /** `tail` is what follows the last `c` in `s` (all of `s` if `c` does
      not occur). */
  predicate IsTextAfterLast(s: string, c: char, tail: string) {
    && c !in tail
    && |tail| <= |s|
    && s[|s| - |tail|..] == tail
    && (|tail| < |s| ==> s[|s| - |tail| - 1] == c)
  }

  /** The last piece of a split is the text after the last separator, and
      the pieces before it join to the text before that separator. */
  lemma {:induction false} LastPiece(s: string, c: char)
    ensures IsTextAfterLast(s, c, Last(Split(s, c)))
    ensures var parts := Split(s, c);
            |parts| > 1 ==> Join(parts[..|parts| - 1], [c]) + [c] + Last(parts) == s
    ensures var parts := Split(s, c);
            |parts| == 1 <==> c !in s
  {
    var parts := Split(s, c);
    SplitJoins(s, c);
    if |parts| > 1 {
      var init := parts[..|parts| - 1];
      assert init + [Last(parts)] == parts;
      JoinSnoc(init, Last(parts), [c]);
    } else {
      assert parts == [parts[0]];
    }
  }

  /** The directory part is discarded: the last component is the text after
      the final `/`. */
  lemma LastComponentIsAfterFinalSlash(name: string)
    ensures IsTextAfterLast(name, '/', LastComponent(name))
  {
    LastPiece(name, '/');
  }

  /** The suffix is the text after the last `.` of the last component; a
      component without a dot is its own suffix. */
  lemma SuffixIsAfterFinalDot(name: string)
    ensures IsTextAfterLast(LastComponent(name), '.', Suffix(name))
    ensures '.' !in LastComponent(name) ==> Suffix(name) == LastComponent(name)
  {
    LastPiece(LastComponent(name), '.');
  }

  /** In the spreadsheet case the result is `__<body>__.csv`, where `body`
      followed by `.` and the suffix is the last path component, or `body`
      is empty when that component has no dot; no directory survives. */
  lemma SpreadsheetName(name: string)
    requires IsSpreadsheet(name)
    ensures CsvFileName(name) == "__" + Body(name) + "__.csv"
    ensures '.' in LastComponent(name) ==> Body(name) + "." + Suffix(name) == LastComponent(name)
    ensures '.' !in LastComponent(name) ==> Body(name) == ""
    ensures '/' !in CsvFileName(name)
  {
    BodyRebuildsComponent(name);
    NoSlashInBody(name);
  }

  lemma BodyRebuildsComponent(name: string)
    ensures '.' in LastComponent(name) ==> Body(name) + "." + Suffix(name) == LastComponent(name)
    ensures '.' !in LastComponent(name) ==> Body(name) == ""
  {
    LastPiece(LastComponent(name), '.');
  }

  lemma NoSlashInBody(name: string)
    ensures '/' !in Body(name)
  {
    var comp := LastComponent(name);
    assert '/' !in comp by {
      LastComponentIsAfterFinalSlash(name);
    }
    var parts := DotParts(name);
    var init := parts[..|parts| - 1];
    forall i | 0 <= i < |init|
      ensures '/' !in init[i]
    {
      PieceInside(comp, '.', i);
    }
    NoCharInJoin(init, ".", '/');
  }

  /** Each piece of a split string occurs inside the string. */
  lemma PieceInside(s: string, c: char, i: nat)
    requires i < |Split(s, c)|
    ensures forall ch :: ch in Split(s, c)[i] ==> ch in s
  {
    var parts := Split(s, c);
    SplitJoins(s, c);
    forall ch | ch in parts[i]
      ensures ch in s
    {
      InJoin(parts, [c], i, ch);
    }
  }

  lemma {:induction false} InJoin(parts: seq<string>, sep: string, i: nat, ch: char)
    requires i < |parts| && ch in parts[i]
    ensures ch in Join(parts, sep)
    decreases |parts|
  {
    if i > 0 {
      InJoin(parts[1..], sep, i - 1, ch);
    }
  }

  lemma {:induction false} NoCharInJoin(parts: seq<string>, sep: string, ch: char)
    requires ch !in sep
    requires forall i :: 0 <= i < |parts| ==> ch !in parts[i]
    ensures ch !in Join(parts, sep)
    decreases |parts|
  {
    if |parts| > 1 {
      NoCharInJoin(parts[1..], sep, ch);
    }
  }

  /** The text after the last separator is unique. */
  lemma TextAfterLastUnique(s: string, c: char, t1: string, t2: string)
    requires IsTextAfterLast(s, c, t1) && IsTextAfterLast(s, c, t2)
    ensures t1 == t2
  {
  }

  lemma JoinTwo(a: string, b: string, sep: string)
    ensures Join([a, b], sep) == a + sep + b
  {
    assert [a, b][1..] == [b];
  }

  lemma JoinThree(a: string, b: string, d: string, sep: string)
    ensures Join([a, b, d], sep) == a + sep + b + sep + d
  {
    assert [a, b, d][1..] == [b, d];
    JoinTwo(b, d, sep);
  }

  // -----------------------------------------------------------------------
  // Examples

  /** A name with one `/` has the text after it as its last component. */
  lemma OneSlash(name: string, dir: string, comp: string)
    requires name == dir + "/" + comp && '/' !in dir && '/' !in comp
    ensures LastComponent(name) == comp
  {
    JoinTwo(dir, comp, "/");
    SplitUnique(name, '/', [dir, comp]);
  }

  /** A component with one `.` splits into the text around it. */
  lemma OneDot(comp: string, body: string, suffix: string)
    requires comp == body + "." + suffix && '.' !in body && '.' !in suffix
    ensures Split(comp, '.') == [body, suffix]
  {
    JoinTwo(body, suffix, ".");
    SplitUnique(comp, '.', [body, suffix]);
  }

  /** A spreadsheet `dir/body.suffix` becomes `__body__.csv`, without its
      directory. */
  lemma SpreadsheetInDirectory(dir: string, body: string, suffix: string)
    requires '/' !in dir && '/' !in body && '/' !in suffix
    requires '.' !in body && '.' !in suffix && StartsWith(suffix, "xls")
    ensures CsvFileName(dir + "/" + body + "." + suffix) == "__" + body + "__.csv"
  {
    var name := dir + "/" + body + "." + suffix;
    var comp := body + "." + suffix;
    assert name == dir + "/" + comp;
    OneSlash(name, dir, comp);
    OneDot(comp, body, suffix);
    assert DotParts(name) == [body, suffix];
    assert [body, suffix][..1] == [body];
    SpreadsheetName(name);
  }

  lemma ExampleSpreadsheet()
    ensures CsvFileName("logs/run.xls") == "__" + "run" + "__.csv"
  {
    var name := "logs/run.xls";
    assert name == "logs" + "/" + "run" + "." + "xls";
    SpreadsheetInDirectory("logs", "run", "xls");
  }

  /** The suffix test is a prefix test, so `.xlsx` also qualifies, and only
      the last suffix is removed. The name is a parameter fixed by the
      precondition: applied to a literal, `Split` would be unfolded
      character by character, which is far more costly than the proof
      through `SplitUnique` below. */
  lemma ExampleXlsxKeepsInnerDots(name: string)
    requires name == "a.b.xlsx"
    ensures CsvFileName(name) == "__a.b__.csv"
  {
    assert IsTextAfterLast(name, '/', name);
    LastComponentIsAfterFinalSlash(name);
    TextAfterLastUnique(name, '/', name, LastComponent(name));
    var parts := ["a", "b", "xlsx"];
    JoinThree("a", "b", "xlsx", ".");
    SplitUnique(name, '.', parts);
    assert parts[..2] == ["a", "b"];
    JoinTwo("a", "b", ".");
  }

  /** A name without a dot is its own suffix: `xls` alone gives `____.csv`. */
  lemma ExampleNoDot()
    ensures CsvFileName("xls") == "____.csv"
  {
    var name := "xls";
    SplitUnique(name, '/', [name]);
    SplitUnique(name, '.', [name]);
  }

  /** A `.csv` name comes back unchanged. As in the previous example, the
      name is a parameter fixed by the precondition so that `Split` is not
      unfolded on a literal. */
  lemma ExampleCsvUnchanged(name: string)
    requires name == "data/readings.csv"
    ensures CsvFileName(name) == name
  {
    OneSlash(name, "data", "readings.csv");
    OneDot(LastComponent(name), "readings", "csv");
    assert Suffix(name) == "csv";
    assert "csv"[0] != "xls"[0];
  }
}

=== FILE: demo_dataclasses.dfy ===
/** The command monitor of demo_using_dataclasses.py: every dispatched
    command must be completed within 3000 time units, must not be
    dispatched twice while it waits, and must not be completed twice.
    Events are objects of the classes `Dispatch` and `Complete`, built from
    CSV lines by `convert`. */
module DemoDataclasses {
  import opened Wrappers
  import opened Text
  import opened StateVector
  import opened Monitoring
  import opened CommandProtocol

  /** A CSV line under the column names `op`, `time`, `cmd` and `nr`
      (demo_using_dataclasses.py:60-61); every value is a string. */
  datatype Line = Line(op: string, time: string, cmd: string, nr: string)

  /** `Dispatch` and `Complete` (demo_using_dataclasses.py:6-20), and the
      `None` that `convert` returns for any other operation. The command
      number stays the string read from the file. */
  datatype Event = Dispatch(time: int, cmd: string, nr: string) | Complete(time: int, cmd: string, nr: string) | NoEvent

  /** `convert(line)` (demo_using_dataclasses.py:64-69). None where `int()`
      raises `ValueError` on the time column. */
  function Convert(line: Line): (r: Option<Event>)
    ensures line.op == "DISPATCH" ==>
              (r.Some? <==> ParseInt(line.time).Some?) &&
              (r.Some? ==> r.value.Dispatch? && r.value.time == ParseInt(line.time).value &&
                           r.value.cmd == line.cmd && r.value.nr == line.nr)
    ensures line.op == "COMPLETE" ==>
              (r.Some? <==> ParseInt(line.time).Some?) &&
              (r.Some? ==> r.value.Complete? && r.value.time == ParseInt(line.time).value &&
                           r.value.cmd == line.cmd && r.value.nr == line.nr)
    ensures line.op != "DISPATCH" && line.op != "COMPLETE" ==> r == Some(NoEvent)
  {
    if line.op == "DISPATCH" || line.op == "COMPLETE" then
      match ParseInt(line.time)
      case None => None
      case Some(t) => Some(if line.op == "DISPATCH" then Dispatch(t, line.cmd, line.nr) else Complete(t, line.cmd, line.nr))
    else Some(NoEvent)
  }

  /** A line written from an event converts back to that event. */
  lemma ConvertWritten(e: Event)
    requires !e.NoEvent?
    ensures Convert(Line(if e.Dispatch? then "DISPATCH" else "COMPLETE", IntToString(e.time), e.cmd, e.nr)) == Some(e)
  {
    ParseIntToString(e.time);
  }

  /** The anonymous always state made from `Commands.transition`, and the
      two state classes (demo_using_dataclasses.py:23-53). */
  datatype State = Always | DoComplete(time: int, cmd: string, nr: string) | Completed(cmd: string, nr: string)

  function KindOf(s: State): Kind {
    match s
    case Always => AlwaysState
    case DoComplete(_, _, _) => HotState
    case Completed(_, _) => PlainState
  }

  /** Does the event carry this command and number? */
  predicate About(e: Event, cmd: string, nr: string) {
    !e.NoEvent? && e.cmd == cmd && e.nr == nr
  }

  /** The three `transition` methods; None where no case matches. */
  function Transition(s: State, e: Event): Option<Returned<State>> {
    match s
    case Always =>
      if e.Dispatch? then Some(One(Go(DoComplete(e.time, e.cmd, e.nr)))) else None
    case DoComplete(time, cmd, nr) =>
      if e.Complete? && About(e, cmd, nr) then
        if e.time - time <= Limit then Some(One(Go(Completed(cmd, nr))))
        else Some(One(Error(TooLongText(cmd, nr))))
      else if e.Dispatch? && About(e, cmd, nr) then Some(One(Error(TwiceText(cmd, nr))))
      else None
    case Completed(cmd, nr) =>
      if e.Complete? && About(e, cmd, nr) then Some(One(Error(AgainText(cmd)))) else None
  }

  /** The monitor has no key and finds every event relevant. */
  const Commands: Spec<State, Event, ()> := Spec(Machine(KindOf, Transition), _ => None, _ => true)

  type Mon = Monitor<State, ()>

  /** The monitor after construction: the always state alone. */
  function Start(): (m: Mon)
    ensures Always in m.states && m.indexed == map[] && m.messages == {}
  {
    Init({Always})
  }

  /** The always state is active and no slice exists. */
  predicate Running(m: Mon) {
    Always in m.states && m.indexed == map[]
  }

  lemma StaysRunning(m: Mon, e: Event)
    requires Running(m)
    ensures Running(Eval(Commands, m, e))
  {
    AlwaysStaysInMain(Commands, m, e, Always);
    UnkeyedEvaluatesAll(Commands, m, e);
    var m' := Eval(Commands, m, e);
    assert m'.indexed.Keys == {};
  }

  /** Every dispatch starts a wait for its completion. */
  lemma DispatchAwaitsCompletion(m: Mon, time: int, cmd: string, nr: string)
    requires Running(m)
    ensures DoComplete(time, cmd, nr) in Eval(Commands, m, Dispatch(time, cmd, nr)).states
  {
    var e := Dispatch(time, cmd, nr);
    UnkeyedStateMembers(Commands, m, e, DoComplete(time, cmd, nr));
    assert Results(Commands.machine, e, Always)[0] == Go(DoComplete(time, cmd, nr));
  }

  /** Only the always state, on a dispatch, and a waiting state that the
      event does not concern lead to a waiting state. */
  lemma WaitingSources(s: State, e: Event, i: nat, time: int, cmd: string, nr: string)
    requires i < |Results(Commands.machine, e, s)|
    requires Results(Commands.machine, e, s)[i] == Go(DoComplete(time, cmd, nr))
    ensures (s == Always && e == Dispatch(time, cmd, nr)) || (s == DoComplete(time, cmd, nr) && !About(e, cmd, nr))
  {
  }

  /** A completion within the limit ends the wait without a message and
      records the command as completed. */
  lemma CompletionInTime(m: Mon, time: int, cmd: string, nr: string, t: int)
    requires Running(m) && DoComplete(time, cmd, nr) in m.states
    requires t - time <= Limit
    ensures var m' := Eval(Commands, m, Complete(t, cmd, nr));
            Completed(cmd, nr) in m'.states && DoComplete(time, cmd, nr) !in m'.states
  {
    var e := Complete(t, cmd, nr);
    UnkeyedStateMembers(Commands, m, e, Completed(cmd, nr));
    assert Results(Commands.machine, e, DoComplete(time, cmd, nr))[0] == Go(Completed(cmd, nr));
    UnkeyedStateMembers(Commands, m, e, DoComplete(time, cmd, nr));
    if exists s, i :: s in m.states && 0 <= i < |Results(Commands.machine, e, s)| && Results(Commands.machine, e, s)[i] == Go(DoComplete(time, cmd, nr)) {
      var s, i :| s in m.states && 0 <= i < |Results(Commands.machine, e, s)| && Results(Commands.machine, e, s)[i] == Go(DoComplete(time, cmd, nr));
      WaitingSources(s, e, i, time, cmd, nr);
    }
  }

  /** A late completion is reported against the waiting state, which ends
      its wait. */
  lemma CompletionTooLate(m: Mon, time: int, cmd: string, nr: string, t: int)
    requires Running(m) && DoComplete(time, cmd, nr) in m.states
    requires t - time > Limit
    ensures var m' := Eval(Commands, m, Complete(t, cmd, nr));
            Message(TransitionError, m.eventCount + 1, None, DoComplete(time, cmd, nr), 0, TooLongText(cmd, nr)) in m'.messages &&
            DoComplete(time, cmd, nr) !in m'.states
  {
    var e := Complete(t, cmd, nr);
    UnkeyedReports(Commands, m, e, DoComplete(time, cmd, nr), 0);
    UnkeyedStateMembers(Commands, m, e, DoComplete(time, cmd, nr));
    if exists s, i :: s in m.states && 0 <= i < |Results(Commands.machine, e, s)| && Results(Commands.machine, e, s)[i] == Go(DoComplete(time, cmd, nr)) {
      var s, i :| s in m.states && 0 <= i < |Results(Commands.machine, e, s)| && Results(Commands.machine, e, s)[i] == Go(DoComplete(time, cmd, nr));
      WaitingSources(s, e, i, time, cmd, nr);
    }
  }

  /** A second dispatch while waiting is reported; the always state starts
      a new wait from the second dispatch's time. */
  lemma DispatchedTwice(m: Mon, time: int, cmd: string, nr: string, t: int)
    requires Running(m) && DoComplete(time, cmd, nr) in m.states
    ensures var m' := Eval(Commands, m, Dispatch(t, cmd, nr));
            Message(TransitionError, m.eventCount + 1, None, DoComplete(time, cmd, nr), 0, TwiceText(cmd, nr)) in m'.messages &&
            DoComplete(t, cmd, nr) in m'.states &&
            (t != time ==> DoComplete(time, cmd, nr) !in m'.states)
  {
    var e := Dispatch(t, cmd, nr);
    UnkeyedReports(Commands, m, e, DoComplete(time, cmd, nr), 0);
    DispatchAwaitsCompletion(m, t, cmd, nr);
    UnkeyedStateMembers(Commands, m, e, DoComplete(time, cmd, nr));
    if exists s, i :: s in m.states && 0 <= i < |Results(Commands.machine, e, s)| && Results(Commands.machine, e, s)[i] == Go(DoComplete(time, cmd, nr)) {
      var s, i :| s in m.states && 0 <= i < |Results(Commands.machine, e, s)| && Results(Commands.machine, e, s)[i] == Go(DoComplete(time, cmd, nr));
      WaitingSources(s, e, i, time, cmd, nr);
    }
  }

  /** Completing a completed command again is reported. */
  lemma CompletedTwice(m: Mon, cmd: string, nr: string, t: int)
    requires Running(m) && Completed(cmd, nr) in m.states
    ensures Message(TransitionError, m.eventCount + 1, None, Completed(cmd, nr), 0, AgainText(cmd))
            in Eval(Commands, m, Complete(t, cmd, nr)).messages
  {
    UnkeyedReports(Commands, m, Complete(t, cmd, nr), Completed(cmd, nr), 0);
  }

  /** An event about another command, or no event, leaves a wait as it is. */
  lemma OtherEventsKeepWaiting(m: Mon, time: int, cmd: string, nr: string, e: Event)
    requires Running(m) && DoComplete(time, cmd, nr) in m.states
    requires !About(e, cmd, nr)
    ensures DoComplete(time, cmd, nr) in Eval(Commands, m, e).states
  {
    UnkeyedStateMembers(Commands, m, e, DoComplete(time, cmd, nr));
    assert Results(Commands.machine, e, DoComplete(time, cmd, nr))[0] == Go(DoComplete(time, cmd, nr));
  }

  /** A command still waiting when monitoring ends is reported; a
      completed one is not. */
  lemma PendingAtEnd(m: Mon, s: State)
    requires forall msg :: msg in m.messages ==> msg.kind != EndError
    requires s in m.states
    ensures Message(EndError, m.eventCount, None, s, 0, HotText) in End(Commands, m).messages <==> s.DoComplete?
  {
    EndReportsHotStates(Commands, m, s);
  }

  // -----------------------------------------------------------------------
  // Two traces

  /** The first event: a dispatch while only the always state is active. */
  lemma AfterDispatch(m: Mon, time: int, cmd: string, nr: string)
    requires m.states == {Always} && m.indexed == map[]
    ensures Eval(Commands, m, Dispatch(time, cmd, nr)).states == {Always, DoComplete(time, cmd, nr)}
    ensures Eval(Commands, m, Dispatch(time, cmd, nr)).messages == m.messages
  {
    var e := Dispatch(time, cmd, nr);
    var m' := Eval(Commands, m, e);
    var n := m.eventCount + 1;
    assert Results(Commands.machine, e, Always) == [Go(DoComplete(time, cmd, nr)), Go(Always)];
    forall u ensures u in m'.states <==> u in {Always, DoComplete(time, cmd, nr)} {
      UnkeyedStateMembers(Commands, m, e, u);
      if u == Always {
        assert Results(Commands.machine, e, Always)[1] == Go(u);
      } else if u == DoComplete(time, cmd, nr) {
        assert Results(Commands.machine, e, Always)[0] == Go(u);
      }
    }
    EvalStatesMeaning<State, Event, ()>(Commands.machine, e, n, None, m.states, Always);
    assert Reports<State, Event, ()>(Commands.machine, e, n, None, m.states) == {};
  }

  /** The second event: the completion in time. */
  lemma AfterCompletion(m: Mon, time: int, cmd: string, nr: string, t: int)
    requires m.states == {Always, DoComplete(time, cmd, nr)} && m.indexed == map[]
    requires t - time <= Limit
    ensures Eval(Commands, m, Complete(t, cmd, nr)).states == {Always, Completed(cmd, nr)}
    ensures Eval(Commands, m, Complete(t, cmd, nr)).messages == m.messages
  {
    var e := Complete(t, cmd, nr);
    var m' := Eval(Commands, m, e);
    var n := m.eventCount + 1;
    assert Results(Commands.machine, e, Always) == [Go(Always)];
    assert Results(Commands.machine, e, DoComplete(time, cmd, nr)) == [Go(Completed(cmd, nr))];
    forall u ensures u in m'.states <==> u in {Always, Completed(cmd, nr)} {
      UnkeyedStateMembers(Commands, m, e, u);
      if u == Always {
        assert Results(Commands.machine, e, Always)[0] == Go(u);
      } else if u == Completed(cmd, nr) {
        assert Results(Commands.machine, e, DoComplete(time, cmd, nr))[0] == Go(u);
      }
    }
    EvalStatesMeaning<State, Event, ()>(Commands.machine, e, n, None, m.states, Always);
    assert Reports<State, Event, ()>(Commands.machine, e, n, None, m.states) == {};
  }

  /** Ending with only the always state and completed commands adds nothing. */
  lemma CleanEnd(m: Mon, cmd: string, nr: string)
    requires m.states == {Always, Completed(cmd, nr)} && m.indexed == map[] && m.messages == {}
    ensures End(Commands, m).messages == {}
  {
    assert GetAllStates(m) == m.states;
    EndReportsHotStates(Commands, m, Always);
  }

  /** A command dispatched and completed in time leaves no message. */
  lemma TimelyTraceIsClean(trace: seq<Event>, time: int, cmd: string, nr: string, t: int)
    requires trace == [Dispatch(time, cmd, nr), Complete(t, cmd, nr)]
    requires t - time <= Limit
    ensures Verify(Commands, Start(), trace).messages == {}
  {
    var m0 := Start();
    assert m0.states == {Always};
    AfterDispatch(m0, time, cmd, nr);
    StaysRunning(m0, trace[0]);
    var m1 := Eval(Commands, m0, trace[0]);
    AfterCompletion(m1, time, cmd, nr, t);
    StaysRunning(m1, trace[1]);
    var m2 := Eval(Commands, m1, trace[1]);
    RunShort(Commands, m0, trace[0], trace[1]);
    CleanEnd(m2, cmd, nr);
  }

  /** A dispatch never completed is reported at the end. */
  lemma UncompletedTraceReported(trace: seq<Event>, time: int, cmd: string, nr: string)
    requires trace == [Dispatch(time, cmd, nr)]
    ensures Message(EndError, 1, None, DoComplete(time, cmd, nr), 0, HotText) in Verify(Commands, Start(), trace).messages
  {
    var m0 := Start();
    AfterDispatch(m0, time, cmd, nr);
    var m1 := Eval(Commands, m0, trace[0]);
    RunShort(Commands, m0, trace[0], trace[0]);
    EndReportsHotStates(Commands, m1, DoComplete(time, cmd, nr));
  }
}

=== FILE: demo_dictionaries.dfy ===
/** The command monitor of demo_using_dictionaries.py: the protocol of
    demo_using_dataclasses.py over dictionary events. The dispatch time is
    kept as the text read from the file and both times are converted with
    `int()` only when a completion arrives; a text that is not a number
    makes `int()` raise `ValueError`, which nothing catches, so the run
    stops there. */
module DemoDictionaries {
  import opened Wrappers
  import opened Text
  import opened StateVector
  import opened Monitoring
  import opened Records
  import opened CommandProtocol

  /** The always state made from `Commands.transition` and the two state
      classes (demo_using_dictionaries.py:7-37). */
  datatype State = Always | DoComplete(time: string, cmd: string, nr: string) | Completed(cmd: string, nr: string)

  function KindOf(s: State): Kind {
    match s
    case Always => AlwaysState
    case DoComplete(_, _, _) => HotState
    case Completed(_, _) => PlainState
  }

  /** `int(time) - int(self.time)` raises: a completion for a waiting
      command where one of the two times is not a decimal integer. */
  predicate Raises(s: State, r: Record) {
    s.DoComplete? && IsCompletion(r, s.cmd, s.nr) && (ParseInt(r["time"]).None? || ParseInt(s.time).None?)
  }

  /** The three `transition` methods; None where no case matches. */
  function Transition(s: State, r: Record): Option<Returned<State>> {
    match s
    case Always =>
      if IsDispatch(r) then Some(One(Go(DoComplete(r["time"], r["cmd"], r["nr"])))) else None
    case DoComplete(time, cmd, nr) =>
      if IsCompletion(r, cmd, nr) then
        match (ParseInt(r["time"]), ParseInt(time))
        case (Some(t), Some(t0)) =>
          if t - t0 <= Limit then Some(One(Go(Completed(cmd, nr))))
          else Some(One(Error(TooLongText(cmd, nr))))
        // `Raises`: the run has stopped before this result is used
        case _ => None
      else if IsRedispatch(r, cmd, nr) then Some(One(Error(TwiceText(cmd, nr))))
      else None
    case Completed(cmd, nr) =>
      if IsRecompletion(r, cmd, nr) then Some(One(Error(AgainText(cmd)))) else None
  }

  /** The monitor has no key and finds every event relevant. */
  const Commands: Spec<State, Record, ()> := Spec(Machine(KindOf, Transition), _ => None, _ => true)

  type Mon = Monitor<State, ()>

  function Start(): (m: Mon)
    ensures Always in m.states && m.indexed == map[] && m.messages == {}
  {
    Init({Always})
  }

  /** `m.eval(event)`: None where `ValueError` ends the program. Only a
      waiting state can stop the run. */
  function Step(m: Mon, r: Record): (res: Option<Mon>)
    ensures res.Some? ==> res.value.eventCount == m.eventCount + 1 && m.messages <= res.value.messages
    ensures res.None? ==> exists s :: s in GetAllStates(m) && s.DoComplete? && IsCompletion(r, s.cmd, s.nr)
  {
    if exists s :: s in GetAllStates(m) && Raises(s, r) then None else Some(Eval(Commands, m, r))
  }

  /** The loop over the CSV lines of the file. */
  function Feed(m: Mon, trace: seq<Record>): Option<Mon>
    decreases |trace|
  {
    if |trace| == 0 then Some(m)
    else match Step(m, trace[0])
      case None => None
      case Some(m') => Feed(m', trace[1..])
  }

  predicate Running(m: Mon) {
    Always in m.states && m.indexed == map[]
  }

  lemma StaysRunning(m: Mon, r: Record)
    requires Running(m)
    ensures Running(Eval(Commands, m, r))
  {
    AlwaysStaysInMain(Commands, m, r, Always);
    UnkeyedEvaluatesAll(Commands, m, r);
    var m' := Eval(Commands, m, r);
    assert m'.indexed.Keys == {};
  }

  /** Every dispatch starts a wait, with the time as read from the file. */
  lemma DispatchAwaitsCompletion(m: Mon, r: Record)
    requires Running(m) && IsDispatch(r)
    ensures DoComplete(r["time"], r["cmd"], r["nr"]) in Eval(Commands, m, r).states
  {
    var t := DoComplete(r["time"], r["cmd"], r["nr"]);
    UnkeyedStateMembers(Commands, m, r, t);
    assert Results(Commands.machine, r, Always)[0] == Go(t);
  }

  /** Only the always state, on a dispatch with that time, command and
      number, and a waiting state that the event does not settle lead to a
      waiting state. */
  lemma WaitingSources(s: State, r: Record, i: nat, time: string, cmd: string, nr: string)
    requires i < |Results(Commands.machine, r, s)|
    requires Results(Commands.machine, r, s)[i] == Go(DoComplete(time, cmd, nr))
    ensures (s == Always && IsDispatch(r) && r["time"] == time && r["cmd"] == cmd && r["nr"] == nr) ||
            (s == DoComplete(time, cmd, nr) && !IsRedispatch(r, cmd, nr) && (IsCompletion(r, cmd, nr) ==> Raises(s, r)))
  {
  }

  /** A completion within the limit ends the wait and records the command
      as completed. */
  lemma CompletionInTime(m: Mon, time: string, cmd: string, nr: string, r: Record, t: int, t0: int)
    requires Running(m) && DoComplete(time, cmd, nr) in m.states
    requires IsCompletion(r, cmd, nr) && ParseInt(r["time"]) == Some(t) && ParseInt(time) == Some(t0)
    requires t - t0 <= Limit
    ensures var m' := Eval(Commands, m, r);
            Completed(cmd, nr) in m'.states && DoComplete(time, cmd, nr) !in m'.states
  {
    UnkeyedStateMembers(Commands, m, r, Completed(cmd, nr));
    assert Results(Commands.machine, r, DoComplete(time, cmd, nr))[0] == Go(Completed(cmd, nr));
    UnkeyedStateMembers(Commands, m, r, DoComplete(time, cmd, nr));
    if exists s, i :: s in m.states && 0 <= i < |Results(Commands.machine, r, s)| && Results(Commands.machine, r, s)[i] == Go(DoComplete(time, cmd, nr)) {
      var s, i :| s in m.states && 0 <= i < |Results(Commands.machine, r, s)| && Results(Commands.machine, r, s)[i] == Go(DoComplete(time, cmd, nr));
      WaitingSources(s, r, i, time, cmd, nr);
    }
  }

  /** A late completion is reported against the waiting state, which ends
      its wait. */
  lemma CompletionTooLate(m: Mon, time: string, cmd: string, nr: string, r: Record, t: int, t0: int)
    requires Running(m) && DoComplete(time, cmd, nr) in m.states
    requires IsCompletion(r, cmd, nr) && ParseInt(r["time"]) == Some(t) && ParseInt(time) == Some(t0)
    requires t - t0 > Limit
    ensures var m' := Eval(Commands, m, r);
            Message(TransitionError, m.eventCount + 1, None, DoComplete(time, cmd, nr), 0, TooLongText(cmd, nr)) in m'.messages &&
            DoComplete(time, cmd, nr) !in m'.states
  {
    UnkeyedReports(Commands, m, r, DoComplete(time, cmd, nr), 0);
    UnkeyedStateMembers(Commands, m, r, DoComplete(time, cmd, nr));
    if exists s, i :: s in m.states && 0 <= i < |Results(Commands.machine, r, s)| && Results(Commands.machine, r, s)[i] == Go(DoComplete(time, cmd, nr)) {
      var s, i :| s in m.states && 0 <= i < |Results(Commands.machine, r, s)| && Results(Commands.machine, r, s)[i] == Go(DoComplete(time, cmd, nr));
      WaitingSources(s, r, i, time, cmd, nr);
    }
  }

  /** A second dispatch of a waiting command is reported whatever its
      time, even without a time column. */
  lemma DispatchedTwice(m: Mon, time: string, cmd: string, nr: string, r: Record)
    requires Running(m) && DoComplete(time, cmd, nr) in m.states
    requires IsRedispatch(r, cmd, nr)
    ensures Message(TransitionError, m.eventCount + 1, None, DoComplete(time, cmd, nr), 0, TwiceText(cmd, nr)) in Eval(Commands, m, r).messages
  {
    UnkeyedReports(Commands, m, r, DoComplete(time, cmd, nr), 0);
  }

  /** Completing a completed command again is reported, whatever the time. */
  lemma CompletedTwice(m: Mon, cmd: string, nr: string, r: Record)
    requires Running(m) && Completed(cmd, nr) in m.states
    requires IsRecompletion(r, cmd, nr)
    ensures Message(TransitionError, m.eventCount + 1, None, Completed(cmd, nr), 0, AgainText(cmd)) in Eval(Commands, m, r).messages
  {
    UnkeyedReports(Commands, m, r, Completed(cmd, nr), 0);
  }

  /** A command still waiting when monitoring ends is reported. */
  lemma PendingAtEnd(m: Mon, s: State)
    requires forall msg :: msg in m.messages ==> msg.kind != EndError
    requires s in m.states
    ensures Message(EndError, m.eventCount, None, s, 0, HotText) in End(Commands, m).messages <==> s.DoComplete?
  {
    EndReportsHotStates(Commands, m, s);
  }

  // -----------------------------------------------------------------------
  // Where the run stops

  /** Every waiting state holds a time that `int()` accepts. */
  predicate TimesParse(m: Mon) {
    forall s :: s in m.states && s.DoComplete? ==> ParseInt(s.time).Some?
  }

  /** A completion for a waiting command stops the run when either time is
      not a decimal integer. */
  lemma BadTimeStops(m: Mon, time: string, cmd: string, nr: string, r: Record)
    requires DoComplete(time, cmd, nr) in m.states && IsCompletion(r, cmd, nr)
    requires ParseInt(r["time"]).None? || ParseInt(time).None?
    ensures Step(m, r).None?
  {
    assert Raises(DoComplete(time, cmd, nr), r);
  }

  /** An event with a usable time keeps every waiting time usable. */
  lemma TimesStayParsable(m: Mon, r: Record)
    requires Running(m) && TimesParse(m) && WellTimed(r)
    ensures Running(Eval(Commands, m, r)) && TimesParse(Eval(Commands, m, r))
  {
    StaysRunning(m, r);
    var m' := Eval(Commands, m, r);
    forall u | u in m'.states && u.DoComplete?
      ensures ParseInt(u.time).Some?
    {
      UnkeyedStateMembers(Commands, m, r, u);
      var s, i :| s in m.states && 0 <= i < |Results(Commands.machine, r, s)| && Results(Commands.machine, r, s)[i] == Go(u);
      WaitingSources(s, r, i, u.time, u.cmd, u.nr);
    }
  }

  /** With usable times the step is the monitor's evaluation. */
  lemma WellTimedSteps(m: Mon, r: Record)
    requires Running(m) && TimesParse(m) && WellTimed(r)
    ensures Step(m, r) == Some(Eval(Commands, m, r))
  {
    assert GetAllStates(m) == m.states;
  }

  /** A file whose time column always holds a decimal integer is monitored
      to its end: the run never stops. */
  lemma {:induction false} WellTimedFileRuns(m: Mon, trace: seq<Record>)
    requires Running(m) && TimesParse(m)
    requires forall i :: 0 <= i < |trace| ==> WellTimed(trace[i])
    ensures Feed(m, trace) == Some(Run(Commands, m, trace))
    decreases |trace|
  {
    if |trace| > 0 {
      WellTimedSteps(m, trace[0]);
      TimesStayParsable(m, trace[0]);
      WellTimedFileRuns(Eval(Commands, m, trace[0]), trace[1..]);
    }
  }

  /** From construction, such a file is monitored to its end. */
  lemma WellTimedFileFromStart(trace: seq<Record>)
    requires forall i :: 0 <= i < |trace| ==> WellTimed(trace[i])
    ensures Feed(Start(), trace) == Some(Run(Commands, Start(), trace))
  {
    WellTimedFileRuns(Start(), trace);
  }
}

=== FILE: demo_exhaustive.dfy ===
/** The command monitor of demo_using_exhaustive.py: a dispatched TURN
    command must be followed by EVR1, EVR2 and EVR3, and a dispatched
    THRUST command by EVR4, EVR5 and EVR6, in any order, all labelled with
    the command and its number. Completing a TURN command before its EVRs
    is an error; a WARNING cancels a THRUST check. The waiting states are
    `exhaustive`: each executed `done()` discharges its own line.

    Each waiting state carries its own obligations, which is the corrected
    `exhaustive` of Obligations.PerInstanceRun rather than the shared
    object of the source; `WrittenTurnRun` at the end of the module runs
    the TURN waits with the shared object, as written. */
module DemoExhaustive {
  import opened Wrappers
  import opened StateVector
  import opened Monitoring
  import opened Records
  import Obligations
  import Text

  type Obls = Obligations.MatchObligations

  /** The always state made from `Commands.transition` and the two state
      classes (demo_using_exhaustive.py:18-56), each with its obligations. */
  datatype State = Always | DoCompleteTurn(nr: string, o: Obls) | DoCompleteThrust(nr: string, o: Obls)

  function KindOf(s: State): Kind {
    match s
    case Always => AlwaysState
    case DoCompleteTurn(_, _) => HotState
    case DoCompleteThrust(_, _) => HotState
  }

  /** The pattern `{'op': op, 'cmd': cmd, 'nr': nr}` with all three fixed. */
  predicate Labelled(r: Record, op: string, cmd: string, nr: string) {
    Has(r, "op", op) && Has(r, "cmd", cmd) && Has(r, "nr", nr)
  }

  /** `{'op': 'DISPATCH', 'cmd': cmd, 'nr': nr}` with `nr` bound. */
  predicate IsDispatchOf(r: Record, cmd: string) {
    Has(r, "op", "DISPATCH") && Has(r, "cmd", cmd) && "nr" in r
  }

  const TurnLines: set<int> := {34, 36, 38}
  const ThrustLines: set<int> := {50, 52, 54}

  const EarlyText := "TURN Completes too early"

  /** The `case` lines preceding the `done()` calls. */
  const Evr4Case := "case {'op': 'EVR4', 'cmd': 'THRUST', 'nr': self.nr}:"
  const Evr5Case := "case {'op': 'EVR5', 'cmd': 'THRUST', 'nr': self.nr}:"
  const Evr6Case := "case {'op': 'EVR6', 'cmd': 'THRUST', 'nr': self.nr}:"

  /** The three `done()` lines of `DoCompleteThrust.transition`
      (demo_using_exhaustive.py:49-54); those of `DoCompleteTurn` are
      Obligations.TurnObligations. */
  function ThrustObligations(): (o: Obls)
    ensures o.calls.Keys == ThrustLines && o.removed == {}
  {
    var o := Obligations.NoObligations();
    var o := Obligations.Add(o, 50, 49, Evr4Case);
    var o := Obligations.Add(o, 52, 51, Evr5Case);
    Obligations.Add(o, 54, 53, Evr6Case)
  }

  /** The `done()` line an EVR event of a TURN command reaches. */
  function TurnLine(r: Record, nr: string): Option<int> {
    if Labelled(r, "EVR1", "TURN", nr) then Some(34)
    else if Labelled(r, "EVR2", "TURN", nr) then Some(36)
    else if Labelled(r, "EVR3", "TURN", nr) then Some(38)
    else None
  }

  function ThrustLine(r: Record, nr: string): Option<int> {
    if Labelled(r, "EVR4", "THRUST", nr) then Some(50)
    else if Labelled(r, "EVR5", "THRUST", nr) then Some(52)
    else if Labelled(r, "EVR6", "THRUST", nr) then Some(54)
    else None
  }

  /** What the undecorated `DoCompleteTurn.transition` returns: the line of
      its `done()`, or a result. */
  function TurnBody(r: Record, nr: string): Obligations.Returned<Option<Returned<State>>> {
    match TurnLine(r, nr)
    case Some(l) => Obligations.DoneAt(l)
    case None =>
      if Labelled(r, "COMPLETE", "TURN", nr) then Obligations.Other(Some(One(Error(EarlyText))))
      else Obligations.Other(None)
  }

  function ThrustBody(r: Record, nr: string): Obligations.Returned<Option<Returned<State>>> {
    match ThrustLine(r, nr)
    case Some(l) => Obligations.DoneAt(l)
    case None =>
      if Labelled(r, "WARNING", "THRUST", nr) then Obligations.Other(Some(One(Ok)))
      else Obligations.Other(None)
  }

  function Body(s: State, r: Record): Obligations.Returned<Option<Returned<State>>>
    requires !s.Always?
  {
    if s.DoCompleteTurn? then TurnBody(r, s.nr) else ThrustBody(r, s.nr)
  }

  /** The `exhaustive` wrapper around a waiting state's transition. */
  function Wrap(s: State, body: Obligations.Returned<Option<Returned<State>>>): Option<Returned<State>>
    requires !s.Always?
  {
    match Obligations.Exhaustive(s.o, body)
    // `remove` fails its assertion; `DoneNeverFails` shows it cannot
    case None => None
    case Some((o', w)) =>
      match w
      case Finished => Some(One(Ok))
      case Stay => Some(One(Go(s.(o := o'))))
      case Pass(result) => result
  }

  function Transition(s: State, r: Record): Option<Returned<State>> {
    match s
    case Always =>
      if IsDispatchOf(r, "TURN") then Some(One(Go(DoCompleteTurn(r["nr"], Obligations.TurnObligations()))))
      else if IsDispatchOf(r, "THRUST") then Some(One(Go(DoCompleteThrust(r["nr"], ThrustObligations()))))
      else None
    case DoCompleteTurn(_, _) => Wrap(s, Body(s, r))
    case DoCompleteThrust(_, _) => Wrap(s, Body(s, r))
  }

  /** The monitor has no key and finds every event relevant. */
  const Commands: Spec<State, Record, ()> := Spec(Machine(KindOf, Transition), _ => None, _ => true)

  type Mon = Monitor<State, ()>

  function Start(): (m: Mon)
    ensures Always in m.states && m.indexed == map[] && m.messages == {}
  {
    Init({Always})
  }

  predicate Running(m: Mon) {
    Always in m.states && m.indexed == map[]
  }

  lemma StaysRunning(m: Mon, r: Record)
    requires Running(m)
    ensures Running(Eval(Commands, m, r))
  {
    AlwaysStaysInMain(Commands, m, r, Always);
    UnkeyedEvaluatesAll(Commands, m, r);
    var m' := Eval(Commands, m, r);
    assert m'.indexed.Keys == {};
  }

  /** What a waiting state's `eval` gives for a wrapped `done()`: `ok` once
      nothing is pending, otherwise the state with the line discharged. */
  lemma WaitDone(s: State, l: int, o': Obls)
    requires !s.Always?
    requires Obligations.Remove(s.o, l) == Some(o')
    ensures Wrap(s, Obligations.DoneAt(l)) == if Obligations.Empty(o') then Some(One(Ok)) else Some(One(Go(s.(o := o'))))
    ensures EvalState(HotState, s, Wrap(s, Obligations.DoneAt(l))) == if Obligations.Empty(o') then [Ok] else [Go(s.(o := o'))]
  {
  }

  // -----------------------------------------------------------------------
  // The obligations of a waiting state never fail

  /** Every line of the state's transition is pending or discharged, never
      both. */
  predicate Settled(s: State) {
    match s
    case Always => true
    case DoCompleteTurn(_, o) => Obligations.Consistent(o) && o.calls.Keys + o.removed == TurnLines
    case DoCompleteThrust(_, o) => Obligations.Consistent(o) && o.calls.Keys + o.removed == ThrustLines
  }

  predicate AllSettled(m: Mon) {
    forall s :: s in m.states ==> Settled(s)
  }

  lemma RemoveKeepsLines(o: Obls, l: int)
    requires Obligations.Consistent(o) && l in o.calls.Keys + o.removed
    ensures Obligations.Remove(o, l).Some?
    ensures Obligations.Consistent(Obligations.Remove(o, l).value)
    ensures Obligations.Remove(o, l).value.calls.Keys + Obligations.Remove(o, l).value.removed == o.calls.Keys + o.removed
  {
  }

  /** In a settled state the wrapper's `remove` always succeeds, and a
      state it keeps is settled again. */
  lemma DoneNeverFails(s: State, r: Record)
    requires !s.Always? && Settled(s)
    ensures Obligations.Exhaustive(s.o, Body(s, r)).Some? &&
            Settled(s.(o := Obligations.Exhaustive(s.o, Body(s, r)).value.0))
  {
    var body := Body(s, r);
    if body.DoneAt? {
      RemoveKeepsLines(s.o, body.line);
    }
  }

  /** A waiting state's own transition never returns a user state: only
      `ok`, an error, or nothing. */
  lemma BodyPasses(s: State, r: Record)
    requires !s.Always?
    ensures Body(s, r).Other? ==> Body(s, r).result in {None, Some(One(Error(EarlyText))), Some(One(Ok))}
  {
  }

  /** A waiting state leads only to itself, or to itself with the line of
      the executed `done()` discharged. */
  lemma WaitTargets(s: State, r: Record, i: nat, u: State)
    requires !s.Always?
    requires i < |Results(Commands.machine, r, s)| && Results(Commands.machine, r, s)[i] == Go(u)
    ensures u == s || (Obligations.Exhaustive(s.o, Body(s, r)).Some? && u == s.(o := Obligations.Exhaustive(s.o, Body(s, r)).value.0))
  {
    assert Transition(s, r) == Wrap(s, Body(s, r));
    BodyPasses(s, r);
  }

  /** What the always state's `eval` gives on a TURN dispatch, on a THRUST
      dispatch, and on any other event. */
  lemma AlwaysOnTurn(r: Record)
    requires IsDispatchOf(r, "TURN")
    ensures Results(Commands.machine, r, Always) == [Go(DoCompleteTurn(r["nr"], Obligations.TurnObligations())), Go(Always)]
  {
    assert Transition(Always, r) == Some(One(Go(DoCompleteTurn(r["nr"], Obligations.TurnObligations()))));
  }

  lemma AlwaysOnThrust(r: Record)
    requires !IsDispatchOf(r, "TURN") && IsDispatchOf(r, "THRUST")
    ensures Results(Commands.machine, r, Always) == [Go(DoCompleteThrust(r["nr"], ThrustObligations())), Go(Always)]
  {
    assert Transition(Always, r) == Some(One(Go(DoCompleteThrust(r["nr"], ThrustObligations()))));
  }

  lemma AlwaysOnOther(r: Record)
    requires !IsDispatchOf(r, "TURN") && !IsDispatchOf(r, "THRUST")
    ensures Results(Commands.machine, r, Always) == [Go(Always)]
  {
    assert Transition(Always, r) == None;
  }

  /** The always state leads to itself and to the wait a dispatch starts. */
  lemma AlwaysTargets(r: Record, i: nat, u: State)
    requires i < |Results(Commands.machine, r, Always)| && Results(Commands.machine, r, Always)[i] == Go(u)
    ensures u == Always ||
            (IsDispatchOf(r, "TURN") && u == DoCompleteTurn(r["nr"], Obligations.TurnObligations())) ||
            (!IsDispatchOf(r, "TURN") && IsDispatchOf(r, "THRUST") && u == DoCompleteThrust(r["nr"], ThrustObligations()))
  {
    if IsDispatchOf(r, "TURN") {
      AlwaysOnTurn(r);
    } else if IsDispatchOf(r, "THRUST") {
      AlwaysOnThrust(r);
    } else {
      AlwaysOnOther(r);
    }
  }

  /** The only states an event leads to: a new wait from the always state,
      or a waiting state, itself or with a line more discharged. */
  lemma SettledTargets(s: State, r: Record, i: nat, u: State)
    requires Settled(s)
    requires i < |Results(Commands.machine, r, s)| && Results(Commands.machine, r, s)[i] == Go(u)
    ensures Settled(u)
  {
    if s.Always? {
      AlwaysTargets(r, i, u);
      Obligations.TurnObligationsLines();
    } else {
      WaitTargets(s, r, i, u);
      DoneNeverFails(s, r);
    }
  }

  /** From construction on, every waiting state is settled. */
  lemma SettledStays(m: Mon, r: Record)
    requires Running(m) && AllSettled(m)
    ensures AllSettled(Eval(Commands, m, r))
  {
    var m' := Eval(Commands, m, r);
    forall u | u in m'.states
      ensures Settled(u)
    {
      UnkeyedStateMembers(Commands, m, r, u);
      var s, i :| s in m.states && 0 <= i < |Results(Commands.machine, r, s)| && Results(Commands.machine, r, s)[i] == Go(u);
      SettledTargets(s, r, i, u);
    }
  }

  lemma {:induction false} SettledAlong(m: Mon, trace: seq<Record>)
    requires Running(m) && AllSettled(m)
    ensures Running(Run(Commands, m, trace)) && AllSettled(Run(Commands, m, trace))
    decreases |trace|
  {
    if |trace| > 0 {
      StaysRunning(m, trace[0]);
      SettledStays(m, trace[0]);
      SettledAlong(Eval(Commands, m, trace[0]), trace[1..]);
    }
  }

  /** Whatever the events, `remove`'s assertion never fails in a monitor
      run from construction. */
  lemma DoneNeverFailsAfterAnyTrace(trace: seq<Record>, s: State, r: Record)
    requires s in Run(Commands, Start(), trace).states && !s.Always?
    ensures Obligations.Exhaustive(s.o, Body(s, r)).Some?
  {
    SettledAlong(Start(), trace);
    DoneNeverFails(s, r);
  }

  // -----------------------------------------------------------------------
  // Dispatch

  /** DISPATCH TURN starts a TURN wait with all three lines pending, and
      DISPATCH THRUST a THRUST wait. */
  lemma DispatchStartsWait(m: Mon, r: Record)
    requires Running(m)
    ensures IsDispatchOf(r, "TURN") ==> DoCompleteTurn(r["nr"], Obligations.TurnObligations()) in Eval(Commands, m, r).states
    ensures IsDispatchOf(r, "THRUST") ==> DoCompleteThrust(r["nr"], ThrustObligations()) in Eval(Commands, m, r).states
  {
    if IsDispatchOf(r, "TURN") {
      var u := DoCompleteTurn(r["nr"], Obligations.TurnObligations());
      UnkeyedStateMembers(Commands, m, r, u);
      AlwaysOnTurn(r);
      assert Results(Commands.machine, r, Always)[0] == Go(u);
    } else if IsDispatchOf(r, "THRUST") {
      var u := DoCompleteThrust(r["nr"], ThrustObligations());
      UnkeyedStateMembers(Commands, m, r, u);
      AlwaysOnThrust(r);
      assert Results(Commands.machine, r, Always)[0] == Go(u);
    }
  }

  // -----------------------------------------------------------------------
  // The EVRs, in any order

  /** The TURN wait after the given `done()` lines. */
  function TurnAfter(nr: string, lines: seq<int>): (s: State)
    requires forall i :: 0 <= i < |lines| ==> lines[i] in TurnLines
    ensures s.DoCompleteTurn? && s.nr == nr && Settled(s)
  {
    Obligations.TurnObligationsLines();
    Obligations.RemoveAllPending(Obligations.TurnObligations(), lines);
    DoCompleteTurn(nr, Obligations.RemoveAll(Obligations.TurnObligations(), lines).value)
  }

  /** An EVR of a TURN wait, after any earlier EVRs in any order, leaves the
      wait with `ok` exactly when EVR1, EVR2 and EVR3 have all been seen;
      otherwise the wait goes on with that line discharged too. */
  lemma TurnAnyOrder(nr: string, lines: seq<int>, r: Record)
    requires forall i :: 0 <= i < |lines| ==> lines[i] in TurnLines
    requires TurnLine(r, nr).Some?
    ensures var l := TurnLine(r, nr).value;
            var all := lines + [l];
            Results(Commands.machine, r, TurnAfter(nr, lines)) ==
              if TurnLines <= Obligations.Elems(all) then [Ok] else [Go(TurnAfter(nr, all))]
  {
    var l := TurnLine(r, nr).value;
    var all := lines + [l];
    var t := Obligations.TurnObligations();
    Obligations.TurnObligationsLines();
    Obligations.RemoveAllPending(t, lines);
    Obligations.RemoveAllSnoc(t, lines, l);
    assert forall i :: 0 <= i < |all| ==> all[i] in TurnLines;
    Obligations.EmptyIffAllDone(t, all);
    var s := TurnAfter(nr, lines);
    var o' := Obligations.RemoveAll(t, all).value;
    assert TurnBody(r, nr) == Obligations.DoneAt(l);
    assert Transition(s, r) == Wrap(s, Obligations.DoneAt(l));
    WaitDone(s, l, o');
  }

  /** The same for a THRUST wait and EVR4, EVR5 and EVR6. */
  function ThrustAfter(nr: string, lines: seq<int>): (s: State)
    requires forall i :: 0 <= i < |lines| ==> lines[i] in ThrustLines
    ensures s.DoCompleteThrust? && s.nr == nr && Settled(s)
  {
    Obligations.RemoveAllPending(ThrustObligations(), lines);
    DoCompleteThrust(nr, Obligations.RemoveAll(ThrustObligations(), lines).value)
  }

  lemma ThrustAnyOrder(nr: string, lines: seq<int>, r: Record)
    requires forall i :: 0 <= i < |lines| ==> lines[i] in ThrustLines
    requires ThrustLine(r, nr).Some?
    ensures var l := ThrustLine(r, nr).value;
            var all := lines + [l];
            Results(Commands.machine, r, ThrustAfter(nr, lines)) ==
              if ThrustLines <= Obligations.Elems(all) then [Ok] else [Go(ThrustAfter(nr, all))]
  {
    var l := ThrustLine(r, nr).value;
    var all := lines + [l];
    var t := ThrustObligations();
    Obligations.RemoveAllPending(t, lines);
    Obligations.RemoveAllSnoc(t, lines, l);
    assert forall i :: 0 <= i < |all| ==> all[i] in ThrustLines;
    Obligations.EmptyIffAllDone(t, all);
    var s := ThrustAfter(nr, lines);
    var o' := Obligations.RemoveAll(t, all).value;
    assert ThrustBody(r, nr) == Obligations.DoneAt(l);
    assert Transition(s, r) == Wrap(s, Obligations.DoneAt(l));
    WaitDone(s, l, o');
  }

  // -----------------------------------------------------------------------
  // COMPLETE, WARNING and the end

  /** What a TURN wait's `eval` gives on a COMPLETE for its number. */
  lemma TurnOnComplete(nr: string, o: Obls, r: Record)
    requires Labelled(r, "COMPLETE", "TURN", nr)
    ensures Results(Commands.machine, r, DoCompleteTurn(nr, o)) == [Error(EarlyText)]
  {
    var s := DoCompleteTurn(nr, o);
    assert TurnLine(r, nr) == None;
    assert Body(s, r) == Obligations.Other(Some(One(Error(EarlyText))));
    assert Transition(s, r) == Wrap(s, Body(s, r)) == Some(One(Error(EarlyText)));
  }

  /** Completing a TURN command whose wait is still on is reported. */
  lemma CompletedTooEarly(m: Mon, nr: string, o: Obls, r: Record)
    requires Running(m) && DoCompleteTurn(nr, o) in m.states
    requires Labelled(r, "COMPLETE", "TURN", nr)
    ensures Message(TransitionError, m.eventCount + 1, None, DoCompleteTurn(nr, o), 0, EarlyText) in Eval(Commands, m, r).messages
  {
    TurnOnComplete(nr, o, r);
    UnkeyedReports(Commands, m, r, DoCompleteTurn(nr, o), 0);
  }

  /** Only the always state, on a dispatch, and a THRUST wait for the same
      number that the event does not cancel lead to a THRUST wait. */
  lemma ThrustSources(s: State, r: Record, i: nat, nr: string, o: Obls)
    requires i < |Results(Commands.machine, r, s)|
    requires Results(Commands.machine, r, s)[i] == Go(DoCompleteThrust(nr, o))
    ensures (s == Always && IsDispatchOf(r, "THRUST")) ||
            (s.DoCompleteThrust? && s.nr == nr && !Labelled(r, "WARNING", "THRUST", nr))
  {
    if s.Always? {
      AlwaysTargets(r, i, DoCompleteThrust(nr, o));
    } else if s.DoCompleteThrust? && Labelled(r, "WARNING", "THRUST", s.nr) {
      ThrustOnWarning(s.nr, s.o, r);
    } else {
      WaitTargets(s, r, i, DoCompleteThrust(nr, o));
    }
  }

  /** What a THRUST wait's `eval` gives on a WARNING for its number. */
  lemma ThrustOnWarning(nr: string, o: Obls, r: Record)
    requires Labelled(r, "WARNING", "THRUST", nr)
    ensures Results(Commands.machine, r, DoCompleteThrust(nr, o)) == [Ok]
  {
    var s := DoCompleteThrust(nr, o);
    assert ThrustLine(r, nr) == None;
    assert Body(s, r) == Obligations.Other(Some(One(Ok)));
    assert Transition(s, r) == Wrap(s, Body(s, r)) == Some(One(Ok));
  }

  /** A WARNING cancels every THRUST wait for its number, without a message. */
  lemma WarningCancels(m: Mon, nr: string, o: Obls, r: Record)
    requires Running(m)
    requires Labelled(r, "WARNING", "THRUST", nr)
    ensures DoCompleteThrust(nr, o) !in Eval(Commands, m, r).states
    ensures DoCompleteThrust(nr, o) in m.states ==> Results(Commands.machine, r, DoCompleteThrust(nr, o)) == [Ok]
  {
    ThrustOnWarning(nr, o, r);
    UnkeyedStateMembers(Commands, m, r, DoCompleteThrust(nr, o));
    if exists s, i :: s in m.states && 0 <= i < |Results(Commands.machine, r, s)| && Results(Commands.machine, r, s)[i] == Go(DoCompleteThrust(nr, o)) {
      var s, i :| s in m.states && 0 <= i < |Results(Commands.machine, r, s)| && Results(Commands.machine, r, s)[i] == Go(DoCompleteThrust(nr, o));
      ThrustSources(s, r, i, nr, o);
    }
  }

  /** Both waits are hot: one still on at the end is reported. */
  lemma PendingAtEnd(m: Mon, s: State)
    requires forall msg :: msg in m.messages ==> msg.kind != EndError
    requires s in m.states
    ensures Message(EndError, m.eventCount, None, s, 0, HotText) in End(Commands, m).messages <==> !s.Always?
  {
    EndReportsHotStates(Commands, m, s);
  }

  // -----------------------------------------------------------------------
  // The demo as written: one obligations object per state class

  /** The TURN waits as written (pycontract_core.py:556,568-569): every
      `DoCompleteTurn` takes the one obligations object of its class. Each
      step is the number of a wait and an event; the wait's transition runs
      on the shared object, and the object it leaves is passed to the next
      step. The result lists each step's transition, or None where `remove`
      fails its assertion. */
  function WrittenTurnRun(shared: Obls, steps: seq<(string, Record)>): (out: Option<seq<Option<Returned<State>>>>)
    ensures out.Some? ==> |out.value| == |steps|
    decreases |steps|
  {
    if |steps| == 0 then Some([])
    else
      var s := DoCompleteTurn(steps[0].0, shared);
      var r := steps[0].1;
      match Obligations.Exhaustive(shared, Body(s, r))
      case None => None
      case Some((o', _)) =>
        match WrittenTurnRun(o', steps[1..])
        case None => None
        case Some(rest) => Some([Transition(s, r)] + rest)
  }

  /** `{'op': op, 'cmd': 'TURN', 'nr': nr}` */
  function TurnEvent(op: string, nr: string): (r: Record)
    ensures Labelled(r, op, "TURN", nr)
  {
    map["op" := op, "cmd" := "TURN", "nr" := nr]
  }

  /** One step of `WrittenTurnRun`: the wait's transition `h` on the
      shared object, followed by the run from the object it leaves. */
  lemma WrittenTurnRunStep(shared: Obls, nr: string, r: Record, rest: seq<(string, Record)>, o': Obls,
                           h: Option<Returned<State>>, tail: seq<Option<Returned<State>>>)
    requires Obligations.Exhaustive(shared, Body(DoCompleteTurn(nr, shared), r)).Some?
    requires Obligations.Exhaustive(shared, Body(DoCompleteTurn(nr, shared), r)).value.0 == o'
    requires Transition(DoCompleteTurn(nr, shared), r) == h
    requires WrittenTurnRun(o', rest) == Some(tail)
    ensures WrittenTurnRun(shared, [(nr, r)] + rest) == Some([h] + tail)
  {
    assert ([(nr, r)] + rest)[0] == (nr, r);
    assert ([(nr, r)] + rest)[1..] == rest;
  }

  /** A TURN wait for `nr` on EVRn of its own command executes the `done()`
      at `line` on the object `o`. */
  lemma TurnDone(nr: string, o: Obls, r: Record, op: string, line: int)
    requires (op == "EVR1" && line == 34) || (op == "EVR2" && line == 36) || (op == "EVR3" && line == 38)
    requires Labelled(r, op, "TURN", nr)
    requires Obligations.Remove(o, line).Some?
    ensures Obligations.Exhaustive(o, Body(DoCompleteTurn(nr, o), r)).Some?
    ensures Obligations.Exhaustive(o, Body(DoCompleteTurn(nr, o), r)).value.0 == Obligations.Remove(o, line).value
    ensures Obligations.Empty(Obligations.Remove(o, line).value) ==>
              Transition(DoCompleteTurn(nr, o), r) == Some(One(Ok))
    ensures !Obligations.Empty(Obligations.Remove(o, line).value) ==>
              Transition(DoCompleteTurn(nr, o), r) == Some(One(Go(DoCompleteTurn(nr, Obligations.Remove(o, line).value))))
  {
    assert TurnLine(r, nr) == Some(line);
    WaitDone(DoCompleteTurn(nr, o), line, Obligations.Remove(o, line).value);
  }

  // The trace of WrittenSecondWaitEndsEarly, one step at a time from the last.

  lemma WrittenLast(t: Obls, b: string, f1: Record)
    requires t.calls == map[] && 34 in t.removed
    requires Labelled(f1, "EVR1", "TURN", b)
    ensures WrittenTurnRun(t, [(b, f1)]) == Some([Some(One(Ok))])
  {
    var t' := Obligations.Remove(t, 34).value;
    var ok: Option<Returned<State>> := Some(One(Ok));
    assert Transition(DoCompleteTurn(b, t), f1) == ok by {
      Obligations.EmptyMeansNonePending(t');
      TurnDone(b, t, f1, "EVR1", 34);
    }
    assert Obligations.Exhaustive(t, Body(DoCompleteTurn(b, t), f1)).Some?
        && Obligations.Exhaustive(t, Body(DoCompleteTurn(b, t), f1)).value.0 == t' by {
      TurnDone(b, t, f1, "EVR1", 34);
    }
    var none: seq<(string, Record)> := [];
    WrittenTurnRunStep(t, b, f1, none, t', ok, []);
    Text.ConsNone((b, f1));
    Text.ConsNone(ok);
  }

  lemma WrittenThird(t: Obls, a: string, b: string, e3: Record, f1: Record)
    requires t.calls.Keys == {38} && 34 in t.removed
    requires Labelled(e3, "EVR3", "TURN", a) && Labelled(f1, "EVR1", "TURN", b)
    ensures WrittenTurnRun(t, [(a, e3), (b, f1)]) == Some([Some(One(Ok)), Some(One(Ok))])
  {
    var t' := Obligations.Remove(t, 38).value;
    var ok: Option<Returned<State>> := Some(One(Ok));
    assert t'.calls == map[];
    assert Transition(DoCompleteTurn(a, t), e3) == ok by {
      Obligations.EmptyMeansNonePending(t');
      TurnDone(a, t, e3, "EVR3", 38);
    }
    assert Obligations.Exhaustive(t, Body(DoCompleteTurn(a, t), e3)).Some?
        && Obligations.Exhaustive(t, Body(DoCompleteTurn(a, t), e3)).value.0 == t' by {
      TurnDone(a, t, e3, "EVR3", 38);
    }
    assert WrittenTurnRun(t', [(b, f1)]) == Some([ok]) by {
      WrittenLast(t', b, f1);
    }
    WrittenTurnRunStep(t, a, e3, [(b, f1)], t', ok, [ok]);
    Text.ConsOne((a, e3), (b, f1));
    Text.ConsOne(ok, ok);
  }

  lemma WrittenSecond(t: Obls, a: string, b: string, e2: Record, e3: Record, f1: Record)
    requires t.calls.Keys == {36, 38} && 34 in t.removed
    requires Labelled(e2, "EVR2", "TURN", a) && Labelled(e3, "EVR3", "TURN", a) && Labelled(f1, "EVR1", "TURN", b)
    ensures WrittenTurnRun(t, [(a, e2), (a, e3), (b, f1)])
         == Some([Some(One(Go(DoCompleteTurn(a, Obligations.Remove(t, 36).value)))), Some(One(Ok)), Some(One(Ok))])
  {
    var t' := Obligations.Remove(t, 36).value;
    var go: Option<Returned<State>> := Some(One(Go(DoCompleteTurn(a, t'))));
    var ok: Option<Returned<State>> := Some(One(Ok));
    assert t'.calls.Keys == {38};
    assert Transition(DoCompleteTurn(a, t), e2) == go by {
      assert 38 in t'.calls;
      TurnDone(a, t, e2, "EVR2", 36);
    }
    assert Obligations.Exhaustive(t, Body(DoCompleteTurn(a, t), e2)).Some?
        && Obligations.Exhaustive(t, Body(DoCompleteTurn(a, t), e2)).value.0 == t' by {
      TurnDone(a, t, e2, "EVR2", 36);
    }
    assert WrittenTurnRun(t', [(a, e3), (b, f1)]) == Some([ok, ok]) by {
      WrittenThird(t', a, b, e3, f1);
    }
    WrittenTurnRunStep(t, a, e2, [(a, e3), (b, f1)], t', go, [ok, ok]);
    Text.ConsTwo((a, e2), (a, e3), (b, f1));
    Text.ConsTwo(go, ok, ok);
  }

  lemma WrittenFirst(t: Obls, a: string, b: string, e1: Record, e2: Record, e3: Record, f1: Record)
    requires t.calls.Keys == {34, 36, 38} && t.removed == {}
    requires Labelled(e1, "EVR1", "TURN", a) && Labelled(e2, "EVR2", "TURN", a) && Labelled(e3, "EVR3", "TURN", a)
    requires Labelled(f1, "EVR1", "TURN", b)
    ensures
      var t' := Obligations.Remove(t, 34).value;
      WrittenTurnRun(t, [(a, e1), (a, e2), (a, e3), (b, f1)])
        == Some([Some(One(Go(DoCompleteTurn(a, t')))), Some(One(Go(DoCompleteTurn(a, Obligations.Remove(t', 36).value)))),
                 Some(One(Ok)), Some(One(Ok))])
  {
    Obligations.AfterLine34(t);
    var t' := Obligations.Remove(t, 34).value;
    var go1: Option<Returned<State>> := Some(One(Go(DoCompleteTurn(a, t'))));
    var go2: Option<Returned<State>> := Some(One(Go(DoCompleteTurn(a, Obligations.Remove(t', 36).value))));
    var ok: Option<Returned<State>> := Some(One(Ok));
    assert Transition(DoCompleteTurn(a, t), e1) == go1 by {
      TurnDone(a, t, e1, "EVR1", 34);
    }
    assert Obligations.Exhaustive(t, Body(DoCompleteTurn(a, t), e1)).Some?
        && Obligations.Exhaustive(t, Body(DoCompleteTurn(a, t), e1)).value.0 == t' by {
      TurnDone(a, t, e1, "EVR1", 34);
    }
    assert WrittenTurnRun(t', [(a, e2), (a, e3), (b, f1)]) == Some([go2, ok, ok]) by {
      WrittenSecond(t', a, b, e2, e3, f1);
    }
    WrittenTurnRunStep(t, a, e1, [(a, e2), (a, e3), (b, f1)], t', go1, [go2, ok, ok]);
    Text.ConsThree((a, e1), (a, e2), (a, e3), (b, f1));
    Text.ConsThree(go1, go2, ok, ok);
  }

  /** With its own obligations, a fresh TURN wait goes on after its EVR1. */
  lemma OwnFirst(t: Obls, b: string)
    requires t.calls.Keys == {34, 36, 38} && t.removed == {}
    ensures
      var out := Transition(DoCompleteTurn(b, t), TurnEvent("EVR1", b));
      && out.Some? && out.value.One? && out.value.target.Go?
      && out.value.target.state == DoCompleteTurn(b, out.value.target.state.o)
      && out.value.target.state.o.calls.Keys == {36, 38}
  {
    Obligations.AfterLine34(t);
    TurnDone(b, t, TurnEvent("EVR1", b), "EVR1", 34);
  }

  /** As written, on the trace DISPATCH TURN a; EVR1, EVR2, EVR3 TURN a;
      DISPATCH TURN b; EVR1 TURN b, the TURN waits make the calls below
      (the dispatches only create them): the first wait goes on after EVR1
      and EVR2 and ends with `ok` on its EVR3, and the second ends with
      `ok` on its very first EVR1. With per-instance obligations, as
      `Transition` has them, the second wait goes on with EVR2 and EVR3
      still pending. */
  lemma WrittenSecondWaitEndsEarly(a: string, b: string)
    ensures
      var out := WrittenTurnRun(Obligations.TurnObligations(),
        [(a, TurnEvent("EVR1", a)), (a, TurnEvent("EVR2", a)), (a, TurnEvent("EVR3", a)), (b, TurnEvent("EVR1", b))]);
      && out.Some?
      && out.value[0].Some? && out.value[0].value.One? && out.value[0].value.target.Go?
      && out.value[1].Some? && out.value[1].value.One? && out.value[1].value.target.Go?
      && out.value[2] == Some(One(Ok)) && out.value[3] == Some(One(Ok))
    ensures
      var out := Transition(DoCompleteTurn(b, Obligations.TurnObligations()), TurnEvent("EVR1", b));
      && out.Some? && out.value.One? && out.value.target.Go?
      && out.value.target.state == DoCompleteTurn(b, out.value.target.state.o)
      && out.value.target.state.o.calls.Keys == {36, 38}
  {
    Obligations.TurnObligationsLines();
    WrittenFirst(Obligations.TurnObligations(), a, b, TurnEvent("EVR1", a), TurnEvent("EVR2", a), TurnEvent("EVR3", a), TurnEvent("EVR1", b));
    OwnFirst(Obligations.TurnObligations(), b);
  }
}

=== FILE: demo_header.dfy ===
/** The command monitor of demo_using_dictionaries_and_header.py: the
    dictionary version whose column names come from the file's header line.
    The dispatch time is converted with `int()` when the wait starts, the
    completion time when the completion arrives; a text that is not a
    number makes `int()` raise `ValueError`, which nothing catches, so the
    run stops there. */
module DemoHeader {
  import opened Wrappers
  import opened Text
  import opened StateVector
  import opened Monitoring
  import opened Records
  import opened CommandProtocol

  /** The always state made from `Commands.transition` and the two state
      classes (demo_using_dictionaries_and_header.py:5-35). */
  datatype State = Always | DoComplete(time: int, cmd: string, nr: string) | Completed(cmd: string, nr: string)

  function KindOf(s: State): Kind {
    match s
    case Always => AlwaysState
    case DoComplete(_, _, _) => HotState
    case Completed(_, _) => PlainState
  }

  /** `int(time)` raises: a dispatch, seen by the always state, or a
      completion of a waiting command, whose time is not a decimal integer. */
  predicate Raises(s: State, r: Record) {
    match s
    case Always => IsDispatch(r) && ParseInt(r["time"]).None?
    case DoComplete(_, cmd, nr) => IsCompletion(r, cmd, nr) && ParseInt(r["time"]).None?
    case Completed(_, _) => false
  }

  /** The three `transition` methods; None where no case matches. Where
      `Raises` holds the run has stopped before the result is used. */
  function Transition(s: State, r: Record): Option<Returned<State>> {
    match s
    case Always =>
      if IsDispatch(r) then
        match ParseInt(r["time"])
        case Some(t) => Some(One(Go(DoComplete(t, r["cmd"], r["nr"]))))
        case None => None
      else None
    case DoComplete(time, cmd, nr) =>
      if IsCompletion(r, cmd, nr) then
        match ParseInt(r["time"])
        case Some(t) =>
          if t - time <= Limit then Some(One(Go(Completed(cmd, nr))))
          else Some(One(Error(TooLongText(cmd, nr))))
        case None => None
      else if IsRedispatch(r, cmd, nr) then Some(One(Error(TwiceText(cmd, nr))))
      else None
    case Completed(cmd, nr) =>
      if IsRecompletion(r, cmd, nr) then Some(One(Error(AgainText(cmd)))) else None
  }

  /** The monitor has no key and finds every event relevant. */
  const Commands: Spec<State, Record, ()> := Spec(Machine(KindOf, Transition), _ => None, _ => true)

  type Mon = Monitor<State, ()>

  function Start(): (m: Mon)
    ensures Always in m.states && m.indexed == map[] && m.messages == {}
  {
    Init({Always})
  }

  /** `m.eval(event)`: None where `ValueError` ends the program, which
      only an event with a time column can cause. */
  function Step(m: Mon, r: Record): (res: Option<Mon>)
    ensures res.Some? ==> res.value.eventCount == m.eventCount + 1 && m.messages <= res.value.messages
    ensures res.None? ==> "time" in r && ParseInt(r["time"]).None?
  {
    if exists s :: s in GetAllStates(m) && Raises(s, r) then None else Some(Eval(Commands, m, r))
  }

  /** The loop over the CSV lines of the file. */
  function Feed(m: Mon, trace: seq<Record>): Option<Mon>
    decreases |trace|
  {
    if |trace| == 0 then Some(m)
    else match Step(m, trace[0])
      case None => None
      case Some(m') => Feed(m', trace[1..])
  }

  predicate Running(m: Mon) {
    Always in m.states && m.indexed == map[]
  }

  lemma StaysRunning(m: Mon, r: Record)
    requires Running(m)
    ensures Running(Eval(Commands, m, r))
  {
    AlwaysStaysInMain(Commands, m, r, Always);
    UnkeyedEvaluatesAll(Commands, m, r);
    var m' := Eval(Commands, m, r);
    assert m'.indexed.Keys == {};
  }

  /** Every dispatch with a numeric time starts a wait with that time as
      a number; one without stops the run. */
  lemma DispatchAwaitsCompletion(m: Mon, r: Record, t: int)
    requires Running(m) && IsDispatch(r) && ParseInt(r["time"]) == Some(t)
    ensures DoComplete(t, r["cmd"], r["nr"]) in Eval(Commands, m, r).states
  {
    var u := DoComplete(t, r["cmd"], r["nr"]);
    UnkeyedStateMembers(Commands, m, r, u);
    assert Results(Commands.machine, r, Always)[0] == Go(u);
  }

  lemma BadDispatchStops(m: Mon, r: Record)
    requires Running(m) && IsDispatch(r) && ParseInt(r["time"]).None?
    ensures Step(m, r).None?
  {
    assert Raises(Always, r);
  }

  /** Only the always state, on a dispatch with that time, command and
      number, and a waiting state that the event does not settle lead to a
      waiting state. */
  lemma WaitingSources(s: State, r: Record, i: nat, time: int, cmd: string, nr: string)
    requires i < |Results(Commands.machine, r, s)|
    requires Results(Commands.machine, r, s)[i] == Go(DoComplete(time, cmd, nr))
    ensures (s == Always && IsDispatch(r) && ParseInt(r["time"]) == Some(time) && r["cmd"] == cmd && r["nr"] == nr) ||
            (s == DoComplete(time, cmd, nr) && !IsRedispatch(r, cmd, nr) && (IsCompletion(r, cmd, nr) ==> Raises(s, r)))
  {
  }

  /** A completion within the limit ends the wait and records the command
      as completed. */
  lemma CompletionInTime(m: Mon, time: int, cmd: string, nr: string, r: Record, t: int)
    requires Running(m) && DoComplete(time, cmd, nr) in m.states
    requires IsCompletion(r, cmd, nr) && ParseInt(r["time"]) == Some(t)
    requires t - time <= Limit
    ensures var m' := Eval(Commands, m, r);
            Completed(cmd, nr) in m'.states && DoComplete(time, cmd, nr) !in m'.states
  {
    UnkeyedStateMembers(Commands, m, r, Completed(cmd, nr));
    assert Results(Commands.machine, r, DoComplete(time, cmd, nr))[0] == Go(Completed(cmd, nr));
    UnkeyedStateMembers(Commands, m, r, DoComplete(time, cmd, nr));
    if exists s, i :: s in m.states && 0 <= i < |Results(Commands.machine, r, s)| && Results(Commands.machine, r, s)[i] == Go(DoComplete(time, cmd, nr)) {
      var s, i :| s in m.states && 0 <= i < |Results(Commands.machine, r, s)| && Results(Commands.machine, r, s)[i] == Go(DoComplete(time, cmd, nr));
      WaitingSources(s, r, i, time, cmd, nr);
    }
  }

  /** A late completion is reported against the waiting state, which ends
      its wait. */
  lemma CompletionTooLate(m: Mon, time: int, cmd: string, nr: string, r: Record, t: int)
    requires Running(m) && DoComplete(time, cmd, nr) in m.states
    requires IsCompletion(r, cmd, nr) && ParseInt(r["time"]) == Some(t)
    requires t - time > Limit
    ensures var m' := Eval(Commands, m, r);
            Message(TransitionError, m.eventCount + 1, None, DoComplete(time, cmd, nr), 0, TooLongText(cmd, nr)) in m'.messages &&
            DoComplete(time, cmd, nr) !in m'.states
  {
    UnkeyedReports(Commands, m, r, DoComplete(time, cmd, nr), 0);
    UnkeyedStateMembers(Commands, m, r, DoComplete(time, cmd, nr));
    if exists s, i :: s in m.states && 0 <= i < |Results(Commands.machine, r, s)| && Results(Commands.machine, r, s)[i] == Go(DoComplete(time, cmd, nr)) {
      var s, i :| s in m.states && 0 <= i < |Results(Commands.machine, r, s)| && Results(Commands.machine, r, s)[i] == Go(DoComplete(time, cmd, nr));
      WaitingSources(s, r, i, time, cmd, nr);
    }
  }

  /** A second dispatch of a waiting command is reported whatever its time. */
  lemma DispatchedTwice(m: Mon, time: int, cmd: string, nr: string, r: Record)
    requires Running(m) && DoComplete(time, cmd, nr) in m.states
    requires IsRedispatch(r, cmd, nr)
    ensures Message(TransitionError, m.eventCount + 1, None, DoComplete(time, cmd, nr), 0, TwiceText(cmd, nr)) in Eval(Commands, m, r).messages
  {
    UnkeyedReports(Commands, m, r, DoComplete(time, cmd, nr), 0);
  }

  /** Completing a completed command again is reported, whatever the time. */
  lemma CompletedTwice(m: Mon, cmd: string, nr: string, r: Record)
    requires Running(m) && Completed(cmd, nr) in m.states
    requires IsRecompletion(r, cmd, nr)
    ensures Message(TransitionError, m.eventCount + 1, None, Completed(cmd, nr), 0, AgainText(cmd)) in Eval(Commands, m, r).messages
  {
    UnkeyedReports(Commands, m, r, Completed(cmd, nr), 0);
  }

  /** A command still waiting when monitoring ends is reported. */
  lemma PendingAtEnd(m: Mon, s: State)
    requires forall msg :: msg in m.messages ==> msg.kind != EndError
    requires s in m.states
    ensures Message(EndError, m.eventCount, None, s, 0, HotText) in End(Commands, m).messages <==> s.DoComplete?
  {
    EndReportsHotStates(Commands, m, s);
  }

  /** A file whose time column always holds a decimal integer is monitored
      to its end: the run never stops. */
  lemma {:induction false} WellTimedFileRuns(m: Mon, trace: seq<Record>)
    requires Running(m)
    requires forall i :: 0 <= i < |trace| ==> WellTimed(trace[i])
    ensures Feed(m, trace) == Some(Run(Commands, m, trace))
    decreases |trace|
  {
    if |trace| > 0 {
      StaysRunning(m, trace[0]);
      WellTimedFileRuns(Eval(Commands, m, trace[0]), trace[1..]);
    }
  }

  lemma WellTimedFileFromStart(trace: seq<Record>)
    requires forall i :: 0 <= i < |trace| ==> WellTimed(trace[i])
    ensures Feed(Start(), trace) == Some(Run(Commands, Start(), trace))
  {
    WellTimedFileRuns(Start(), trace);
  }
}

=== FILE: monitor.dfy ===
/** A monitor: its main set of states, its slices (state sets indexed by
    the key of an event), its reported messages and its event counter
    (pycontract_core.py, class `Monitor`). A `Spec` holds what a user
    monitor defines: the behaviour of its states, the key function and
    the relevance filter. Sub-monitors are modelled only for message
    counting (`Hierarchy`). */
module Monitoring {
  import opened Wrappers
  import opened StateVector

  datatype Spec<!S, !E, !K> = Spec(machine: Machine<S, E>, key: E -> Option<K>, relevant: E -> bool)

  datatype Monitor<S(==), K(==)> = Monitor(states: set<S>, indexed: map<K, set<S>>, messages: set<Message<S, K>>, eventCount: int)

  /** A new monitor with its initial states; which classes are initial is
      found by reflection in the source and is an argument here. */
  function Init<S(==), K(==)>(initial: set<S>): (m: Monitor<S, K>)
    ensures m.states == initial && m.indexed == map[] && m.messages == {} && m.eventCount == 0
  {
    Monitor(initial, map[], {}, 0)
  }

  /** The states an evaluation leaves: the new ones, or the old ones when
      there was nothing to evaluate. */
  function Updated<S(==), K(==)>(r: Option<Outcome<S, K>>, old_states: set<S>): set<S> {
    if r.Some? then r.value.states else old_states
  }

  function Reported<S(==), K(==)>(r: Option<Outcome<S, K>>): set<Message<S, K>> {
    if r.Some? then r.value.reports else {}
  }

  /** `self.eval_states(event, states)` for the given slice */
  function EvalIn<S(==), E, K(==)>(spec: Spec<S, E, K>, event: E, eventNr: int, slice: Option<K>, states: set<S>): Option<Outcome<S, K>> {
    EvalStates(spec.machine, event, eventNr, slice, states)
  }

  /** The states a keyed event is evaluated on: its slice if it exists,
      otherwise the main states. */
  function SourceOf<S(==), K(==)>(m: Monitor<S, K>, k: K): set<S> {
    if k in m.indexed then m.indexed[k] else m.states
  }

  /** An event without key: the main states and every slice are evaluated. */
  function EvalUnkeyed<S(==), E, K(==)>(spec: Spec<S, E, K>, m: Monitor<S, K>, event: E, n: int): Monitor<S, K> {
    var main := EvalIn(spec, event, n, None, m.states);
    var indexed := map k | k in m.indexed :: Updated(EvalIn(spec, event, n, Some(k), m.indexed[k]), m.indexed[k]);
    Monitor(Updated(main, m.states), indexed, m.messages + Reported(main) + SliceReports(spec, m, event, n), n)
  }

  /** The reports of all slices for an event without key. */
  function SliceReports<S(==), E, K(==)>(spec: Spec<S, E, K>, m: Monitor<S, K>, event: E, n: int): set<Message<S, K>> {
    set k, msg | k in m.indexed && msg in Reported(EvalIn(spec, event, n, Some(k), m.indexed[k])) :: msg
  }

  /** An event with key `k`: only slice `k` is written. */
  function EvalKeyed<S(==), E, K(==)>(spec: Spec<S, E, K>, m: Monitor<S, K>, event: E, n: int, k: K): Monitor<S, K> {
    var r := EvalIn(spec, event, n, Some(k), SourceOf(m, k));
    if r.Some? then m.(indexed := m.indexed[k := r.value.states], messages := m.messages + r.value.reports, eventCount := n)
    else m.(eventCount := n)
  }

  /** `Monitor.eval(event)` (pycontract_core.py:736-772), without
      sub-monitors and debugging output. */
  function Eval<S(==), E, K(==)>(spec: Spec<S, E, K>, m: Monitor<S, K>, event: E): (m': Monitor<S, K>)
    ensures m'.eventCount == m.eventCount + 1
    ensures m.messages <= m'.messages
    ensures m.indexed.Keys <= m'.indexed.Keys
  {
    var n := m.eventCount + 1;
    if !spec.relevant(event) then m.(eventCount := n)
    else match spec.key(event)
      case None => EvalUnkeyed(spec, m, event, n)
      case Some(k) => EvalKeyed(spec, m, event, n, k)
  }

  /** An irrelevant event is only counted. */
  lemma IrrelevantIgnored<S, E, K>(spec: Spec<S, E, K>, m: Monitor<S, K>, event: E)
    requires !spec.relevant(event)
    ensures Eval(spec, m, event) == m.(eventCount := m.eventCount + 1)
  {
  }

  /** An event without key evaluates the main states and every slice, each
      on its own, and keeps the set of slices; an empty set stays as it
      is. */
  lemma UnkeyedEvaluatesAll<S, E, K>(spec: Spec<S, E, K>, m: Monitor<S, K>, event: E)
    requires spec.relevant(event) && spec.key(event).None?
    ensures var m' := Eval(spec, m, event);
            var n := m.eventCount + 1;
            && m'.states == Updated(EvalIn(spec, event, n, None, m.states), m.states)
            && m'.indexed.Keys == m.indexed.Keys
            && (forall k :: k in m.indexed ==>
                  m'.indexed[k] == Updated(EvalIn(spec, event, n, Some(k), m.indexed[k]), m.indexed[k]))
            && (m.states == {} ==> m'.states == {})
  {
  }

  /** An event with key `k` evaluates slice `k`, or the main states when
      there is no such slice yet, and stores the result as slice `k` only:
      the main states and all other slices are untouched. */
  lemma KeyedEvaluatesOneSlice<S, E, K>(spec: Spec<S, E, K>, m: Monitor<S, K>, event: E, k: K)
    requires spec.relevant(event) && spec.key(event) == Some(k)
    ensures var m' := Eval(spec, m, event);
            var r := EvalIn(spec, event, m.eventCount + 1, Some(k), SourceOf(m, k));
            && m'.states == m.states
            && (forall j :: j in m.indexed && j != k ==> j in m'.indexed && m'.indexed[j] == m.indexed[j])
            && m'.indexed.Keys == m.indexed.Keys + (if SourceOf(m, k) == {} then {} else {k})
            && (k in m'.indexed ==> m'.indexed[k] == Updated(r, SourceOf(m, k)))
  {
  }

  /** An always state in the main set is still there after an unkeyed
      event. */
  lemma AlwaysStaysInMain<S, E, K>(spec: Spec<S, E, K>, m: Monitor<S, K>, event: E, s: S)
    requires spec.relevant(event) && spec.key(event).None?
    requires s in m.states && spec.machine.kind(s) == AlwaysState
    ensures s in Eval(spec, m, event).states
  {
    AlwaysPersists<S, E, K>(spec.machine, event, m.eventCount + 1, None, m.states, s);
  }

  /** After an event without key, a state is a main state exactly when some
      old main state leads to it. */
  lemma UnkeyedStateMembers<S, E, K>(spec: Spec<S, E, K>, m: Monitor<S, K>, event: E, t: S)
    requires spec.relevant(event) && spec.key(event).None? && m.states != {}
    ensures t in Eval(spec, m, event).states <==>
      exists s, i :: s in m.states && 0 <= i < |Results(spec.machine, event, s)| && Results(spec.machine, event, s)[i] == Go(t)
  {
    UnkeyedEvaluatesAll(spec, m, event);
    EvalStatesMeaning<S, E, K>(spec.machine, event, m.eventCount + 1, None, m.states, t);
  }

  /** After an event without key, a state is in slice `k` exactly when some
      state of the old slice `k` leads to it; no slice appears or
      disappears. */
  lemma UnkeyedSliceMembers<S, E, K>(spec: Spec<S, E, K>, m: Monitor<S, K>, event: E, k: K, t: S)
    requires spec.relevant(event) && spec.key(event).None?
    requires k in m.indexed && m.indexed[k] != {}
    ensures k in Eval(spec, m, event).indexed
    ensures t in Eval(spec, m, event).indexed[k] <==>
      exists s, i :: s in m.indexed[k] && 0 <= i < |Results(spec.machine, event, s)| && Results(spec.machine, event, s)[i] == Go(t)
  {
    UnkeyedEvaluatesAll(spec, m, event);
    EvalStatesMeaning<S, E, K>(spec.machine, event, m.eventCount + 1, Some(k), m.indexed[k], t);
  }

  /** After an event without key, every error and info result of a main
      state has been reported, stamped with the event's number. */
  lemma UnkeyedReports<S, E, K>(spec: Spec<S, E, K>, m: Monitor<S, K>, event: E, s: S, i: nat)
    requires spec.relevant(event) && spec.key(event).None?
    requires s in m.states && i < |Results(spec.machine, event, s)|
    requires Results(spec.machine, event, s)[i].Error? || Results(spec.machine, event, s)[i].Info?
    ensures ReportOf<S, K>(Results(spec.machine, event, s)[i], m.eventCount + 1, None, s, i) in Eval(spec, m, event).messages
  {
    var n := m.eventCount + 1;
    var msg := ReportOf<S, K>(Results(spec.machine, event, s)[i], n, None, s, i);
    EvalStatesMeaning<S, E, K>(spec.machine, event, n, None, m.states, s);
    assert msg in Reports(spec.machine, event, n, None, m.states);
  }

  // -----------------------------------------------------------------------
  // Messages are told apart by event number

  /** Every message was reported at an event already counted. */
  predicate Stamped<S(==), K(==)>(m: Monitor<S, K>) {
    forall msg :: msg in m.messages ==> msg.eventNr <= m.eventCount
  }

  lemma ReportsStamped<S, E, K>(spec: Spec<S, E, K>, event: E, n: int, slice: Option<K>, states: set<S>)
    ensures forall msg :: msg in Reported(EvalIn(spec, event, n, slice, states)) ==> msg.eventNr == n
  {
  }

  /** What the evaluations of one event report, before they are added to
      the monitor's messages: nothing for an irrelevant event, the reports
      of the main states and of every slice for an event without key, and
      those of the one evaluated slice for a keyed event. */
  function EventReports<S(==), E, K(==)>(spec: Spec<S, E, K>, m: Monitor<S, K>, event: E): set<Message<S, K>> {
    var n := m.eventCount + 1;
    if !spec.relevant(event) then {}
    else match spec.key(event)
      case None => Reported(EvalIn(spec, event, n, None, m.states)) + SliceReports(spec, m, event, n)
      case Some(k) => Reported(EvalIn(spec, event, n, Some(k), SourceOf(m, k)))
  }

  /** Every report of an event carries that event's number. */
  lemma EventReportsStamped<S, E, K>(spec: Spec<S, E, K>, m: Monitor<S, K>, event: E)
    ensures forall msg :: msg in EventReports(spec, m, event) ==> msg.eventNr == m.eventCount + 1
  {
    var n := m.eventCount + 1;
    if spec.relevant(event) {
      match spec.key(event)
      case None =>
        ReportsStamped(spec, event, n, None, m.states);
        forall k | k in m.indexed {
          ReportsStamped(spec, event, n, Some(k), m.indexed[k]);
        }
      case Some(k) =>
        ReportsStamped(spec, event, n, Some(k), SourceOf(m, k));
    }
  }

  /** Evaluation adds exactly the event's reports to the messages and keeps
      the stamps. The reports are new, so the number of messages grows by
      exactly the number of reports. */
  lemma EvalAddsFreshMessages<S, E, K>(spec: Spec<S, E, K>, m: Monitor<S, K>, event: E)
    requires Stamped(m)
    ensures var m' := Eval(spec, m, event);
            && m'.messages == m.messages + EventReports(spec, m, event)
            && m.messages !! EventReports(spec, m, event)
            && |m'.messages| == |m.messages| + |EventReports(spec, m, event)|
            && Stamped(m')
  {
    var m' := Eval(spec, m, event);
    var added := EventReports(spec, m, event);
    EventReportsStamped(spec, m, event);
    assert m'.messages == m.messages + added;
    assert m.messages !! added by {
      forall msg | msg in m.messages ensures msg !in added {
        assert msg.eventNr <= m.eventCount;
      }
    }
  }

  // -----------------------------------------------------------------------
  // States, end of monitoring, traces

  /** `get_all_states()` (pycontract_core.py:944-953) */
  function GetAllStates<S(==), K(==)>(m: Monitor<S, K>): set<S> {
    m.states + set k, s | k in m.indexed && s in m.indexed[k] :: s
  }

  /** All states are the main states together with those of every slice. */
  lemma AllStatesMembers<S, K>(m: Monitor<S, K>, s: S)
    ensures s in GetAllStates(m) <==> s in m.states || exists k :: k in m.indexed && s in m.indexed[k]
  {
  }

  const HotText := "terminates in hot state"

  function EndErrors<S(==), E, K(==)>(spec: Spec<S, E, K>, m: Monitor<S, K>): set<Message<S, K>> {
    set s | s in GetAllStates(m) && IsHot(spec.machine.kind(s)) :: Message(EndError, m.eventCount, None, s, 0, HotText)
  }

  /** `end()` (pycontract_core.py:808-826) without sub-monitors and
      printing: one end error for each hot state among all states. */
  function End<S(==), E, K(==)>(spec: Spec<S, E, K>, m: Monitor<S, K>): (m': Monitor<S, K>)
    ensures m'.states == m.states && m'.indexed == m.indexed && m'.eventCount == m.eventCount
    ensures m.messages <= m'.messages
  {
    m.(messages := m.messages + EndErrors(spec, m))
  }

  /** Monitoring ends with an error for a state exactly when that state is
      hot and still active, in the main set or in a slice. */
  lemma EndReportsHotStates<S, E, K>(spec: Spec<S, E, K>, m: Monitor<S, K>, s: S)
    requires forall msg :: msg in m.messages ==> msg.kind != EndError
    ensures Message(EndError, m.eventCount, None, s, 0, HotText) in End(spec, m).messages
        <==> s in GetAllStates(m) && IsHot(spec.machine.kind(s))
    ensures (forall t :: t in GetAllStates(m) ==> !IsHot(spec.machine.kind(t))) ==> End(spec, m).messages == m.messages
  {
  }

  /** `eval` on each event of a trace */
  function Run<S(==), E, K(==)>(spec: Spec<S, E, K>, m: Monitor<S, K>, trace: seq<E>): Monitor<S, K>
    decreases |trace|
  {
    if |trace| == 0 then m else Run(spec, Eval(spec, m, trace[0]), trace[1..])
  }

  /** `verify(trace)` (pycontract_core.py:828-837) */
  function Verify<S(==), E, K(==)>(spec: Spec<S, E, K>, m: Monitor<S, K>, trace: seq<E>): Monitor<S, K> {
    End(spec, Run(spec, m, trace))
  }

  /** A trace of one or two events. */
  lemma RunShort<S, E, K>(spec: Spec<S, E, K>, m: Monitor<S, K>, e1: E, e2: E)
    ensures Run(spec, m, [e1]) == Eval(spec, m, e1)
    ensures Run(spec, m, [e1, e2]) == Eval(spec, Eval(spec, m, e1), e2)
  {
    assert [e1][1..] == [];
    assert [e1, e2][1..] == [e2];
    var m1 := Eval(spec, m, e1);
    assert Run(spec, m1, [e2]) == Run(spec, Eval(spec, m1, e2), []);
  }

  /** The event counter counts the events of the trace, slices are never
      dropped and messages are never withdrawn. */
  lemma {:induction false} RunCounts<S, E, K>(spec: Spec<S, E, K>, m: Monitor<S, K>, trace: seq<E>)
    ensures Run(spec, m, trace).eventCount == m.eventCount + |trace|
    ensures m.indexed.Keys <= Run(spec, m, trace).indexed.Keys
    ensures m.messages <= Run(spec, m, trace).messages
    decreases |trace|
  {
    if |trace| > 0 {
      RunCounts(spec, Eval(spec, m, trace[0]), trace[1..]);
    }
  }

  /** A trace splits into its parts. */
  lemma {:induction false} RunAppend<S, E, K>(spec: Spec<S, E, K>, m: Monitor<S, K>, t1: seq<E>, t2: seq<E>)
    ensures Run(spec, m, t1 + t2) == Run(spec, Run(spec, m, t1), t2)
    decreases |t1|
  {
    if |t1| > 0 {
      assert (t1 + t2)[1..] == t1[1..] + t2;
      RunAppend(spec, Eval(spec, m, t1[0]), t1[1..], t2);
    } else {
      assert t1 + t2 == t2;
    }
  }

  // -----------------------------------------------------------------------
  // Monitor hierarchies

  /** A monitor with its own messages and its sub-monitors. */
  datatype Hierarchy<M> = Node(own: seq<M>, subs: seq<Hierarchy<M>>)

  /** `get_message_count()` (pycontract_core.py:955-965) */
  function MessageCount<M>(h: Hierarchy<M>): nat
    decreases h
  {
    |h.own| + SubCounts(h.subs)
  }

  function SubCounts<M>(hs: seq<Hierarchy<M>>): nat
    decreases hs
  {
    if |hs| == 0 then 0 else MessageCount(hs[0]) + SubCounts(hs[1..])
  }

  /** `get_all_messages()` (pycontract_core.py:975-984) */
  function AllMessages<M>(h: Hierarchy<M>): seq<M>
    decreases h
  {
    h.own + SubMessages(h.subs)
  }

  function SubMessages<M>(hs: seq<Hierarchy<M>>): seq<M>
    decreases hs
  {
    if |hs| == 0 then [] else AllMessages(hs[0]) + SubMessages(hs[1..])
  }

  /** The message count is the number of all messages of the hierarchy. */
  lemma {:induction false} CountIsAllMessages<M>(h: Hierarchy<M>)
    ensures MessageCount(h) == |AllMessages(h)|
    decreases h
  {
    SubCountsAreSubMessages(h.subs);
  }

  lemma {:induction false} SubCountsAreSubMessages<M>(hs: seq<Hierarchy<M>>)
    ensures SubCounts(hs) == |SubMessages(hs)|
    decreases hs
  {
    if |hs| > 0 {
      CountIsAllMessages(hs[0]);
      SubCountsAreSubMessages(hs[1..]);
    }
  }
}

=== FILE: obligations.dfy ===
/** The bookkeeping behind `exhaustive` states (pycontract_core.py:474-580).
    The lines of a transition function that call `done()` are obligations;
    each executed `done()` reports its own line and discharges it; the
    state is left with `ok` once none remain. How the lines are found
    (reading the function's source text and the call stack) is reflection
    and is not modelled: the obligations are given as a map from lines. */
module Obligations {
  import opened Wrappers

  /** The line and text of the `case` that precedes a call of `done()`. */
  datatype Case = Case(line: int, pattern: string)

  datatype MatchObligations = MatchObligations(calls: map<int, Case>, removeCalled: bool, removed: set<int>)

  /** `MatchObligations()` (pycontract_core.py:484-496) */
  function NoObligations(): (o: MatchObligations)
    ensures o.calls == map[] && !o.removeCalled && o.removed == {}
  {
    MatchObligations(map[], false, {})
  }

  /** `add(line_nr_done, line_nr_pattern, pattern)` (pycontract_core.py:498-505) */
  function Add(o: MatchObligations, lineDone: int, linePattern: int, pattern: string): (o': MatchObligations)
    ensures o'.calls.Keys == o.calls.Keys + {lineDone}
    ensures o'.calls[lineDone] == Case(linePattern, pattern)
    ensures forall l :: l in o.calls && l != lineDone ==> o'.calls[l] == o.calls[l]
    ensures o'.removeCalled == o.removeCalled && o'.removed == o.removed
  {
    o.(calls := o.calls[lineDone := Case(linePattern, pattern)])
  }

  /** `remove(line_nr_done)` (pycontract_core.py:507-518). None where the
      source's `assert` fails: the line is neither pending nor removed
      before. */
  function Remove(o: MatchObligations, lineDone: int): (r: Option<MatchObligations>)
    ensures r.None? <==> lineDone !in o.calls && lineDone !in o.removed
    ensures r.Some? ==> r.value.removeCalled
    ensures r.Some? ==> r.value.calls.Keys == o.calls.Keys - {lineDone}
    ensures r.Some? ==> forall l :: l in r.value.calls ==> r.value.calls[l] == o.calls[l]
    ensures r.Some? ==> r.value.removed == o.removed + (if lineDone in o.calls then {lineDone} else {})
  {
    if lineDone in o.calls then
      Some(MatchObligations(o.calls - {lineDone}, true, o.removed + {lineDone}))
    else if lineDone in o.removed then
      Some(o.(removeCalled := true))
    else
      None
  }

  /** `empty()` (pycontract_core.py:520-525) */
  predicate Empty(o: MatchObligations) {
    |o.calls| == 0
  }

  lemma EmptyMeansNonePending(o: MatchObligations)
    ensures Empty(o) <==> forall l :: l !in o.calls
  {
    if forall l :: l !in o.calls {
      assert o.calls == map[];
    }
  }

  // -----------------------------------------------------------------------
  // The wrapper

  /** What a wrapped transition function returned: the line of an executed
      `done()` (an int), or anything else. */
  datatype Returned<R> = DoneAt(line: int) | Other(result: R)

  /** What the wrapper returns: `ok`, the state itself, or the result it
      passes through. */
  datatype Wrapped<R> = Finished | Stay | Pass(result: R)

  /** `new_transition` (pycontract_core.py:567-578) on the obligations
      object `o` it uses; None where `remove` fails its assertion. */
  function Exhaustive<R>(o: MatchObligations, result: Returned<R>): (out: Option<(MatchObligations, Wrapped<R>)>)
    ensures result.Other? ==> out == Some((o, Pass(result.result)))
    ensures result.DoneAt? ==> (out.None? <==> Remove(o, result.line).None?)
    ensures result.DoneAt? && out.Some? ==>
              out.value.0 == Remove(o, result.line).value &&
              (out.value.1 == Finished <==> Empty(out.value.0)) &&
              (out.value.1 != Finished ==> out.value.1 == Stay)
  {
    match result
    case Other(r) => Some((o, Pass(r)))
    case DoneAt(line) =>
      match Remove(o, line)
      case None => None
      case Some(o') => Some((o', if Empty(o') then Finished else Stay))
  }

  // -----------------------------------------------------------------------
  // A sequence of done() calls on one obligations object

  function Elems(lines: seq<int>): set<int> {
    set l | l in lines
  }

  predicate Consistent(o: MatchObligations) {
    o.calls.Keys !! o.removed
  }

  /** The object after the given `done()` lines, in order. */
  function RemoveAll(o: MatchObligations, lines: seq<int>): Option<MatchObligations>
    decreases |lines|
  {
    if |lines| == 0 then Some(o)
    else match Remove(o, lines[0])
      case None => None
      case Some(o') => RemoveAll(o', lines[1..])
  }

  /** Executing `done()` lines that are pending or already discharged never
      fails; afterwards exactly the lines not executed are pending. */
  lemma {:induction false} RemoveAllPending(o: MatchObligations, lines: seq<int>)
    requires Consistent(o)
    requires forall i :: 0 <= i < |lines| ==> lines[i] in o.calls || lines[i] in o.removed
    ensures RemoveAll(o, lines).Some?
    ensures RemoveAll(o, lines).value.calls.Keys == o.calls.Keys - Elems(lines)
    ensures RemoveAll(o, lines).value.removed == o.removed + Elems(lines)
    ensures Consistent(RemoveAll(o, lines).value)
    decreases |lines|
  {
    if |lines| > 0 {
      var o' := Remove(o, lines[0]).value;
      RemoveAllPending(o', lines[1..]);
      assert Elems(lines) == {lines[0]} + Elems(lines[1..]) by {
        assert forall l :: l in lines <==> l == lines[0] || l in lines[1..];
      }
    }
  }

  /** Once the obligations are fixed, an object is empty after a sequence of
      `done()` lines exactly when every obligation's line was among them, in
      whatever order. */
  lemma EmptyIffAllDone(o: MatchObligations, lines: seq<int>)
    requires Consistent(o)
    requires forall i :: 0 <= i < |lines| ==> lines[i] in o.calls || lines[i] in o.removed
    ensures RemoveAll(o, lines).Some?
    ensures Empty(RemoveAll(o, lines).value) <==> o.calls.Keys <= Elems(lines)
  {
    RemoveAllPending(o, lines);
    var r := RemoveAll(o, lines).value;
    EmptyMeansNonePending(r);
  }

  lemma {:induction false} RemoveAllSnoc(o: MatchObligations, lines: seq<int>, l: int)
    requires RemoveAll(o, lines).Some?
    ensures RemoveAll(o, lines + [l]) == Remove(RemoveAll(o, lines).value, l)
    decreases |lines|
  {
    if |lines| > 0 {
      assert (lines + [l])[1..] == lines[1..] + [l];
      RemoveAllSnoc(Remove(o, lines[0]).value, lines[1..], l);
    } else {
      assert lines + [l] == [l];
    }
  }

  // -----------------------------------------------------------------------
  // Several instances of one exhaustive state class

  /** A call of `done()` at `line` by the state instance `instance`. */
  datatype Call<I> = Call(instance: I, line: int)

  /** As written: the decorator creates one obligations object per state
      class (pycontract_core.py:556), and every instance takes that same
      object (pycontract_core.py:568-569). For each call: was the calling
      instance left with `ok`? None where an assertion fails. */
  function SharedRun<I>(shared: MatchObligations, calls: seq<Call<I>>): Option<seq<bool>>
    decreases |calls|
  {
    if |calls| == 0 then Some([])
    else match Remove(shared, calls[0].line)
      case None => None
      case Some(o) =>
        match SharedRun(o, calls[1..])
        case None => None
        case Some(rest) => Some([Empty(o)] + rest)
  }

  /** Corrected: every instance starts from its own copy of the class's
      obligations and discharges only its own. */
  function PerInstanceRun<I(==)>(template: MatchObligations, own: map<I, MatchObligations>, calls: seq<Call<I>>): Option<seq<bool>>
    decreases |calls|
  {
    if |calls| == 0 then Some([])
    else
      var c := calls[0];
      var mine := if c.instance in own then own[c.instance] else template;
      match Remove(mine, c.line)
      case None => None
      case Some(o) =>
        match PerInstanceRun(template, own[c.instance := o], calls[1..])
        case None => None
        case Some(rest) => Some([Empty(o)] + rest)
  }

  /** The lines of the calls made by instance `i`, in order. */
  function LinesOf<I(==)>(calls: seq<Call<I>>, i: I): seq<int>
    decreases |calls|
  {
    if |calls| == 0 then []
    else LinesOf(calls[..|calls| - 1], i) + (if calls[|calls| - 1].instance == i then [calls[|calls| - 1].line] else [])
  }

  /** Every call is to one of the class's `done()` lines. */
  predicate ValidCalls<I>(template: MatchObligations, calls: seq<Call<I>>) {
    forall j :: 0 <= j < |calls| ==> calls[j].line in template.calls
  }

  /** What each instance's own object is after the calls `prior`. */
  ghost predicate OwnAfter<I(!new)>(template: MatchObligations, own: map<I, MatchObligations>, prior: seq<Call<I>>) {
    forall i :: (i in own ==> RemoveAll(template, LinesOf(prior, i)) == Some(own[i]))
             && (i !in own ==> LinesOf(prior, i) == [])
  }

  lemma LinesOfSnoc<I>(prior: seq<Call<I>>, c: Call<I>, i: I)
    ensures LinesOf(prior + [c], i) == LinesOf(prior, i) + (if c.instance == i then [c.line] else [])
  {
    assert (prior + [c])[..|prior|] == prior;
  }

  lemma ValidLines<I>(template: MatchObligations, calls: seq<Call<I>>, i: I)
    requires ValidCalls(template, calls)
    ensures forall k :: 0 <= k < |LinesOf(calls, i)| ==> LinesOf(calls, i)[k] in template.calls
    decreases |calls|
  {
    if |calls| > 0 {
      ValidLines(template, calls[..|calls| - 1], i);
    }
  }

  /** One call under per-instance obligations: it cannot fail, it answers
      `ok` exactly when its instance has now executed every line, and each
      instance's object again reflects its own lines. */
  lemma PerInstanceStep<I(!new)>(template: MatchObligations, own: map<I, MatchObligations>, prior: seq<Call<I>>, c: Call<I>)
    requires template.removed == {}
    requires ValidCalls(template, prior + [c])
    requires OwnAfter(template, own, prior)
    ensures Remove(if c.instance in own then own[c.instance] else template, c.line).Some?
    ensures var o := Remove(if c.instance in own then own[c.instance] else template, c.line).value;
            (Empty(o) <==> template.calls.Keys <= Elems(LinesOf(prior + [c], c.instance))) &&
            OwnAfter(template, own[c.instance := o], prior + [c])
  {
    var prior' := prior + [c];
    var mine := if c.instance in own then own[c.instance] else template;
    var lines := LinesOf(prior', c.instance);
    LinesOfSnoc(prior, c, c.instance);
    ValidLines(template, prior', c.instance);
    assert RemoveAll(template, LinesOf(prior, c.instance)) == Some(mine) by {
      if c.instance !in own {
        assert LinesOf(prior, c.instance) == [];
      }
    }
    RemoveAllSnoc(template, LinesOf(prior, c.instance), c.line);
    EmptyIffAllDone(template, lines);
    var o := Remove(mine, c.line).value;
    var own' := own[c.instance := o];
    forall i
      ensures (i in own' ==> RemoveAll(template, LinesOf(prior', i)) == Some(own'[i]))
           && (i !in own' ==> LinesOf(prior', i) == [])
    {
      LinesOfSnoc(prior, c, i);
      if i != c.instance {
        assert LinesOf(prior', i) == LinesOf(prior, i) + [];
        assert LinesOf(prior, i) + [] == LinesOf(prior, i);
        if i in own {
          assert RemoveAll(template, LinesOf(prior, i)) == Some(own[i]);
        } else {
          assert LinesOf(prior, i) == [];
        }
      }
    }
  }

  /** The instance making call `j` of `calls` has, with that call, executed
      every `done()` line of the class. */
  predicate AllLinesDone<I(==)>(template: MatchObligations, prior: seq<Call<I>>, calls: seq<Call<I>>, j: int)
    requires 0 <= j < |calls|
  {
    template.calls.Keys <= Elems(LinesOf(prior + calls[..j + 1], calls[j].instance))
  }

  lemma AllLinesDoneShift<I>(template: MatchObligations, prior: seq<Call<I>>, calls: seq<Call<I>>, j: int)
    requires 1 <= j < |calls|
    ensures AllLinesDone(template, prior + [calls[0]], calls[1..], j - 1) == AllLinesDone(template, prior, calls, j)
  {
    assert prior + [calls[0]] + calls[1..][..j] == prior + calls[..j + 1];
    assert calls[1..][j - 1] == calls[j];
  }

  lemma AllLinesDoneCons<I>(template: MatchObligations, prior: seq<Call<I>>, calls: seq<Call<I>>, r: seq<bool>, rest: seq<bool>, first: bool)
    requires |calls| >= 1 && |rest| == |calls| - 1 && r == [first] + rest
    requires first <==> AllLinesDone(template, prior, calls, 0)
    requires forall j :: 0 <= j < |rest| ==> (rest[j] <==> AllLinesDone(template, prior + [calls[0]], calls[1..], j))
    ensures forall j :: 0 <= j < |calls| ==> (r[j] <==> AllLinesDone(template, prior, calls, j))
  {
    forall j | 1 <= j < |calls|
      ensures r[j] <==> AllLinesDone(template, prior, calls, j)
    {
      assert r[j] == rest[j - 1];
      AllLinesDoneShift(template, prior, calls, j);
    }
  }

  /** Moving the first call of `calls` into `prior` keeps the calls valid. */
  lemma ValidShift<I>(template: MatchObligations, prior: seq<Call<I>>, calls: seq<Call<I>>)
    requires |calls| > 0 && ValidCalls(template, prior + calls)
    ensures ValidCalls(template, prior + [calls[0]])
    ensures ValidCalls(template, prior + [calls[0]] + calls[1..])
  {
    assert prior + [calls[0]] + calls[1..] == prior + calls;
    assert forall j :: 0 <= j < |prior + [calls[0]]| ==> (prior + [calls[0]])[j] == (prior + calls)[j];
  }

  /** With per-instance obligations, a call leaves its instance with `ok`
      exactly when that instance itself has by then executed every `done()`
      line of the class; the calls of other instances play no part. */
  lemma {:induction false} PerInstanceDischarge<I(!new)>(template: MatchObligations, own: map<I, MatchObligations>, prior: seq<Call<I>>, calls: seq<Call<I>>)
    requires template.removed == {}
    requires ValidCalls(template, prior + calls)
    requires OwnAfter(template, own, prior)
    ensures PerInstanceRun(template, own, calls).Some?
    ensures |PerInstanceRun(template, own, calls).value| == |calls|
    ensures forall j :: 0 <= j < |calls| ==>
              (PerInstanceRun(template, own, calls).value[j] <==> AllLinesDone(template, prior, calls, j))
    decreases |calls|
  {
    if |calls| > 0 {
      var c := calls[0];
      var prior' := prior + [c];
      ValidShift(template, prior, calls);
      PerInstanceStep(template, own, prior, c);
      var mine := if c.instance in own then own[c.instance] else template;
      var o := Remove(mine, c.line).value;
      var own' := own[c.instance := o];
      PerInstanceDischarge(template, own', prior', calls[1..]);
      var rest := PerInstanceRun(template, own', calls[1..]).value;
      assert calls == [c] + calls[1..];
      PerInstanceRunStep(template, own, c, calls[1..], mine);
      assert calls[..1] == [c];
      AllLinesDoneCons(template, prior, calls, PerInstanceRun(template, own, calls).value, rest, Empty(o));
    }
  }

  // -----------------------------------------------------------------------
  // The difference, on the obligations of `DoCompleteTurn`

  /** The `case` lines preceding the `done()` calls. */
  const Evr1Case := "case {'op': 'EVR1', 'cmd': 'TURN', 'nr': self.nr}:"
  const Evr2Case := "case {'op': 'EVR2', 'cmd': 'TURN', 'nr': self.nr}:"
  const Evr3Case := "case {'op': 'EVR3', 'cmd': 'TURN', 'nr': self.nr}:"

  /** The three `done()` lines of `DoCompleteTurn.transition`
      (demo_using_exhaustive.py:33-38). */
  function TurnObligations(): MatchObligations {
    var o := NoObligations();
    var o := Add(o, 34, 33, Evr1Case);
    var o := Add(o, 36, 35, Evr2Case);
    Add(o, 38, 37, Evr3Case)
  }

  lemma TurnObligationsLines()
    ensures TurnObligations().calls.Keys == {34, 36, 38}
    ensures TurnObligations().removed == {}
  {
  }

  lemma SharedRunStep<I>(o: MatchObligations, c: Call<I>, rest: seq<Call<I>>)
    requires Remove(o, c.line).Some?
    requires SharedRun(Remove(o, c.line).value, rest).Some?
    ensures SharedRun(o, [c] + rest) == Some([Empty(Remove(o, c.line).value)] + SharedRun(Remove(o, c.line).value, rest).value)
  {
    assert ([c] + rest)[1..] == rest;
  }

  lemma PerInstanceRunStep<I>(template: MatchObligations, own: map<I, MatchObligations>, c: Call<I>, rest: seq<Call<I>>, mine: MatchObligations)
    requires mine == if c.instance in own then own[c.instance] else template
    requires Remove(mine, c.line).Some?
    requires PerInstanceRun(template, own[c.instance := Remove(mine, c.line).value], rest).Some?
    ensures PerInstanceRun(template, own, [c] + rest)
         == Some([Empty(Remove(mine, c.line).value)] + PerInstanceRun(template, own[c.instance := Remove(mine, c.line).value], rest).value)
  {
    assert ([c] + rest)[1..] == rest;
  }

  // The counterexample, one call at a time from the last: instance `a`
  // executes lines 34, 36 and 38, then instance `b` executes line 34.

  lemma AfterLine34(t: MatchObligations)
    requires t.calls.Keys == {34, 36, 38} && t.removed == {}
    ensures Remove(t, 34).Some?
    ensures Remove(t, 34).value.calls.Keys == {36, 38} && 34 in Remove(t, 34).value.removed
    ensures !Empty(Remove(t, 34).value)
  {
    assert 38 in Remove(t, 34).value.calls;
  }

  lemma SharedLast(o: MatchObligations, b: int)
    requires o.calls == map[] && 34 in o.removed
    ensures SharedRun(o, [Call(b, 34)]) == Some([true])
  {
    assert SharedRun<int>(Remove(o, 34).value, []) == Some([]);
    SharedRunStep(o, Call(b, 34), []);
    assert [Call(b, 34)] + [] == [Call(b, 34)];
    assert [true] + [] == [true];
  }

  lemma SharedThird(o: MatchObligations, a: int, b: int)
    requires o.calls.Keys == {38} && 34 in o.removed
    ensures SharedRun(o, [Call(a, 38), Call(b, 34)]) == Some([true, true])
  {
    var o' := Remove(o, 38).value;
    assert o'.calls == map[];
    SharedLast(o', b);
    SharedRunStep(o, Call(a, 38), [Call(b, 34)]);
    assert [Call(a, 38)] + [Call(b, 34)] == [Call(a, 38), Call(b, 34)];
    assert Empty(o') && [true] + [true] == [true, true];
  }

  lemma SharedSecond(o: MatchObligations, a: int, b: int)
    requires o.calls.Keys == {36, 38} && 34 in o.removed
    ensures SharedRun(o, [Call(a, 36), Call(a, 38), Call(b, 34)]) == Some([false, true, true])
  {
    var o' := Remove(o, 36).value;
    assert o'.calls.Keys == {38};
    SharedThird(o', a, b);
    SharedRunStep(o, Call(a, 36), [Call(a, 38), Call(b, 34)]);
    assert 38 in o'.calls;
    assert [Call(a, 36)] + [Call(a, 38), Call(b, 34)] == [Call(a, 36), Call(a, 38), Call(b, 34)];
    assert [false] + [true, true] == [false, true, true];
  }

  /** As written, once one TURN instance has seen EVR1, EVR2 and EVR3, the
      next instance is discharged by its first EVR1 (the last call is
      answered `ok`). */
  lemma SharedExample(t: MatchObligations, a: int, b: int)
    requires t.calls.Keys == {34, 36, 38} && t.removed == {}
    ensures SharedRun(t, [Call(a, 34), Call(a, 36), Call(a, 38), Call(b, 34)]) == Some([false, false, true, true])
  {
    AfterLine34(t);
    var o' := Remove(t, 34).value;
    SharedSecond(o', a, b);
    SharedRunStep(t, Call(a, 34), [Call(a, 36), Call(a, 38), Call(b, 34)]);
    assert [Call(a, 34)] + [Call(a, 36), Call(a, 38), Call(b, 34)] == [Call(a, 34), Call(a, 36), Call(a, 38), Call(b, 34)];
    assert [false] + [false, true, true] == [false, false, true, true];
  }

  lemma PerInstanceLast(t: MatchObligations, own: map<int, MatchObligations>, b: int)
    requires b !in own && 34 in t.calls && 36 in t.calls
    ensures PerInstanceRun(t, own, [Call(b, 34)]) == Some([false])
  {
    assert PerInstanceRun<int>(t, own[b := Remove(t, 34).value], []) == Some([]);
    PerInstanceRunStep(t, own, Call(b, 34), [], t);
    assert [Call(b, 34)] + [] == [Call(b, 34)];
    assert [false] + [] == [false];
  }

  lemma PerInstanceThird(t: MatchObligations, o: MatchObligations, a: int, b: int)
    requires o.calls.Keys == {38} && a != b && 36 in t.calls && 34 in t.calls
    ensures PerInstanceRun(t, map[a := o], [Call(a, 38), Call(b, 34)]) == Some([true, false])
  {
    var o' := Remove(o, 38).value;
    assert o'.calls == map[];
    assert map[a := o][a := o'] == map[a := o'];
    PerInstanceLast(t, map[a := o'], b);
    PerInstanceRunStep(t, map[a := o], Call(a, 38), [Call(b, 34)], o);
    assert [Call(a, 38)] + [Call(b, 34)] == [Call(a, 38), Call(b, 34)];
    assert Empty(o') && [true] + [false] == [true, false];
  }

  lemma PerInstanceSecond(t: MatchObligations, o: MatchObligations, a: int, b: int)
    requires o.calls.Keys == {36, 38} && a != b && 36 in t.calls && 34 in t.calls
    ensures PerInstanceRun(t, map[a := o], [Call(a, 36), Call(a, 38), Call(b, 34)]) == Some([false, true, false])
  {
    var o' := Remove(o, 36).value;
    assert o'.calls.Keys == {38};
    assert map[a := o][a := o'] == map[a := o'];
    PerInstanceThird(t, o', a, b);
    PerInstanceRunStep(t, map[a := o], Call(a, 36), [Call(a, 38), Call(b, 34)], o);
    assert 38 in o'.calls;
    assert [Call(a, 36)] + [Call(a, 38), Call(b, 34)] == [Call(a, 36), Call(a, 38), Call(b, 34)];
    assert [false] + [true, false] == [false, true, false];
  }

  /** With per-instance obligations the second instance still waits for
      its EVR2 and EVR3. */
  lemma PerInstanceExample(t: MatchObligations, a: int, b: int)
    requires t.calls.Keys == {34, 36, 38} && t.removed == {}
    requires a != b
    ensures PerInstanceRun(t, map[], [Call(a, 34), Call(a, 36), Call(a, 38), Call(b, 34)]) == Some([false, false, true, false])
  {
    var none: map<int, MatchObligations> := map[];
    AfterLine34(t);
    var o' := Remove(t, 34).value;
    assert none[a := o'] == map[a := o'];
    PerInstanceSecond(t, o', a, b);
    PerInstanceRunStep(t, none, Call(a, 34), [Call(a, 36), Call(a, 38), Call(b, 34)], t);
    assert [Call(a, 34)] + [Call(a, 36), Call(a, 38), Call(b, 34)] == [Call(a, 34), Call(a, 36), Call(a, 38), Call(b, 34)];
    assert [false] + [false, true, false] == [false, false, true, false];
  }

  /** On the obligations of `DoCompleteTurn`: shared, the second TURN
      instance is left with `ok` by its first `done()`; per instance, it is
      not. */
  lemma SharedObligationsDischargeEarly()
    ensures SharedRun(TurnObligations(), [Call(1, 34), Call(1, 36), Call(1, 38), Call(2, 34)]) == Some([false, false, true, true])
    ensures PerInstanceRun(TurnObligations(), map[], [Call(1, 34), Call(1, 36), Call(1, 38), Call(2, 34)]) == Some([false, false, true, false])
  {
    TurnObligationsLines();
    SharedExample(TurnObligations(), 1, 2);
    PerInstanceExample(TurnObligations(), 1, 2);
  }
}

=== FILE: plantuml.dfy ===
/** The pure parts of the PlantUML generator (pycontract_plantuml.py):
    list and name helpers, the classification of state classes by their
    base classes, the walk `find_transitions` over the statements of a
    transition function, and the rendering of one transition.

    Python's AST is replaced by a small statement datatype holding exactly
    what `find_transitions` inspects, with `ast.unparse` results kept as
    strings. The global fork-state counter is threaded explicitly. */
module PlantUml {
  import opened Wrappers
  import opened Text

  // -----------------------------------------------------------------------
  // Helpers

  /** `intersects(list1, list2)` (pycontract_plantuml.py:60-70) */
  function Intersects<T(==)>(list1: seq<T>, list2: seq<T>): (r: bool)
    ensures r <==> exists i :: 0 <= i < |list1| && list1[i] in list2
  {
    if |list1| == 0 then false
    else if list1[0] in list2 then true
    else
      var r := Intersects(list1[1..], list2);
      assert forall i :: 1 <= i < |list1| ==> list1[i] == list1[1..][i - 1];
      r
  }

  /** `mk_string(strings, separator)` (pycontract_plantuml.py:115-127), the
      loop as written; it computes `separator.join(strings)`. */
  method MkString(strings: seq<string>, separator: string) returns (result: string)
    ensures result == Join(strings, separator)
  {
    result := "";
    var sep := "";
    for i := 0 to |strings|
      invariant result == Join(strings[..i], separator)
      invariant sep == if i == 0 then "" else separator
    {
      if i > 0 {
        JoinSnoc(strings[..i], strings[i], separator);
      }
      assert strings[..i + 1] == strings[..i] + [strings[i]];
      result := result + sep + strings[i];
      sep := separator;
    }
    assert strings[..|strings|] == strings;
  }

  /** The separator goes only between elements. */
  lemma JoinSeparatesOnlyBetween(strings: seq<string>, separator: string)
    ensures |strings| == 0 ==> Join(strings, separator) == ""
    ensures |strings| == 1 ==> Join(strings, separator) == strings[0]
    ensures |strings| > 1 ==> Join(strings, separator) == Join(strings[..|strings| - 1], separator) + separator + Last(strings)
  {
    if |strings| > 1 {
      assert strings[..|strings| - 1] + [Last(strings)] == strings;
      JoinSnoc(strings[..|strings| - 1], Last(strings), separator);
    }
  }

  // -----------------------------------------------------------------------
  // Fork states

  const ForkPrefix := "fork_state"

  predicate IsForkState(state: string) {
    StartsWith(state, ForkPrefix)
  }

  /** `next_fork_state()` (pycontract_plantuml.py:24-31) with the global
      counter as argument and result. */
  function NextForkState(counter: nat): (out: (string, nat))
    ensures out.1 == counter + 1
    ensures IsForkState(out.0)
  {
    var n := counter + 1;
    (ForkPrefix + NatToString(n), n)
  }

  /** Fork state names are never reused as the counter grows. */
  lemma ForkStatesDistinct(c1: nat, c2: nat)
    requires c1 != c2
    ensures NextForkState(c1).0 != NextForkState(c2).0
  {
    var s1 := NextForkState(c1).0;
    var s2 := NextForkState(c2).0;
    if s1 == s2 {
      assert s1[|ForkPrefix|..] == NatToString(c1 + 1);
      assert s2[|ForkPrefix|..] == NatToString(c2 + 1);
      NatToStringInjective(c1 + 1, c2 + 1);
    }
  }

  // -----------------------------------------------------------------------
  // State classes

  const StateClasses: seq<string> := ["State", "AlwaysState", "HotState", "NextState", "HotNextState"]

  /** `extends_state(bases)` (pycontract_plantuml.py:89-96) */
  function ExtendsState(bases: seq<string>): (r: bool)
    ensures r <==> exists i :: 0 <= i < |bases| && bases[i] in StateClasses
  {
    Intersects(bases, StateClasses)
  }

  datatype AstStateKind = Final | Next | Hot | HotNext | Always | AlwaysNext | Error | Fork

  /** The dictionary `kind_map` of `get_kind`. */
  function KindOf(base: string): Option<AstStateKind> {
    if base == "State" then Some(Final)
    else if base == "HotState" then Some(Hot)
    else if base == "NextState" then Some(Next)
    else if base == "HotNextState" then Some(HotNext)
    else if base == "AlwaysState" then Some(Always)
    else None
  }

  /** `get_kind(bases)` (pycontract_plantuml.py:99-112): the kind of the
      first base class. None where the source raises: an empty list
      (`IndexError`) or a first base that is no state class (`KeyError`). */
  function GetKind(bases: seq<string>): (k: Option<AstStateKind>)
    ensures k.Some? <==> |bases| > 0 && bases[0] in StateClasses
    ensures k == Some(Final) <==> |bases| > 0 && bases[0] == "State"
    ensures k == Some(Hot) <==> |bases| > 0 && bases[0] == "HotState"
    ensures k == Some(Next) <==> |bases| > 0 && bases[0] == "NextState"
    ensures k == Some(HotNext) <==> |bases| > 0 && bases[0] == "HotNextState"
    ensures k == Some(Always) <==> |bases| > 0 && bases[0] == "AlwaysState"
  {
    if |bases| == 0 then None else KindOf(bases[0])
  }

  /** A class whose kind is known extends a state class, but not the other
      way round: a state class listed second has no kind. */
  lemma KindNeedsStateFirst(bases: seq<string>)
    ensures GetKind(bases).Some? ==> ExtendsState(bases)
    ensures ExtendsState(["Mixin", "HotState"]) && GetKind(["Mixin", "HotState"]).None?
  {
    assert ["Mixin", "HotState"][1] == "HotState";
  }

  // -----------------------------------------------------------------------
  // Transition functions as statements

  /** The expression after `return`: a call of a state (its name, from an
      attribute or a plain name, and its unparsed arguments), a list of
      such expressions, a name, or anything else (including a bare
      `return`). */
  datatype Expr = Call(callee: string, args: seq<string>) | ListOf(elts: seq<Expr>) | Name(id: string) | OtherExpr

  datatype Stmt =
    | Return(value: Expr)
    | If(test: string, body: seq<Stmt>, orelse: seq<Stmt>)
    | Match(cases: seq<MatchCase>)
    | OtherStmt

  /** One `case` entry: unparsed pattern, optional unparsed guard, body. */
  datatype MatchCase = MatchCase(pattern: string, guard: Option<string>, body: seq<Stmt>)

  /** `AstTransition`: event, conditions and number are absent for the
      transitions out of a fork state. */
  datatype AstTransition = AstTransition(
    source: string,
    event: Option<string>,
    conditions: Option<seq<string>>,
    target: string,
    arguments: seq<string>,
    number: Option<nat>)

  function Negated(test: string): string {
    "__not__(" + test + ")"
  }

  /** The transitions from a fork state to the called states of a returned
      list; elements that are not calls are skipped. */
  function ForkTargets(fork: string, elts: seq<Expr>): (ts: seq<AstTransition>)
    ensures forall i :: 0 <= i < |ts| ==> ts[i].source == fork && ts[i].event.None? && ts[i].conditions.None? && ts[i].number.None?
  {
    if |elts| == 0 then []
    else
      var rest := ForkTargets(fork, elts[1..]);
      match elts[0]
      case Call(callee, args) => [AstTransition(fork, None, None, callee, args, None)] + rest
      case _ => rest
  }

  /** The `ast.Return` branch of `find_transitions`
      (pycontract_plantuml.py:145-187). */
  function ReturnTransitions(source: string, event: string, conditions: seq<string>, value: Expr, number: Option<nat>, counter: nat)
    : (out: (seq<AstTransition>, nat))
  {
    match value
    case Call(callee, args) =>
      ([AstTransition(source, Some(event), Some(conditions), callee, args, number)], counter)
    case ListOf(elts) =>
      var (fork, counter') := NextForkState(counter);
      ([AstTransition(source, Some(event), Some(conditions), fork, [], number)] + ForkTargets(fork, elts), counter')
    case Name(id) =>
      var target := if id == "ok" then "ok" else "INTERNAL";
      ([AstTransition(source, Some(event), Some(conditions), target, [], number)], counter)
    case OtherExpr =>
      ([AstTransition(source, Some(event), Some(conditions), "INTERNAL", [], number)], counter)
  }

  /** `find_transitions` (pycontract_plantuml.py:130-216): the transitions
      from the last statement of `stmts`, with the fork-state counter
      before and after. */
  function FindTransitions(source: string, event: string, conditions: seq<string>, stmts: seq<Stmt>, number: Option<nat>, counter: nat)
    : (out: (seq<AstTransition>, nat))
    ensures out.1 >= counter
    decreases stmts
  {
    if |stmts| == 0 then ([], counter)
    else
      var stmt := stmts[|stmts| - 1];
      match stmt
      case Return(value) => ReturnTransitions(source, event, conditions, value, number, counter)
      case If(test, body, orelse) =>
        var t := FindTransitions(source, event, conditions + [test], body, number, counter);
        var f := FindTransitions(source, event, conditions + [Negated(test)], orelse, number, t.1);
        (t.0 + f.0, f.1)
      case Match(cases) => FindInCases(source, conditions, cases, 0, |cases| > 1, counter)
      case OtherStmt => ([AstTransition(source, Some(event), Some(conditions), source, [], number)], counter)
  }

  /** The loop over the cases of a match (pycontract_plantuml.py:197-212):
      the pattern becomes the event, a guard is appended to the conditions,
      and cases are numbered from 1 when there is more than one. */
  function FindInCases(source: string, conditions: seq<string>, cases: seq<MatchCase>, index: nat, numbered: bool, counter: nat)
    : (out: (seq<AstTransition>, nat))
    ensures out.1 >= counter
    decreases cases
  {
    if |cases| == 0 then ([], counter)
    else
      var c := cases[0];
      var conds := if c.guard.None? then conditions else conditions + [c.guard.value];
      var num := if numbered then Some(index + 1) else None;
      var first := FindTransitions(source, c.pattern, conds, c.body, num, counter);
      var rest := FindInCases(source, conditions, cases[1..], index + 1, numbered, first.1);
      (first.0 + rest.0, rest.1)
  }

  // -----------------------------------------------------------------------
  // What find_transitions produces

  predicate IsPrefix<T(==)>(p: seq<T>, s: seq<T>) {
    |p| <= |s| && s[..|p|] == p
  }

  lemma PrefixTransitive<T>(a: seq<T>, b: seq<T>, c: seq<T>)
    requires IsPrefix(a, b) && IsPrefix(b, c)
    ensures IsPrefix(a, c)
  {
    assert c[..|a|] == c[..|b|][..|a|];
  }

  /** A transition found from `source` with the conditions accumulated so
      far: either it leaves `source` on an event, with those conditions
      extended, or it leaves a fork state without event, conditions or
      number. */
  predicate FromSource(source: string, conditions: seq<string>, t: AstTransition) {
    if t.event.Some? then
      t.source == source && t.conditions.Some? && IsPrefix(conditions, t.conditions.value)
    else
      IsForkState(t.source) && t.conditions.None? && t.number.None?
  }

  predicate AllFromSource(source: string, conditions: seq<string>, ts: seq<AstTransition>) {
    forall i :: 0 <= i < |ts| ==> FromSource(source, conditions, ts[i])
  }

  lemma AllFromSourceWeaken(source: string, c1: seq<string>, c2: seq<string>, ts: seq<AstTransition>)
    requires IsPrefix(c1, c2) && AllFromSource(source, c2, ts)
    ensures AllFromSource(source, c1, ts)
  {
    forall i | 0 <= i < |ts| && ts[i].event.Some?
      ensures IsPrefix(c1, ts[i].conditions.value)
    {
      PrefixTransitive(c1, c2, ts[i].conditions.value);
    }
  }

  lemma ReturnFromSource(source: string, event: string, conditions: seq<string>, value: Expr, number: Option<nat>, counter: nat)
    ensures AllFromSource(source, conditions, ReturnTransitions(source, event, conditions, value, number, counter).0)
  {
    assert IsPrefix(conditions, conditions);
  }

  /** Conditions only accumulate along a path, and fork transitions carry
      neither event, conditions nor number. */
  lemma {:induction false} FindTransitionsFromSource(source: string, event: string, conditions: seq<string>, stmts: seq<Stmt>, number: Option<nat>, counter: nat)
    ensures AllFromSource(source, conditions, FindTransitions(source, event, conditions, stmts, number, counter).0)
    decreases stmts
  {
    if |stmts| > 0 {
      match stmts[|stmts| - 1]
      case Return(value) =>
        ReturnFromSource(source, event, conditions, value, number, counter);
      case If(test, body, orelse) =>
        var t := FindTransitions(source, event, conditions + [test], body, number, counter);
        FindTransitionsFromSource(source, event, conditions + [test], body, number, counter);
        FindTransitionsFromSource(source, event, conditions + [Negated(test)], orelse, number, t.1);
        AllFromSourceWeaken(source, conditions, conditions + [test], t.0);
        var f := FindTransitions(source, event, conditions + [Negated(test)], orelse, number, t.1);
        AllFromSourceWeaken(source, conditions, conditions + [Negated(test)], f.0);
      case Match(cases) =>
        FindInCasesFromSource(source, conditions, cases, 0, |cases| > 1, counter);
      case OtherStmt =>
        assert IsPrefix(conditions, conditions);
    }
  }

  lemma {:induction false} FindInCasesFromSource(source: string, conditions: seq<string>, cases: seq<MatchCase>, index: nat, numbered: bool, counter: nat)
    ensures AllFromSource(source, conditions, FindInCases(source, conditions, cases, index, numbered, counter).0)
    decreases cases
  {
    if |cases| > 0 {
      var c := cases[0];
      var conds := if c.guard.None? then conditions else conditions + [c.guard.value];
      var num := if numbered then Some(index + 1) else None;
      var first := FindTransitions(source, c.pattern, conds, c.body, num, counter);
      FindTransitionsFromSource(source, c.pattern, conds, c.body, num, counter);
      assert IsPrefix(conditions, conds);
      AllFromSourceWeaken(source, conditions, conds, first.0);
      FindInCasesFromSource(source, conditions, cases[1..], index + 1, numbered, first.1);
    }
  }

  /** Only the last statement of a block is inspected. */
  lemma LastStatementOnly(source: string, event: string, conditions: seq<string>, pre: seq<Stmt>, last: Stmt, number: Option<nat>, counter: nat)
    ensures FindTransitions(source, event, conditions, pre + [last], number, counter)
         == FindTransitions(source, event, conditions, [last], number, counter)
  {
  }

  /** An `if` as last statement: the transitions of the body, found under
      the test, followed by those of the else branch, found under its
      negation. */
  lemma IfBranches(source: string, event: string, conditions: seq<string>, test: string, body: seq<Stmt>, orelse: seq<Stmt>, number: Option<nat>, counter: nat)
    ensures var out := FindTransitions(source, event, conditions, [If(test, body, orelse)], number, counter);
            var t := FindTransitions(source, event, conditions + [test], body, number, counter);
            var f := FindTransitions(source, event, conditions + [Negated(test)], orelse, number, t.1);
            && out.0 == t.0 + f.0
            && AllFromSource(source, conditions + [test], t.0)
            && AllFromSource(source, conditions + [Negated(test)], f.0)
  {
    var t := FindTransitions(source, event, conditions + [test], body, number, counter);
    FindTransitionsFromSource(source, event, conditions + [test], body, number, counter);
    FindTransitionsFromSource(source, event, conditions + [Negated(test)], orelse, number, t.1);
  }

  /** Blocks whose last statements, through nested `if`s, contain no
      `match`. */
  predicate NoMatch(stmts: seq<Stmt>)
    decreases stmts
  {
    |stmts| == 0 ||
    match stmts[|stmts| - 1]
    case Match(_) => false
    case If(_, body, orelse) => NoMatch(body) && NoMatch(orelse)
    case _ => true
  }

  /** Every transition out of `source` has the given event and number. */
  predicate KeepEventAndNumber(event: string, number: Option<nat>, ts: seq<AstTransition>) {
    forall i :: 0 <= i < |ts| && ts[i].event.Some? ==> ts[i].event == Some(event) && ts[i].number == number
  }

  /** Without a nested `match`, every transition out of `source` keeps the
      given event and number. */
  lemma {:induction false} NoMatchKeepsEventAndNumber(source: string, event: string, conditions: seq<string>, stmts: seq<Stmt>, number: Option<nat>, counter: nat)
    requires NoMatch(stmts)
    ensures KeepEventAndNumber(event, number, FindTransitions(source, event, conditions, stmts, number, counter).0)
    decreases stmts
  {
    if |stmts| > 0 {
      match stmts[|stmts| - 1]
      case Return(value) =>
        ReturnKeepsEventAndNumber(source, event, conditions, value, number, counter);
      case If(test, body, orelse) =>
        var t := FindTransitions(source, event, conditions + [test], body, number, counter);
        NoMatchKeepsEventAndNumber(source, event, conditions + [test], body, number, counter);
        NoMatchKeepsEventAndNumber(source, event, conditions + [Negated(test)], orelse, number, t.1);
        var f := FindTransitions(source, event, conditions + [Negated(test)], orelse, number, t.1);
        var ts := t.0 + f.0;
        forall i | 0 <= i < |ts| && ts[i].event.Some?
          ensures ts[i].event == Some(event) && ts[i].number == number
        {
          if i < |t.0| {
            assert ts[i] == t.0[i];
          } else {
            assert ts[i] == f.0[i - |t.0|];
          }
        }
      case OtherStmt =>
    }
  }

  lemma ReturnKeepsEventAndNumber(source: string, event: string, conditions: seq<string>, value: Expr, number: Option<nat>, counter: nat)
    ensures KeepEventAndNumber(event, number, ReturnTransitions(source, event, conditions, value, number, counter).0)
  {
    if value.ListOf? {
      var fork := NextForkState(counter).0;
      var ts := ReturnTransitions(source, event, conditions, value, number, counter).0;
      var rest := ForkTargets(fork, value.elts);
      assert ts == [AstTransition(source, Some(event), Some(conditions), fork, [], number)] + rest;
      forall i | 1 <= i < |ts|
        ensures ts[i].event.None?
      {
        assert ts[i] == rest[i - 1];
      }
    }
  }

  function GuardOf(c: MatchCase): seq<string> {
    if c.guard.None? then [] else [c.guard.value]
  }

  /** Transition `t` comes from case k: its conditions extend the outer
      ones by the case's guard, and unless the case body ends in a nested
      `match` (whose own patterns and numbers take over) it carries the
      case's pattern and number. */
  predicate CaseTransition(conditions: seq<string>, cases: seq<MatchCase>, index: nat, numbered: bool, t: AstTransition, k: nat)
  {
    && k < |cases|
    && t.conditions.Some?
    && IsPrefix(conditions + GuardOf(cases[k]), t.conditions.value)
    && (NoMatch(cases[k].body) ==>
          t.event == Some(cases[k].pattern) && t.number == (if numbered then Some(index + k + 1) else None))
  }

  ghost predicate AllFromCases(conditions: seq<string>, cases: seq<MatchCase>, index: nat, numbered: bool, ts: seq<AstTransition>) {
    forall i :: 0 <= i < |ts| && ts[i].event.Some? ==>
      exists k :: CaseTransition(conditions, cases, index, numbered, ts[i], k)
  }

  lemma {:induction false} CasesNumbered(source: string, conditions: seq<string>, cases: seq<MatchCase>, index: nat, numbered: bool, counter: nat)
    ensures AllFromCases(conditions, cases, index, numbered, FindInCases(source, conditions, cases, index, numbered, counter).0)
    decreases cases
  {
    if |cases| > 0 {
      var c := cases[0];
      var conds := if c.guard.None? then conditions else conditions + [c.guard.value];
      var num := if numbered then Some(index + 1) else None;
      var first := FindTransitions(source, c.pattern, conds, c.body, num, counter);
      var rest := FindInCases(source, conditions, cases[1..], index + 1, numbered, first.1);
      FindTransitionsFromSource(source, c.pattern, conds, c.body, num, counter);
      if NoMatch(c.body) {
        NoMatchKeepsEventAndNumber(source, c.pattern, conds, c.body, num, counter);
      }
      assert conds == conditions + GuardOf(cases[0]);
      forall i | 0 <= i < |first.0| && first.0[i].event.Some?
        ensures CaseTransition(conditions, cases, index, numbered, first.0[i], 0)
      {
        assert FromSource(source, conds, first.0[i]);
      }
      CasesNumbered(source, conditions, cases[1..], index + 1, numbered, first.1);
      forall i | 0 <= i < |rest.0| && rest.0[i].event.Some?
        ensures exists k :: CaseTransition(conditions, cases, index, numbered, rest.0[i], k)
      {
        var k: nat :| CaseTransition(conditions, cases[1..], index + 1, numbered, rest.0[i], k);
        assert cases[1..][k] == cases[k + 1];
        assert CaseTransition(conditions, cases, index, numbered, rest.0[i], k + 1);
      }
      var ts := first.0 + rest.0;
      forall i | 0 <= i < |ts| && ts[i].event.Some?
        ensures exists k :: CaseTransition(conditions, cases, index, numbered, ts[i], k)
      {
        if i < |first.0| {
          assert ts[i] == first.0[i];
          assert CaseTransition(conditions, cases, index, numbered, ts[i], 0);
        } else {
          assert ts[i] == rest.0[i - |first.0|];
        }
      }
    }
  }

  /** A `match` as last statement: every transition out of `source` comes
      from some case k and carries its guard after the outer conditions.
      When case k's body holds no further `match`, the transition has that
      case's pattern as event and is numbered k + 1 exactly when there are
      several cases. For a body ending in a nested `match` only the
      conditions are stated here (see `NestedMatchTakesOver`). */
  lemma MatchNumbering(source: string, event: string, conditions: seq<string>, cases: seq<MatchCase>, number: Option<nat>, counter: nat)
    ensures AllFromCases(conditions, cases, 0, |cases| > 1, FindTransitions(source, event, conditions, [Match(cases)], number, counter).0)
  {
    CasesNumbered(source, conditions, cases, 0, |cases| > 1, counter);
  }

  /** A `match` nested in the only case of an outer `match`: the inner
      patterns become the events and the inner cases are numbered, while the
      outer pattern appears nowhere. */
  lemma NestedMatchTakesOver(source: string, counter: nat)
    ensures
      var inner := [MatchCase("B", None, [Return(Name("ok"))]), MatchCase("C", None, [OtherStmt])];
      FindTransitions(source, "E", [], [Match([MatchCase("A", None, [Match(inner)])])], None, counter).0
        == [AstTransition(source, Some("B"), Some([]), "ok", [], Some(1)),
            AstTransition(source, Some("C"), Some([]), source, [], Some(2))]
  {
    var inner := [MatchCase("B", None, [Return(Name("ok"))]), MatchCase("C", None, [OtherStmt])];
    var b := FindTransitions(source, "B", [], [Return(Name("ok"))], Some(1), counter);
    assert b == ([AstTransition(source, Some("B"), Some([]), "ok", [], Some(1))], counter);
    var c := FindTransitions(source, "C", [], [OtherStmt], Some(2), counter);
    assert c == ([AstTransition(source, Some("C"), Some([]), source, [], Some(2))], counter);
    assert inner[1..][0] == inner[1] && inner[1..][1..] == inner[2..] && |inner[2..]| == 0;
    assert FindInCases(source, [], inner[1..][1..], 2, true, counter) == ([], counter);
    assert c.0 + [] == c.0;
    assert FindInCases(source, [], inner[1..], 1, true, counter) == (c.0, counter);
    assert FindInCases(source, [], inner, 0, true, counter) == (b.0 + c.0, counter);
    var a := FindTransitions(source, "A", [], [Match(inner)], None, counter);
    assert a == (b.0 + c.0, counter);
    var outer := [MatchCase("A", None, [Match(inner)])];
    assert |outer[1..]| == 0 && a.0 + [] == a.0;
    assert FindInCases(source, [], outer, 0, false, counter) == (a.0, counter);
  }

  // -----------------------------------------------------------------------
  // Rendering

  const ErrorStateLine := "  state error #red\n"

  function ShownTarget(t: AstTransition): string {
    if t.target == "ok" then "[*]" else t.target
  }

  function ArgumentsText(t: AstTransition, lead: string): string {
    if |t.arguments| > 0 && t.target != "error" then lead + "(" + Join(t.arguments, ",") + ")" else ""
  }

  function Head(t: AstTransition): string {
    if t.target == "error" then ErrorStateLine else ""
  }

  function Arrow(t: AstTransition): string {
    if t.event.Some? && t.event.value != "" then " --> " else " -[dashed]-> "
  }

  /** What follows the target: for an event, its number, name, conditions
      and arguments; from a fork state, the arguments only. */
  function Tail(t: AstTransition): string {
    if t.event.Some? && t.event.value != "" then
      var number := if t.number.None? then "" else NatToString(t.number.value) + " ";
      var conds := if t.conditions.Some? && |t.conditions.value| > 0 then "\\n" + Join(t.conditions.value, " and\\n") else "";
      " : " + number + "**" + t.event.value + "**" + conds + ArgumentsText(t, "\\n--->\\n")
    else
      ArgumentsText(t, " : \\n--->\\n")
  }

  /** The arrow from the source to the shown target. */
  function ArrowLine(t: AstTransition): string {
    "  " + t.source + Arrow(t) + ShownTarget(t)
  }

  /** `AstTransition.__str__` (pycontract_plantuml.py:353-379); `\\n` is the
      two-character PlantUML line break. */
  function Render(t: AstTransition): string {
    Head(t) + ArrowLine(t) + Tail(t)
  }

  /** The rendering opens with the red error state exactly for an `error`
      target (for source names without a line break), then draws the arrow
      from the source to the shown target, `[*]` standing for `ok`. */
  lemma RenderShape(t: AstTransition)
    requires '\n' !in t.source
    ensures StartsWith(Render(t), ErrorStateLine) <==> t.target == "error"
    ensures StartsWith(Render(t), Head(t) + "  " + t.source + Arrow(t) + ShownTarget(t))
    ensures t.target == "ok" ==> ShownTarget(t) == "[*]"
  {
    PrefixOfConcat(Head(t) + ArrowLine(t), Tail(t));
    if t.target == "error" {
      ErrorHead(t);
    } else {
      NoErrorHead(t);
    }
  }

  lemma ErrorHead(t: AstTransition)
    requires t.target == "error"
    ensures StartsWith(Render(t), ErrorStateLine)
  {
    assert Render(t) == ErrorStateLine + (ArrowLine(t) + Tail(t));
    PrefixOfConcat(ErrorStateLine, ArrowLine(t) + Tail(t));
  }

  lemma NoErrorHead(t: AstTransition)
    requires t.target != "error" && '\n' !in t.source
    ensures !StartsWith(Render(t), ErrorStateLine)
  {
    var start := "  " + t.source + Arrow(t);
    assert Render(t) == start + (ShownTarget(t) + Tail(t));
    PrefixOfConcat(start, ShownTarget(t) + Tail(t));
    NoErrorLine(t.source, Arrow(t), Render(t));
  }

  lemma PrefixOfConcat(a: string, b: string)
    ensures StartsWith(a + b, a)
  {
    assert (a + b)[..|a|] == a;
  }

  /** A line starting with two spaces, a name without line break and an
      arrow never starts with the red error state. */
  lemma NoErrorLine(source: string, arrow: string, r: string)
    requires '\n' !in source
    requires arrow == " --> " || arrow == " -[dashed]-> "
    requires StartsWith(r, "  " + source + arrow)
    ensures !StartsWith(r, ErrorStateLine)
  {
    var p := "  " + source + arrow;
    var n := |source|;
    assert r[..|p|] == p;
    var k := if n >= 16 then 18 else 3 + n;
    if n >= 17 {
      assert r[k] == p[k] == source[16];
    } else if n == 16 {
      assert r[k] == p[k] == arrow[0];
    } else {
      assert r[k] == p[k] == arrow[1];
    }
    assert r[k] != ErrorStateLine[k];
  }
}

=== FILE: pressure.dfy ===
/** The pressure hysteresis monitor of demo.py (`Pressure.transition`).

    For every entity the monitor keeps four streak counters (too high, too
    low, rising too fast, falling too fast) and the previous reading. A
    reading of the monitored kind runs six ordered checks; the first check
    whose incremented counter exceeds the tolerance produces a violation and
    the remaining checks are skipped. Readings of any other kind are ignored.

    The source keeps the counters in five dictionaries; here the store is one
    map from entity to `EntityState`, where an entity that is absent behaves
    as all counters zero and no previous value, exactly as the dictionaries'
    `get(id, 0)` / `get(id, None)` defaults do. */
module Pressure {
  import opened Wrappers

  type Id = string

  /** The only measurement kind the monitor looks at. */
  const Monitored: string := "Pressione a valle"

  /** Minutes between two readings; violation messages report
      `count * Freq` minutes. */
  const Freq: nat := 15

  /** The thresholds given to the constructor (`low`, `high`, `max_delta`,
      `max_unsafe`). Nothing about them is checked by the source. */
  datatype Config = Config(low: real, high: real, maxDelta: real, maxUnsafe: int)

  /** A configuration in which the level conditions and the rate conditions
      exclude each other; properties that depend on it say so. */
  predicate Sensible(cfg: Config) {
    cfg.low < cfg.high && cfg.maxDelta >= 0.0
  }

  /** One CSV record: `'ID'`, `'Tipo Grandezza'` and `float('Valore')`. */
  datatype Reading = Reading(id: Id, kind: string, value: real)

  datatype EntityState = EntityState(prev: Option<real>, high: nat, low: nat, up: nat, down: nat)

  const Fresh := EntityState(None, 0, 0, 0, 0)

  type Store = map<Id, EntityState>

  function Lookup(store: Store, id: Id): EntityState {
    if id in store then store[id] else Fresh
  }

  datatype Condition = TooHigh | TooLow | Rising | Falling

  /** The error the source returns: the entity, which condition, the streak
      length and the `count * FREQ` minutes its message reports. */
  datatype Violation = Violation(id: Id, condition: Condition, count: nat, minutes: nat)

  /** Python truthiness of the previous value: absent and `0.0` are false. */
  predicate Truthy(prev: Option<real>) {
    prev.Some? && prev.value != 0.0
  }

  function Abs(x: real): real {
    if x < 0.0 then -x else x
  }

  /** The outcome of one check: carry on with the updated state, or stop
      with an alert for the counter that went past the tolerance. */
  datatype Step = Continue(state: EntityState) | Alert(state: EntityState, condition: Condition, count: nat)

  /** Check 1, too high (demo.py:29-38). */
  function CheckHigh(cfg: Config, v: real, s: EntityState): Step {
    if v > cfg.high then
      var count := s.high + 1;
      if count > cfg.maxUnsafe then Alert(s.(high := count), TooHigh, count)
      else Continue(s.(high := count, low := 0))
    else Continue(s)
  }

  /** Check 2, too low (demo.py:39-49). */
  function CheckLow(cfg: Config, v: real, s: EntityState): Step {
    if v < cfg.low then
      var count := s.low + 1;
      if count > cfg.maxUnsafe then Alert(s.(low := count), TooLow, count)
      else Continue(s.(low := count, high := 0))
    else Continue(s)
  }

  /** Check 3, rising too fast (demo.py:50-58). */
  function CheckRising(cfg: Config, v: real, prev: Option<real>, s: EntityState): Step {
    if Truthy(prev) && v - prev.value > cfg.maxDelta then
      var count := s.up + 1;
      if count > cfg.maxUnsafe then Alert(s.(up := count), Rising, count)
      else Continue(s.(up := count, down := 0))
    else Continue(s)
  }

  /** Check 4, falling too fast (demo.py:59-67). */
  function CheckFalling(cfg: Config, v: real, prev: Option<real>, s: EntityState): Step {
    if Truthy(prev) && prev.value - v > cfg.maxDelta then
      var count := s.down + 1;
      if count > cfg.maxUnsafe then Alert(s.(down := count), Falling, count)
      else Continue(s.(down := count, up := 0))
    else Continue(s)
  }

  /** Check 5, stable rate (demo.py:68-72). */
  function ResetStable(cfg: Config, v: real, prev: Option<real>, s: EntityState): EntityState {
    if Truthy(prev) && Abs(v - prev.value) <= cfg.maxDelta then s.(up := 0, down := 0) else s
  }

  /** Check 6, safe band (demo.py:73-77). */
  function ResetBand(cfg: Config, v: real, s: EntityState): EntityState {
    if v > cfg.low && v < cfg.high then s.(high := 0, low := 0) else s
  }

  /** The six checks in order, stopping at the first alert. `prev` is the
      value seen before this reading; `s` already records the new one. */
  function Checks(cfg: Config, v: real, prev: Option<real>, s: EntityState): Step {
    match CheckHigh(cfg, v, s)
    case Alert(s1, c, n) => Alert(s1, c, n)
    case Continue(s1) =>
      match CheckLow(cfg, v, s1)
      case Alert(s2, c, n) => Alert(s2, c, n)
      case Continue(s2) =>
        match CheckRising(cfg, v, prev, s2)
        case Alert(s3, c, n) => Alert(s3, c, n)
        case Continue(s3) =>
          match CheckFalling(cfg, v, prev, s3)
          case Alert(s4, c, n) => Alert(s4, c, n)
          case Continue(s4) => Continue(ResetBand(cfg, v, ResetStable(cfg, v, prev, s4)))
  }

  /** `Pressure.transition` (demo.py:24-77): the new store and the optional
      error. Entities other than the reading's are left alone, and a
      violation is about the reading's entity and reports `count * Freq`
      minutes. */
  function Transition(cfg: Config, store: Store, r: Reading): (out: (Store, Option<Violation>))
    ensures r.kind != Monitored ==> out == (store, None)
    ensures r.kind == Monitored ==> out.0.Keys == store.Keys + {r.id}
    ensures forall id :: id != r.id ==> Lookup(out.0, id) == Lookup(store, id)
    ensures r.kind == Monitored ==> Lookup(out.0, r.id).prev == Some(r.value)
    ensures out.1.Some? ==> out.1.value.id == r.id && out.1.value.minutes == out.1.value.count * Freq
    ensures out.1.Some? ==> out.1.value.count as int > cfg.maxUnsafe
  {
    if r.kind != Monitored then (store, None)
    else
      var s := Lookup(store, r.id);
      match Checks(cfg, r.value, s.prev, s.(prev := Some(r.value)))
      case Continue(s') => (store[r.id := s'], None)
      case Alert(s', c, n) => (store[r.id := s'], Some(Violation(r.id, c, n, n * Freq)))
  }

  /** The streak counter that belongs to a condition. */
  function Counter(s: EntityState, c: Condition): nat {
    match c
    case TooHigh => s.high
    case TooLow => s.low
    case Rising => s.up
    case Falling => s.down
  }

  // -----------------------------------------------------------------------
  // Properties of one reading

  /** What a reading does to its entity depends on that entity's state
      alone: stores that agree on the entity give the same outcome. */
  lemma DependsOnlyOnOwnState(cfg: Config, store1: Store, store2: Store, r: Reading)
    requires Lookup(store1, r.id) == Lookup(store2, r.id)
    ensures Transition(cfg, store1, r).1 == Transition(cfg, store2, r).1
    ensures Lookup(Transition(cfg, store1, r).0, r.id) == Lookup(Transition(cfg, store2, r).0, r.id)
  {
  }

  /** A previous value of `0.0` is falsy in the source, so it behaves as if
      there were no previous value at all. */
  lemma ZeroPrevActsAbsent(cfg: Config, store: Store, r: Reading)
    requires r.kind == Monitored
    ensures var s := Lookup(store, r.id);
            Transition(cfg, store[r.id := s.(prev := Some(0.0))], r)
            == Transition(cfg, store[r.id := s.(prev := None)], r)
  {
    var s := Lookup(store, r.id);
    var t := s.(prev := Some(r.value));
    assert s.(prev := Some(0.0)).(prev := Some(r.value)) == t;
    assert s.(prev := None).(prev := Some(r.value)) == t;
    var st1 := store[r.id := s.(prev := Some(0.0))];
    var st2 := store[r.id := s.(prev := None)];
    assert Lookup(st1, r.id) == s.(prev := Some(0.0));
    assert Lookup(st2, r.id) == s.(prev := None);
    FalsyPrevsAgree(cfg, r.value, Some(0.0), None, t);
    match Checks(cfg, r.value, None, t)
    case Continue(s') =>
      assert st1[r.id := s'] == st2[r.id := s'];
    case Alert(s', c, n) =>
      assert st1[r.id := s'] == st2[r.id := s'];
  }

  lemma FalsyPrevsAgree(cfg: Config, v: real, p: Option<real>, q: Option<real>, s: EntityState)
    requires !Truthy(p) && !Truthy(q)
    ensures Checks(cfg, v, p, s) == Checks(cfg, v, q, s)
  {
  }

  /** Without a (truthy) previous value neither rate counter is touched. */
  lemma NoPrevNoRateChange(cfg: Config, store: Store, r: Reading)
    requires r.kind == Monitored && !Truthy(Lookup(store, r.id).prev)
    ensures var s := Lookup(store, r.id);
            var s' := Lookup(Transition(cfg, store, r).0, r.id);
            s'.up == s.up && s'.down == s.down
  {
  }

  /** Check 1: a value above HIGH raises the high count by exactly one; it
      alerts iff the new count exceeds MAX_UNSAFE, and otherwise clears the
      low count. */
  lemma HighCheck(cfg: Config, store: Store, r: Reading)
    requires r.kind == Monitored && r.value > cfg.high
    ensures var s := Lookup(store, r.id);
            cfg.low <= cfg.high ==> Lookup(Transition(cfg, store, r).0, r.id).high == s.high + 1
    ensures var s := Lookup(store, r.id);
            Transition(cfg, store, r).1 == Some(Violation(r.id, TooHigh, s.high + 1, (s.high + 1) * Freq))
            <==> s.high + 1 > cfg.maxUnsafe
    ensures var s := Lookup(store, r.id);
            s.high + 1 > cfg.maxUnsafe ==>
              Lookup(Transition(cfg, store, r).0, r.id) == s.(prev := Some(r.value), high := s.high + 1)
    ensures var s := Lookup(store, r.id);
            s.high + 1 <= cfg.maxUnsafe && cfg.low <= cfg.high ==> Lookup(Transition(cfg, store, r).0, r.id).low == 0
  {
  }

  /** Check 2 (under low < high, so check 1 cannot have fired): a value
      below LOW raises the low count by one, alerts iff it exceeds
      MAX_UNSAFE, and otherwise clears the high count. */
  lemma LowCheck(cfg: Config, store: Store, r: Reading)
    requires r.kind == Monitored && r.value < cfg.low && cfg.low <= cfg.high
    ensures var s := Lookup(store, r.id);
            var out := Transition(cfg, store, r);
            var s' := Lookup(out.0, r.id);
            && s'.low == s.low + 1
            && (out.1 == Some(Violation(r.id, TooLow, s.low + 1, (s.low + 1) * Freq))
                <==> s.low + 1 > cfg.maxUnsafe)
            && (s.low + 1 <= cfg.maxUnsafe ==> s'.high == 0)
  {
  }

  /** Check 3: when the previous value is truthy and the reading rose by
      more than MAX_DELTA, the up count rises by one; with no level alert
      before it, it alerts iff the count exceeds MAX_UNSAFE, and otherwise
      the down count is cleared. */
  lemma RisingCheck(cfg: Config, store: Store, r: Reading)
    requires r.kind == Monitored && Sensible(cfg)
    requires var s := Lookup(store, r.id); Truthy(s.prev) && r.value - s.prev.value > cfg.maxDelta
    requires !(r.value > cfg.high && Lookup(store, r.id).high + 1 > cfg.maxUnsafe)
    requires !(r.value < cfg.low && Lookup(store, r.id).low + 1 > cfg.maxUnsafe)
    ensures var s := Lookup(store, r.id);
            var out := Transition(cfg, store, r);
            var s' := Lookup(out.0, r.id);
            && s'.up == s.up + 1
            && (out.1 == Some(Violation(r.id, Rising, s.up + 1, (s.up + 1) * Freq))
                <==> s.up + 1 > cfg.maxUnsafe)
            && (s.up + 1 <= cfg.maxUnsafe ==> s'.down == 0)
  {
  }

  /** Check 4, the mirror image of check 3 for a fall of more than MAX_DELTA. */
  lemma FallingCheck(cfg: Config, store: Store, r: Reading)
    requires r.kind == Monitored && Sensible(cfg)
    requires var s := Lookup(store, r.id); Truthy(s.prev) && s.prev.value - r.value > cfg.maxDelta
    requires !(r.value > cfg.high && Lookup(store, r.id).high + 1 > cfg.maxUnsafe)
    requires !(r.value < cfg.low && Lookup(store, r.id).low + 1 > cfg.maxUnsafe)
    ensures var s := Lookup(store, r.id);
            var out := Transition(cfg, store, r);
            var s' := Lookup(out.0, r.id);
            && s'.down == s.down + 1
            && (out.1 == Some(Violation(r.id, Falling, s.down + 1, (s.down + 1) * Freq))
                <==> s.down + 1 > cfg.maxUnsafe)
            && (s.down + 1 <= cfg.maxUnsafe ==> s'.up == 0)
  {
  }

  /** Check 5: a truthy previous value within MAX_DELTA clears both rate
      counts, provided no level check alerted first. */
  lemma StableResetsRates(cfg: Config, store: Store, r: Reading)
    requires r.kind == Monitored
    requires var s := Lookup(store, r.id); Truthy(s.prev) && Abs(r.value - s.prev.value) <= cfg.maxDelta
    requires Transition(cfg, store, r).1.None?
    ensures var s' := Lookup(Transition(cfg, store, r).0, r.id);
            s'.up == 0 && s'.down == 0
  {
  }

  /** Check 6: a value strictly inside (LOW, HIGH) clears both level counts
      when no rate check alerted. */
  lemma BandResetsLevels(cfg: Config, store: Store, r: Reading)
    requires r.kind == Monitored && cfg.low < r.value < cfg.high
    requires Transition(cfg, store, r).1.None?
    ensures var s' := Lookup(Transition(cfg, store, r).0, r.id);
            s'.high == 0 && s'.low == 0
  {
  }

  /** A value exactly on LOW or HIGH neither raises nor clears a level
      counter (when the band is not empty, so it can equal only one of them). */
  lemma BoundaryLeavesLevels(cfg: Config, store: Store, r: Reading)
    requires r.kind == Monitored && cfg.low < cfg.high
    requires r.value == cfg.low || r.value == cfg.high
    ensures var s := Lookup(store, r.id);
            var s' := Lookup(Transition(cfg, store, r).0, r.id);
            s'.high == s.high && s'.low == s.low
  {
  }

  /** An alert from a rate check skips the safe-band reset: a value inside
      the band keeps the level counts it had. */
  lemma RateAlertSkipsBandReset(cfg: Config, store: Store, r: Reading)
    requires r.kind == Monitored && cfg.low < r.value < cfg.high
    requires Transition(cfg, store, r).1.Some?
    ensures var s := Lookup(store, r.id);
            var s' := Lookup(Transition(cfg, store, r).0, r.id);
            s'.high == s.high && s'.low == s.low
  {
  }

  /** The violation a reading produces, stated as the first of the four
      conditions that both holds and pushes its (old) counter past the
      tolerance. Under a sensible configuration this is exactly what the
      chained checks return. */
  function ExpectedAlert(cfg: Config, s: EntityState, v: real): Option<(Condition, nat)> {
    if v > cfg.high && s.high + 1 > cfg.maxUnsafe then Some((TooHigh, s.high + 1))
    else if v < cfg.low && s.low + 1 > cfg.maxUnsafe then Some((TooLow, s.low + 1))
    else if Truthy(s.prev) && v - s.prev.value > cfg.maxDelta && s.up + 1 > cfg.maxUnsafe then Some((Rising, s.up + 1))
    else if Truthy(s.prev) && s.prev.value - v > cfg.maxDelta && s.down + 1 > cfg.maxUnsafe then Some((Falling, s.down + 1))
    else None
  }

  lemma AlertCharacterization(cfg: Config, store: Store, r: Reading)
    requires r.kind == Monitored && Sensible(cfg)
    ensures var s := Lookup(store, r.id);
            var out := Transition(cfg, store, r);
            match ExpectedAlert(cfg, s, r.value)
            case None => out.1.None?
            case Some((c, n)) => out.1 == Some(Violation(r.id, c, n, n * Freq))
  {
  }

  /** The source accepts any thresholds. With LOW above HIGH the checks
      interfere: a reading between them first clears the low count in
      check 1 and then raises it from zero in check 2, so a long low
      streak gives no alert although `ExpectedAlert` expects one. This is
      why the characterizations above ask for a sensible configuration. */
  lemma InvertedBandForgetsLowStreak(store: Store, r: Reading)
    requires store == map["P1" := EntityState(None, 0, 5, 0, 0)]
    requires r == Reading("P1", Monitored, 0.03)
    ensures var cfg := Config(0.05, 0.01, 0.0, 3);
            && Transition(cfg, store, r).1.None?
            && ExpectedAlert(cfg, Lookup(store, r.id), r.value) == Some((TooLow, 6))
            && Lookup(Transition(cfg, store, r).0, r.id).low == 1
  {
  }

  /** Without an alert, each counter's new value is given by the reading
      alone: raised by the condition that holds, cleared by the opposite
      condition or by the reassuring one, kept otherwise. */
  lemma CountersWithoutAlert(cfg: Config, store: Store, r: Reading)
    requires r.kind == Monitored && Sensible(cfg)
    requires Transition(cfg, store, r).1.None?
    ensures var s := Lookup(store, r.id);
            var s' := Lookup(Transition(cfg, store, r).0, r.id);
            var v := r.value;
            && s'.prev == Some(v)
            && s'.high == (if v > cfg.high then s.high + 1 else if v < cfg.high && v != cfg.low then 0 else s.high)
            && s'.low == (if v < cfg.low then s.low + 1 else if v > cfg.low && v != cfg.high then 0 else s.low)
            && s'.up == (if !Truthy(s.prev) then s.up else if v - s.prev.value > cfg.maxDelta then s.up + 1 else 0)
            && s'.down == (if !Truthy(s.prev) then s.down else if s.prev.value - v > cfg.maxDelta then s.down + 1 else 0)
  {
  }

  /** Emitting an error does not reset the counter that caused it: the
      stored counter is the reported count, above MAX_UNSAFE. */
  lemma AlertKeepsCounter(cfg: Config, store: Store, r: Reading)
    requires Transition(cfg, store, r).1.Some?
    ensures var out := Transition(cfg, store, r);
            Counter(Lookup(out.0, r.id), out.1.value.condition) == out.1.value.count
  {
  }

  /** So the next too-high reading errors again, with a count one larger. */
  lemma HighAlertRepeats(cfg: Config, store: Store, r: Reading, r2: Reading)
    requires Transition(cfg, store, r).1.Some? && Transition(cfg, store, r).1.value.condition == TooHigh
    requires r2.id == r.id && r2.kind == Monitored && r2.value > cfg.high
    ensures var out := Transition(cfg, store, r);
            var n := out.1.value.count;
            Transition(cfg, out.0, r2).1 == Some(Violation(r.id, TooHigh, n + 1, (n + 1) * Freq))
  {
    AlertKeepsCounter(cfg, store, r);
  }

  // -----------------------------------------------------------------------
  // Runs over a sequence of readings

  /** Feeds the readings in order; the i-th output is the i-th reading's
      optional violation. */
  function Run(cfg: Config, store: Store, rs: seq<Reading>): (out: (Store, seq<Option<Violation>>))
    ensures |out.1| == |rs|
    decreases |rs|
  {
    if |rs| == 0 then (store, [])
    else
      var step := Transition(cfg, store, rs[0]);
      var rest := Run(cfg, step.0, rs[1..]);
      (rest.0, [step.1] + rest.1)
  }

  /** Readings for one entity never change another entity's state. */
  lemma {:induction false} RunIndependent(cfg: Config, store: Store, rs: seq<Reading>, id: Id)
    requires forall i :: 0 <= i < |rs| ==> rs[i].id != id
    ensures Lookup(Run(cfg, store, rs).0, id) == Lookup(store, id)
    decreases |rs|
  {
    if |rs| > 0 {
      RunIndependent(cfg, Transition(cfg, store, rs[0]).0, rs[1..], id);
    }
  }

  /** Readings of other kinds, interleaved anywhere, change nothing: running
      a trace gives the same store and the same alerts for the monitored
      readings as running the monitored readings alone. */
  function OfMonitoredKind(rs: seq<Reading>): (ms: seq<Reading>)
    ensures forall i :: 0 <= i < |ms| ==> ms[i].kind == Monitored
    ensures |ms| <= |rs|
  {
    if |rs| == 0 then []
    else if rs[0].kind == Monitored then [rs[0]] + OfMonitoredKind(rs[1..])
    else OfMonitoredKind(rs[1..])
  }

  /** The alerts of the monitored readings, in order. */
  function AlertsOf(rs: seq<Reading>, alerts: seq<Option<Violation>>): seq<Option<Violation>>
    requires |alerts| == |rs|
  {
    if |rs| == 0 then []
    else if rs[0].kind == Monitored then [alerts[0]] + AlertsOf(rs[1..], alerts[1..])
    else AlertsOf(rs[1..], alerts[1..])
  }

  lemma {:induction false} IgnoredKindsChangeNothing(cfg: Config, store: Store, rs: seq<Reading>)
    ensures Run(cfg, store, rs).0 == Run(cfg, store, OfMonitoredKind(rs)).0
    ensures AlertsOf(rs, Run(cfg, store, rs).1) == Run(cfg, store, OfMonitoredKind(rs)).1
    ensures forall i :: 0 <= i < |rs| && rs[i].kind != Monitored ==> Run(cfg, store, rs).1[i].None?
    decreases |rs|
  {
    if |rs| > 0 {
      var step := Transition(cfg, store, rs[0]);
      IgnoredKindsChangeNothing(cfg, step.0, rs[1..]);
      var out := Run(cfg, store, rs);
      assert out.1[1..] == Run(cfg, step.0, rs[1..]).1;
      if rs[0].kind == Monitored {
        assert OfMonitoredKind(rs)[1..] == OfMonitoredKind(rs[1..]);
      }
      forall i | 0 <= i < |rs| && rs[i].kind != Monitored
        ensures out.1[i].None?
      {
        if i > 0 {
          assert out.1[i] == Run(cfg, step.0, rs[1..]).1[i - 1];
        }
      }
    }
  }

  // -----------------------------------------------------------------------
  // Worked scenarios with the command-line defaults

  const Defaults := Config(0.019, 0.032, 0.001, 3)

  function P1(v: real): Reading {
    Reading("P1", Monitored, v)
  }

  /** Four readings above HIGH: the fourth exceeds MAX_UNSAFE = 3 and is
      reported as too high for 60 minutes. */
  lemma ScenarioTooHigh()
    ensures Run(Defaults, map[], [P1(0.033), P1(0.034), P1(0.035), P1(0.036)]).1
         == [None, None, None, Some(Violation("P1", TooHigh, 4, 60))]
  {
    var rs := [P1(0.033), P1(0.034), P1(0.035), P1(0.036)];
    var s1 := Transition(Defaults, map[], rs[0]).0;
    var s2 := Transition(Defaults, s1, rs[1]).0;
    var s3 := Transition(Defaults, s2, rs[2]).0;
    assert Lookup(s3, "P1").high == 3;
    assert rs[1..][1..][1..] == [rs[3]];
  }

  /** Back inside the band the high count is cleared. */
  lemma ScenarioBackInBand()
    ensures var out := Run(Defaults, map[], [P1(0.033), P1(0.025)]);
            out.1 == [None, None] && Lookup(out.0, "P1").high == 0
  {
    var rs := [P1(0.033), P1(0.025)];
    assert rs[1..] == [P1(0.025)];
  }

  /** Rising by more than MAX_DELTA each time: the first reading has no
      previous value, so four readings give an up count of 3 without an
      error, and a fifth rising reading errors with count 4. */
  lemma ScenarioRising()
    ensures var out := Run(Defaults, map[], [P1(0.020), P1(0.022), P1(0.0235), P1(0.0250), P1(0.0265)]);
            out.1 == [None, None, None, None, Some(Violation("P1", Rising, 4, 60))]
  {
    var rs := [P1(0.020), P1(0.022), P1(0.0235), P1(0.0250), P1(0.0265)];
    var s1 := Transition(Defaults, map[], rs[0]).0;
    var s2 := Transition(Defaults, s1, rs[1]).0;
    var s3 := Transition(Defaults, s2, rs[2]).0;
    var s4 := Transition(Defaults, s3, rs[3]).0;
    assert Lookup(s4, "P1").up == 3;
    assert rs[1..][1..][1..][1..] == [rs[4]];
  }
}

=== FILE: records.dfy ===
/** Events read by `CSVSource` (pycontract_csv.py:78-120): one dictionary
    per CSV line, from column name to the text of that column. */
module Records {
  type Record = map<string, string>

  /** The entry `'key': value` of a mapping pattern in a `match` statement:
      the key is present and its value equals `value`. Other keys may be
      present as well. */
  predicate Has(r: Record, key: string, value: string) {
    key in r && r[key] == value
  }
}

=== FILE: state_vector.dfy ===
/** How one state, and then a whole set of states, evaluates an event
    (pycontract_core.py, classes `State`, `NextState`, `AlwaysState` and
    `Monitor.eval_states`).

    A user state is a value of a type `S`; what the source reads off its
    class is given by a `Machine`: the kind of state (which base class it
    extends) and its `transition` function. The results of a transition are
    `Target`s: `ok`, an `error(...)` or `info(...)` state with its text, or
    a user state. The data objects attached to errors and infos are not
    modelled. */
module StateVector {
  import opened Wrappers

  /** The base class of a user state. */
  datatype Kind = PlainState | HotState | NextState | HotNextState | AlwaysState

  predicate IsHot(k: Kind) {
    k == HotState || k == HotNextState
  }

  datatype Target<S> = Ok | Error(text: string) | Info(text: string) | Go(state: S)

  /** What a transition function returns when it returns something: one
      state or a list of states. */
  datatype Returned<S> = One(target: Target<S>) | Many(targets: seq<Target<S>>)

  /** The behaviour of the user states: their kinds and transitions. */
  datatype Machine<!S, !E> = Machine(kind: S -> Kind, transition: (S, E) -> Option<Returned<S>>)

  const NoMatchText := "no transition matching event"

  /** `mk_state_vector(arg)` (pycontract_core.py:605-616): a list is
      returned unchanged, a single state becomes a singleton. */
  function MkStateVector<S>(arg: Returned<S>): (ts: seq<Target<S>>)
    ensures arg.Many? ==> ts == arg.targets
    ensures arg.One? ==> |ts| == 1 && ts[0] == arg.target
  {
    match arg
    case One(t) => [t]
    case Many(ts) => ts
  }

  /** `eval` of a state of the given kind, whose transition returned
      `result` (pycontract_core.py:296-312, 334-347, 368-379). */
  function EvalState<S>(kind: Kind, self: S, result: Option<Returned<S>>): (ts: seq<Target<S>>)
    ensures result.None? && kind in {PlainState, HotState, AlwaysState} ==> ts == [Go(self)]
    ensures result.None? && kind in {NextState, HotNextState} ==> ts == [Error(NoMatchText)]
    ensures result.Some? && kind != AlwaysState ==> ts == MkStateVector(result.value)
    ensures result.Some? && kind == AlwaysState ==> ts == MkStateVector(result.value) + [Go(self)]
    ensures kind == AlwaysState ==> |ts| > 0 && ts[|ts| - 1] == Go(self)
  {
    match result
    case None => if kind in {NextState, HotNextState} then [Error(NoMatchText)] else [Go(self)]
    case Some(r) => if kind == AlwaysState then MkStateVector(r) + [Go(self)] else MkStateVector(r)
  }

  /** `source_state.eval(event)` */
  function Results<S, E>(mc: Machine<S, E>, event: E, s: S): seq<Target<S>> {
    EvalState(mc.kind(s), s, mc.transition(s, event))
  }

  // -----------------------------------------------------------------------
  // Messages

  datatype MessageKind = TransitionError | Information | EndError

  /** A reported message. Besides its kind and text it records where it
      came from: the event number, the slice (None for the main states),
      the source state and the position of the error or info state in the
      source's results. Messages reported separately therefore never
      coincide, and the number of messages is the size of the set. */
  datatype Message<S, K> = Message(kind: MessageKind, eventNr: int, slice: Option<K>, source: S, position: nat, text: string)

  function ReportOf<S, K>(t: Target<S>, eventNr: int, slice: Option<K>, source: S, position: nat): Message<S, K>
    requires t.Error? || t.Info?
  {
    Message(if t.Error? then TransitionError else Information, eventNr, slice, source, position, t.text)
  }

  // -----------------------------------------------------------------------
  // eval_states, as sets

  /** The user states among the first `n` results. */
  function TargetsUpTo<S(==)>(rs: seq<Target<S>>, n: nat): set<S>
    requires n <= |rs|
  {
    set i | 0 <= i < n && rs[i].Go? :: rs[i].state
  }

  /** The reports for the error and info states among the first `n` results. */
  function ReportsUpTo<S(==), K(==)>(rs: seq<Target<S>>, n: nat, eventNr: int, slice: Option<K>, source: S): set<Message<S, K>>
    requires n <= |rs|
  {
    set i | 0 <= i < n && (rs[i].Error? || rs[i].Info?) :: ReportOf(rs[i], eventNr, slice, source, i)
  }

  function TargetsOf<S(==), E>(mc: Machine<S, E>, event: E, s: S): set<S> {
    var rs := Results(mc, event, s);
    TargetsUpTo(rs, |rs|)
  }

  function ReportsOf<S(==), E, K(==)>(mc: Machine<S, E>, event: E, eventNr: int, slice: Option<K>, s: S): set<Message<S, K>> {
    var rs := Results(mc, event, s);
    ReportsUpTo(rs, |rs|, eventNr, slice, s)
  }

  function Targets<S(==), E>(mc: Machine<S, E>, event: E, states: set<S>): set<S> {
    set s, t | s in states && t in TargetsOf(mc, event, s) :: t
  }

  function Reports<S(==), E, K(==)>(mc: Machine<S, E>, event: E, eventNr: int, slice: Option<K>, states: set<S>): set<Message<S, K>> {
    set s, m | s in states && m in ReportsOf(mc, event, eventNr, slice, s) :: m
  }

  datatype Outcome<S(==), K(==)> = Outcome(states: set<S>, reports: set<Message<S, K>>)

  /** `eval_states(event, states)` (pycontract_core.py:774-806) as a
      definition on sets: None for an empty set; otherwise every source is
      removed, and the new set holds exactly the user states the sources
      lead to, while their error and info states become reports. */
  function EvalStates<S(==), E, K(==)>(mc: Machine<S, E>, event: E, eventNr: int, slice: Option<K>, states: set<S>): Option<Outcome<S, K>> {
    if states == {} then None
    else Some(Outcome(Targets(mc, event, states), Reports(mc, event, eventNr, slice, states)))
  }

  /** What the definition means state by state: a state survives exactly
      when some source leads to it; `ok`, `error` and `info` never add a
      state; each error and info result of a source is reported once. */
  lemma EvalStatesMeaning<S, E, K>(mc: Machine<S, E>, event: E, eventNr: int, slice: Option<K>, states: set<S>, t: S)
    ensures EvalStates(mc, event, eventNr, slice, states).None? <==> states == {}
    ensures states != {} ==>
      (t in EvalStates(mc, event, eventNr, slice, states).value.states <==>
       exists s, i :: s in states && 0 <= i < |Results(mc, event, s)| && Results(mc, event, s)[i] == Go(t))
    ensures forall m: Message<S, K> :: m in Reports(mc, event, eventNr, slice, states) <==>
      (m.source in states && m.eventNr == eventNr && m.slice == slice &&
       m.position < |Results(mc, event, m.source)| &&
       (Results(mc, event, m.source)[m.position].Error? || Results(mc, event, m.source)[m.position].Info?) &&
       m == ReportOf(Results(mc, event, m.source)[m.position], eventNr, slice, m.source, m.position))
  {
    if states != {} {
      if t in Targets(mc, event, states) {
        var s :| s in states && t in TargetsOf(mc, event, s);
        var i :| 0 <= i < |Results(mc, event, s)| && Results(mc, event, s)[i].Go? && Results(mc, event, s)[i].state == t;
        assert Results(mc, event, s)[i] == Go(t);
      }
      if exists s, i :: s in states && 0 <= i < |Results(mc, event, s)| && Results(mc, event, s)[i] == Go(t) {
        var s, i :| s in states && 0 <= i < |Results(mc, event, s)| && Results(mc, event, s)[i] == Go(t);
        assert t in TargetsOf(mc, event, s);
      }
    }
    forall m: Message<S, K> | m.source in states && m.eventNr == eventNr && m.slice == slice &&
       m.position < |Results(mc, event, m.source)| &&
       (Results(mc, event, m.source)[m.position].Error? || Results(mc, event, m.source)[m.position].Info?) &&
       m == ReportOf(Results(mc, event, m.source)[m.position], eventNr, slice, m.source, m.position)
      ensures m in Reports(mc, event, eventNr, slice, states)
    {
      assert m in ReportsOf(mc, event, eventNr, slice, m.source);
    }
  }

  /** An always state stays in the state set whatever the event. */
  lemma AlwaysPersists<S, E, K>(mc: Machine<S, E>, event: E, eventNr: int, slice: Option<K>, states: set<S>, s: S)
    requires s in states && mc.kind(s) == AlwaysState
    ensures s in EvalStates(mc, event, eventNr, slice, states).value.states
  {
    var rs := Results(mc, event, s);
    assert rs[|rs| - 1] == Go(s);
    assert s in TargetsOf(mc, event, s);
  }

  /** A plain or hot state without a matching transition stays. */
  lemma UnmatchedStays<S, E, K>(mc: Machine<S, E>, event: E, eventNr: int, slice: Option<K>, states: set<S>, s: S)
    requires s in states && mc.kind(s) in {PlainState, HotState} && mc.transition(s, event).None?
    ensures s in EvalStates(mc, event, eventNr, slice, states).value.states
  {
    assert Results(mc, event, s)[0] == Go(s);
    assert s in TargetsOf(mc, event, s);
  }

  /** A next state without a matching transition leads nowhere and reports
      exactly one error. */
  lemma UnmatchedNextFails<S, E, K>(mc: Machine<S, E>, event: E, eventNr: int, slice: Option<K>, s: S)
    requires mc.kind(s) in {NextState, HotNextState} && mc.transition(s, event).None?
    ensures TargetsOf(mc, event, s) == {}
    ensures ReportsOf(mc, event, eventNr, slice, s) == {Message(TransitionError, eventNr, slice, s, 0, NoMatchText)}
  {
    var rs := Results(mc, event, s);
    assert rs == [Error(NoMatchText)];
    assert ReportOf(rs[0], eventNr, slice, s, 0) == Message(TransitionError, eventNr, slice, s, 0, NoMatchText);
  }

  // -----------------------------------------------------------------------
  // eval_states, as the loop of the source

  lemma TargetsUpToNext<S>(rs: seq<Target<S>>, n: nat)
    requires n < |rs|
    ensures TargetsUpTo(rs, n + 1) == TargetsUpTo(rs, n) + (if rs[n].Go? then {rs[n].state} else {})
  {
  }

  lemma ReportsUpToNext<S, K>(rs: seq<Target<S>>, n: nat, eventNr: int, slice: Option<K>, source: S)
    requires n < |rs|
    ensures ReportsUpTo(rs, n + 1, eventNr, slice, source)
         == ReportsUpTo(rs, n, eventNr, slice, source)
          + (if rs[n].Error? || rs[n].Info? then {ReportOf(rs[n], eventNr, slice, source, n)} else {})
  {
  }

  lemma TargetsAdd<S, E>(mc: Machine<S, E>, event: E, done: set<S>, s: S)
    ensures Targets(mc, event, done + {s}) == Targets(mc, event, done) + TargetsOf(mc, event, s)
  {
  }

  lemma ReportsAdd<S, E, K>(mc: Machine<S, E>, event: E, eventNr: int, slice: Option<K>, done: set<S>, s: S)
    ensures Reports(mc, event, eventNr, slice, done + {s})
         == Reports(mc, event, eventNr, slice, done) + ReportsOf(mc, event, eventNr, slice, s)
  {
  }

  /** The results of one source state, as the inner loop of `eval_states`
      collects them (pycontract_core.py:791-799). */
  method CollectResults<S(==), K(==)>(rs: seq<Target<S>>, eventNr: int, slice: Option<K>, source: S, toAdd0: set<S>, reports0: set<Message<S, K>>)
    returns (toAdd: set<S>, reports: set<Message<S, K>>)
    ensures toAdd == toAdd0 + TargetsUpTo(rs, |rs|)
    ensures reports == reports0 + ReportsUpTo(rs, |rs|, eventNr, slice, source)
  {
    toAdd, reports := toAdd0, reports0;
    for i := 0 to |rs|
      invariant toAdd == toAdd0 + TargetsUpTo(rs, i)
      invariant reports == reports0 + ReportsUpTo(rs, i, eventNr, slice, source)
    {
      TargetsUpToNext(rs, i);
      ReportsUpToNext(rs, i, eventNr, slice, source);
      match rs[i]
      case Ok =>
      case Error(_) =>
        reports := reports + {ReportOf(rs[i], eventNr, slice, source, i)};
      case Info(_) =>
        reports := reports + {ReportOf(rs[i], eventNr, slice, source, i)};
      case Go(t) =>
        toAdd := toAdd + {t};
    }
  }

  /** One round of the outer loop of `eval_states`: the source `s` joins
      the sources seen so far. */
  method EvalSource<S(==), E, K(==)>(mc: Machine<S, E>, event: E, eventNr: int, slice: Option<K>, done: set<S>, s: S, toAdd0: set<S>, reports0: set<Message<S, K>>)
    returns (toAdd: set<S>, reports: set<Message<S, K>>)
    requires toAdd0 == Targets(mc, event, done)
    requires reports0 == Reports(mc, event, eventNr, slice, done)
    ensures toAdd == Targets(mc, event, done + {s})
    ensures reports == Reports(mc, event, eventNr, slice, done + {s})
  {
    TargetsAdd(mc, event, done, s);
    ReportsAdd(mc, event, eventNr, slice, done, s);
    toAdd, reports := CollectResults(Results(mc, event, s), eventNr, slice, s, toAdd0, reports0);
  }

  /** Once every state has been a source, the loop's sets are the
      definition's. */
  lemma LoopResult<S, E, K>(mc: Machine<S, E>, event: E, eventNr: int, slice: Option<K>, states: set<S>, toRemove: set<S>, toAdd: set<S>, reports: set<Message<S, K>>)
    requires toRemove == states
    requires toAdd == Targets(mc, event, toRemove) && reports == Reports(mc, event, eventNr, slice, toRemove)
    ensures states == {} ==> EvalStates(mc, event, eventNr, slice, states) == None
    ensures states != {} ==> EvalStates(mc, event, eventNr, slice, states) == Some(Outcome((states - toRemove) + toAdd, reports))
  {
    assert (states - toRemove) + toAdd == toAdd;
  }

  /** `eval_states` (pycontract_core.py:774-806) as written: iterate over
      the states in any order, remember each as a source to remove,
      collect the targets to add, and return None when nothing was
      evaluated. It computes `EvalStates`. */
  method EvalStatesLoop<S(==), E, K(==)>(mc: Machine<S, E>, event: E, eventNr: int, slice: Option<K>, states: set<S>)
    returns (r: Option<Outcome<S, K>>)
    ensures r == EvalStates(mc, event, eventNr, slice, states)
  {
    var triggered := false;
    var toRemove: set<S> := {};
    var toAdd: set<S> := {};
    var reports: set<Message<S, K>> := {};
    while toRemove != states
      invariant toRemove <= states
      invariant triggered == (toRemove != {})
      invariant toAdd == Targets(mc, event, toRemove)
      invariant reports == Reports(mc, event, eventNr, slice, toRemove)
      decreases |states - toRemove|
    {
      var s :| s in states - toRemove;
      triggered := true;
      toAdd, reports := EvalSource(mc, event, eventNr, slice, toRemove, s, toAdd, reports);
      toRemove := toRemove + {s};
    }
    LoopResult(mc, event, eventNr, slice, states, toRemove, toAdd, reports);
    if triggered {
      r := Some(Outcome((states - toRemove) + toAdd, reports));
    } else {
      r := None;
    }
  }
}

=== FILE: text.dfy ===
/** The string operations the modelled Python code leans on: `str.split`
    with a one-character separator, `str.join`, `str.startswith`, and the
    decimal conversions behind `f'{n}'` and `int(s)`. */
module Text {
  import opened Wrappers

  predicate StartsWith(s: string, prefix: string) {
    |prefix| <= |s| && s[..|prefix|] == prefix
  }

  /** `sep.join(parts)` */
  function Join(parts: seq<string>, sep: string): string
    decreases |parts|
  {
    if |parts| == 0 then ""
    else if |parts| == 1 then parts[0]
    else parts[0] + sep + Join(parts[1..], sep)
  }

  function Last<T>(xs: seq<T>): T
    requires |xs| > 0
  {
    xs[|xs| - 1]
  }

  // Putting one element in front of a short sequence display. These
  // facts are immediate, but stating them once, for any element type,
  // spares the verifier the element-wise comparison inside proofs about
  // large datatypes, where it is expensive.

  lemma ConsNone<T>(a: T)
    ensures [a] + [] == [a]
  {
  }

  lemma ConsOne<T>(a: T, b: T)
    ensures [a] + [b] == [a, b]
  {
  }

  lemma ConsTwo<T>(a: T, b: T, c: T)
    ensures [a] + [b, c] == [a, b, c]
  {
  }

  lemma ConsThree<T>(a: T, b: T, c: T, d: T)
    ensures [a] + [b, c, d] == [a, b, c, d]
  {
  }

  /** Joining a list whose last element is split off. */
  lemma {:induction false} JoinSnoc(init: seq<string>, x: string, sep: string)
    requires |init| > 0
    ensures Join(init + [x], sep) == Join(init, sep) + sep + x
    decreases |init|
  {
    if |init| == 1 {
      assert init + [x] == [init[0], x];
      assert [init[0], x][1..] == [x];
    } else {
      assert (init + [x])[1..] == init[1..] + [x];
      JoinSnoc(init[1..], x, sep);
    }
  }

  /** Prepending to the first part prepends to the joined string. */
  lemma JoinPrependFirst(a: string, parts: seq<string>, sep: string)
    requires |parts| > 0
    ensures Join([a + parts[0]] + parts[1..], sep) == a + Join(parts, sep)
  {
    var l := [a + parts[0]] + parts[1..];
    assert l[1..] == parts[1..];
  }

  /** `s.split(c)`: the pieces between occurrences of `c`, in order. */
  function Split(s: string, c: char): (parts: seq<string>)
    ensures |parts| >= 1
    decreases |s|
  {
    if |s| == 0 then [""]
    else
      var rest := Split(s[1..], c);
      if s[0] == c then [""] + rest
      else [[s[0]] + rest[0]] + rest[1..]
  }

  /** The pieces contain no separator and join back to the string. */
  lemma {:induction false} SplitJoins(s: string, c: char)
    ensures forall i :: 0 <= i < |Split(s, c)| ==> c !in Split(s, c)[i]
    ensures Join(Split(s, c), [c]) == s
    decreases |s|
  {
    if |s| > 0 {
      var rest := Split(s[1..], c);
      SplitJoins(s[1..], c);
      var parts := Split(s, c);
      if s[0] == c {
        assert parts[1..] == rest;
        assert s == [c] + s[1..];
      } else {
        JoinPrependFirst([s[0]], rest, [c]);
        assert s == [s[0]] + s[1..];
        assert forall i :: 1 <= i < |parts| ==> parts[i] == rest[i];
      }
    }
  }

  /** The pieces of a split string are determined by the string: any list of
      `c`-free pieces that joins back to `s` is `Split(s, c)`. */
  lemma {:induction false} SplitUnique(s: string, c: char, parts: seq<string>)
    requires |parts| >= 1
    requires forall i :: 0 <= i < |parts| ==> c !in parts[i]
    requires Join(parts, [c]) == s
    ensures parts == Split(s, c)
    decreases |s|
  {
    var rest := Split(s, c);
    SplitJoins(s, c);
    if |parts| == 1 {
      assert c !in s;
    } else {
      assert s == parts[0] + [c] + Join(parts[1..], [c]);
      var k := |parts[0]|;
      assert s[k] == c;
      if |rest| == 1 {
        assert false;
      }
      assert s == rest[0] + [c] + Join(rest[1..], [c]);
      assert rest[0] == parts[0] by {
        FirstPieceIsPrefix(s, c, parts[0]);
        FirstPieceIsPrefix(s, c, rest[0]);
      }
      assert Join(parts[1..], [c]) == s[k + 1..];
      assert Join(rest[1..], [c]) == s[k + 1..];
      SplitUnique(s[k + 1..], c, parts[1..]);
      SplitUnique(s[k + 1..], c, rest[1..]);
    }
  }

  /** A `c`-free prefix of `s` followed by `c` is the text before the first `c`. */
  lemma FirstPieceIsPrefix(s: string, c: char, p: string)
    requires c !in p && |p| < |s| && s[..|p|] == p && s[|p|] == c
    ensures p == FirstPiece(s, c)
  {
  }

  /** The text of `s` before its first `c` (all of `s` if there is none). */
  function FirstPiece(s: string, c: char): (p: string)
    ensures |p| <= |s| && s[..|p|] == p && c !in p
    ensures |p| < |s| ==> s[|p|] == c
  {
    if |s| == 0 then ""
    else if s[0] == c then ""
    else [s[0]] + FirstPiece(s[1..], c)
  }

  // ---------------------------------------------------------------------
  // Decimal notation

  predicate IsDigit(ch: char) {
    '0' <= ch <= '9'
  }

  function DigitChar(d: nat): (ch: char)
    requires d < 10
    ensures IsDigit(ch)
  {
    ('0' as int + d) as char
  }

  function DigitValue(ch: char): nat
    requires IsDigit(ch)
  {
    ch as int - '0' as int
  }

  /** `f'{n}'` for a non-negative integer */
  function NatToString(n: nat): (s: string)
    ensures |s| > 0
    ensures forall i :: 0 <= i < |s| ==> IsDigit(s[i])
  {
    if n < 10 then [DigitChar(n)] else NatToString(n / 10) + [DigitChar(n % 10)]
  }

  /** `f'{i}'` for any integer */
  function IntToString(i: int): string {
    if i < 0 then "-" + NatToString(-i) else NatToString(i)
  }

  function DigitsValue(s: string): nat
    requires forall i :: 0 <= i < |s| ==> IsDigit(s[i])
  {
    if |s| == 0 then 0 else DigitsValue(s[..|s| - 1]) * 10 + DigitValue(s[|s| - 1])
  }

  /** A non-empty run of decimal digits, or None */
  function ParseNat(s: string): (r: Option<nat>)
    ensures r.Some? <==> |s| > 0 && forall i :: 0 <= i < |s| ==> IsDigit(s[i])
  {
    if |s| > 0 && forall i :: 0 <= i < |s| ==> IsDigit(s[i]) then Some(DigitsValue(s)) else None
  }

  /** `int(s)` for an optionally signed run of decimal digits; None where
      Python raises `ValueError`. Surrounding whitespace, `_` digit
      separators and non-ASCII decimal digits, which Python also accepts,
      are not modelled. */
  function ParseInt(s: string): (r: Option<int>)
    ensures |s| > 0 && s[0] == '-' && ParseNat(s[1..]).Some? ==> r == Some(0 - ParseNat(s[1..]).value)
    ensures |s| > 0 && s[0] == '+' ==> r == ParseNat(s[1..])
    ensures |s| > 0 && IsDigit(s[0]) ==> r == ParseNat(s)
    ensures r.Some? <==> |s| > 0 && (if s[0] == '-' || s[0] == '+' then ParseNat(s[1..]).Some? else ParseNat(s).Some?)
    ensures |s| == 0 ==> r.None?
  {
    if |s| > 0 && s[0] == '-' then
      match ParseNat(s[1..])
      case Some(n) => Some(0 - n as int)
      case None => None
    else if |s| > 0 && s[0] == '+' then ParseNat(s[1..])
    else ParseNat(s)
  }

  lemma {:induction false} ParseNatToString(n: nat)
    ensures ParseNat(NatToString(n)) == Some(n)
  {
    var s := NatToString(n);
    if n < 10 {
      assert s[..0] == "";
    } else {
      ParseNatToString(n / 10);
      assert s[..|s| - 1] == NatToString(n / 10);
      assert DigitsValue(s) == DigitsValue(NatToString(n / 10)) * 10 + n % 10;
    }
  }

  /** Decimal rendering is injective: distinct numbers print differently. */
  lemma NatToStringInjective(m: nat, n: nat)
    requires NatToString(m) == NatToString(n)
    ensures m == n
  {
    ParseNatToString(m);
    ParseNatToString(n);
  }

  lemma ParseIntToString(i: int)
    ensures ParseInt(IntToString(i)) == Some(i)
  {
    if i < 0 {
      var s := IntToString(i);
      assert s[1..] == NatToString(-i);
      ParseNatToString(-i);
    } else {
      ParseNatToString(i);
    }
  }
}

=== FILE: wrappers.dfy ===
/** Optional values, standing in for Python's `None` and for the error
    paths (a `KeyError`, an `IndexError`, a failing `assert`) of the
    modelled code. */
module Wrappers {

  datatype Option<+T> = None | Some(value: T) {

    /** Returns the value held in Some, or `default` for None */
    function GetOr(default: T): T {
      match this
      case Some(v) => v
      case None => default
    }
  }
}
